=== FILE: README.md ===
# ft_vox core in Dafny

A model of the CPU side of the ft_vox voxel engine, with proofs about it. It covers:

- **Chunks.** A chunk is 32 x 32 x 32 block ids with an `isEmpty` flag. The model covers the staircase terrain the constructor fills in, indexing and the bounds rules of `getBlock`, `setBlock` and `isBlockSolid`, and the `loadChunkAt` map with the loading loops around the player.
- **The mesher.** `generateMesh` walks the chunk and emits a face wherever a solid, displayable block has a non-solid neighbour. `addFace` packs each corner into a 32-bit vertex of layout `[X:6][Y:6][Z:6][Normal:3][UV:2][Texture:7]` and writes 4 vertices and 6 indices per quad.
- **The mesh buffer pool.** One vertex buffer and one index buffer, each filled by a bump cursor. `uploadMesh` stages the spans, copies them and advances the cursors, or throws when the mesh does not fit. `reset` rewinds the cursors.
- **The voxel renderer's CPU work.**
  - The `ChunkPos` comparator.
  - The 64 x 64 grid of test chunks and their neighbour lookups.
  - The rule that only the first non-empty mesh is uploaded and then shared by every chunk.
  - The per-chunk draw commands and chunk data that `drawVoxels` uploads.
- **The descriptor helpers.**
  - The growable allocator, with a ready list and a full list, pool growth capped at 4092 sets, and one retry on pool exhaustion.
  - The layout builder.
  - The writer.
- **Deletion queues and the frame ring.** Deletion queues run LIFO. The two-slot frame ring is indexed by `frameNumber % 2`. The model covers construction order, teardown order and the initial states of the sync objects.
- **The renderer.**
  - The fence protocol of `draw`: wait, flush, reset, acquire, record, submit, present.
  - `checkVkResult`, `resizeSwapchain`, the constructor's error paths and the destructor.
- **The input manager's flags.** The sticky quit flag, the edge-triggered F1 wireframe toggle, and the mouse delta.

Vulkan calls are modelled by their result codes. A fence is `Signaled`, `Unsignaled` or `Pending`. What the driver answers, and whether the GPU finishes within the one-second timeout, are parameters of each operation. A C++ throw is an `Err` carrying the exception's message.

Each module, with its file:

- `Wrappers` (wrappers.dfy): `Option` and `Result`.
- `Ints` (ints.dfy): unsigned and signed 32-bit wrap-around and the 64-bit bound.
- `Chunks` (chunk.dfy).
- `Mesher` (mesher.dfy).
- `MeshPool` (mesh_pool.dfy).
- `VoxelRenderer` (voxel_renderer.dfy).
- `Vulkan` (vulkan.dfy).
- `DeletionQueue` (deletion_queue.dfy).
- `Descriptors` (descriptors.dfy).
- `FrameManager` (frame_manager.dfy).
- `Renderer` (renderer.dfy).
- `Input` (input.dfy).

## Model

| member | source | states |
|---|---|---|
| Ints.ToU32 | src/client/Graphics/Voxel/MeshBufferPool.cpp:44-47 | conversion to `uint32_t`: the identity on values in range, otherwise reduced modulo 2^32 |
| Ints.ToU32Shift | src/common/World/ChunkMesh.cpp:92-169 | adding to a value cast to `uint32_t` wraps to the same result as casting the sum, as `baseIndex + k` relies on |
| Ints.ToI32 | src/client/Graphics/Voxel/MeshBufferPool.cpp:44-47 | conversion to `int32_t`: the identity in range, and always congruent to the input modulo 2^32 |
| Chunks.VolumeIsCube | src/common/World/Chunk.hpp:18-19 | `CHUNK_VOLUME` is `CHUNK_SIZE` cubed |
| Chunks.Index | src/common/World/Chunk.cpp:64-66 | in-bounds coordinates address a cell inside the storage array |
| Chunks.IndexDecode | src/common/World/Chunk.cpp:64-66 | x, y and z can be read back from the flat index by division and remainder, so x varies fastest |
| Chunks.CellOf | src/common/World/Chunk.cpp:64-66 | every storage index is the index of exactly one in-bounds cell: the inverse of `getIndex` |
| Chunks.CellOfIndex | src/common/World/Chunk.cpp:64-66 | decoding an encoded cell gives the cell back |
| Chunks.IndexInjective | src/common/World/Chunk.cpp:60-66 | two in-bounds cells share an index iff they are the same cell |
| Chunks.SetBlock | src/common/World/Chunk.cpp:43-51 | an out-of-bounds write changes nothing; an in-bounds write is read back by `getBlock`, leaves every other cell as it was, and clears the empty flag when the block is not air; the flag is never set by a write |
| Chunks.IsBlockSolid | src/common/World/Chunk.cpp:53-58 | solid iff the block read is not air; never solid out of bounds |
| Chunks.SetEmpty | src/common/World/Chunk.hpp:40-41 | sets the flag and leaves every block as it was |
| Chunks.GetBlock | src/common/World/Chunk.cpp:36-41 | an in-bounds read returns the stored cell at its row-major index; any out-of-bounds read returns air |
| Chunks.InBoundsExactlyStored | src/common/World/Chunk.cpp:60-66 | `isInBounds` accepts exactly the coordinates whose flat index lies in the array and decodes back to them |
| Chunks.GetBlockReadsStorage | src/common/World/Chunk.cpp:36-41 | every stored cell is reachable through `getBlock`: reading the cell of flat position i gives entry i |
| Chunks.NewChunk | src/common/World/Chunk.hpp:22-45 | a default-constructed chunk, assumed all air, is flagged empty by the `_isEmpty` initializer and every cell reads as air |
| Chunks.StaircaseChunk | src/common/World/Chunk.cpp:8-34 | the constructor's terrain: a cell is solid iff it lies below its column's height; the top block of a column is 4 when both x and z are multiples of 3 and 3 otherwise; the (up to) four cells below the top are 2; everything deeper is 1; the chunk is not empty |
| Chunks.FillStaircase | src/common/World/Chunk.cpp:16-33 | the nested fill loops give every cell below its column's height its staircase block, leave every other cell as it was, and clear the empty flag |
| Chunks.NewStaircase | src/common/World/Chunk.cpp:8-34 | the constructor, as a loop, builds exactly the staircase chunk |
| Chunks.LoadChunkAt | src/common/World/Chunk.cpp:68-74 | afterwards the key is loaded; an already loaded chunk is kept; otherwise a fresh staircase chunk is added; the other entries are untouched |
| Chunks.LoadChunkAtIdempotent | src/common/World/Chunk.cpp:68-74 | loading the same position twice is loading it once |
| Chunks.UpdateChunksAroundPlayer | src/common/World/Chunk.cpp:77-92 | after the three loading loops the map holds exactly the old keys plus every key of the box; old chunks are kept and every new one is a staircase chunk |
| Mesher.PackVertex | src/common/World/ChunkMesh.cpp:6-27 | each field is masked to its width and lands in its own bit range, and the top two bits stay clear |
| Mesher.PackRoundTrip | src/common/World/ChunkMesh.cpp:6-27 | unpacking a packed vertex gives back every in-range field |
| Mesher.PackBitsArithmetic | src/common/World/ChunkMesh.cpp:6-27 | in 32-bit word arithmetic, `packVertex`'s mask-and-shift formula (`PackBits`) equals the sum of the fields reduced modulo their widths and scaled by their bit offsets, the form `PackVertex` computes on unbounded integers |
| Mesher.FaceOnPlane | src/common/World/ChunkMesh.cpp:106-149 | every corner of a face lies on the cell's face plane on the side the normal points to, within the cell's unit cube, and inside 0..32 |
| Mesher.QuadWinding | src/common/World/ChunkMesh.cpp:106-149 | for all six directions, both triangles of the 0-1-2, 2-3-0 split have their normal pointing into the block (clockwise seen from outside), which the pipeline's `VK_FRONT_FACE_CLOCKWISE` at src/client/Graphics/Voxel/VoxelRenderer.cpp:92 treats as front-facing |
| Mesher.FaceVertexFields | src/common/World/ChunkMesh.cpp:89-159 | each emitted vertex unpacks to the corner's coordinates, the direction's normal id, the corner's UV id and the block's texture id |
| Mesher.DefensiveReturnUnreachable | src/common/World/ChunkMesh.cpp:152-154 | the early return of `addFace` is never taken for an in-bounds cell |
| Mesher.Vertices | src/common/World/ChunkMesh.cpp:156-159 | the closed-form vertex list falls into consecutive blocks of four, block k being the quad (corners 0 to 3) of face k |
| Mesher.Indices | src/common/World/ChunkMesh.cpp:163-169 | block k of the closed-form index list is the quad pattern 0, 1, 2, 0, 2, 3 based at vertex 4k, and while the 4n vertices fit 32 bits every index is below 4n |
| Mesher.QuadVertexTags | src/common/World/ChunkMesh.cpp:98-149 | the four vertices of a quad carry the face's normal id and uv ids 0, 1, 2, 3 in order |
| Mesher.QuadIndicesRange | src/common/World/ChunkMesh.cpp:163-169 | while the base plus four fits 32 bits, the six indices of a quad name only its own four vertices |
| Mesher.AddFace | src/common/World/ChunkMesh.cpp:86-170 | the defensive return leaves the buffers as they were; otherwise exactly four vertices and six indices are appended, what was written before is kept, the new vertices carry the face's normal id and uv ids 0 to 3, and while the vertex count fits 32 bits the new indices name only the new vertices |
| Mesher.AddFaceClosed | src/common/World/ChunkMesh.cpp:86-170 | `addFace` appends exactly the next face's four vertices and six indices with base index 4n |
| Mesher.EmitFacesClosed | src/common/World/ChunkMesh.cpp:86-170 | emitting a list of in-bounds faces one by one gives the closed-form mesh of that list |
| Mesher.ClosedMeshShape | src/common/World/ChunkMesh.cpp:92-169 | the mesh of n faces has 4n vertices and 6n indices, and every index points at a vertex that exists |
| Mesher.CellFacesOrder | src/common/World/ChunkMesh.cpp:51-78 | a cell emits at most six faces, in the order the six tests run |
| Mesher.FaceIfExposedMember | src/common/World/ChunkMesh.cpp:51-78 | one direction's test (`FaceIfExposed`) contributes that direction's face iff the neighbour in that direction is not solid, and nothing else |
| Mesher.CellFacesMember | src/common/World/ChunkMesh.cpp:44-78 | in a cell's face list (`CellFaces`), a face is emitted for a cell iff the cell is solid and displayable, the face is that cell's with its block id, and the neighbour in that direction is not solid (out of bounds counts as not solid) |
| Mesher.CellFacesBounds | src/common/World/ChunkMesh.cpp:44-78 | a cell's faces are all in bounds and at most six |
| Mesher.BoundaryFaceEmitted | src/common/World/ChunkMesh.cpp:51-78 | a displayable solid block on the chunk's border always shows its outward face |
| Mesher.ChunkFacesOf | src/common/World/ChunkMesh.cpp:39-81 | a whole chunk yields in-bounds faces, at most six per cell |
| Mesher.NoFacesChunk | src/common/World/ChunkMesh.cpp:39-81 | a chunk whose cells emit nothing yields no faces |
| Mesher.ChunkFacesIn | src/common/World/ChunkMesh.cpp:39-81 | when every cell lists only its own faces, the three nested loops list exactly the faces of the chunk's cells, no more and no fewer |
| Mesher.ChunkFacesMember | src/common/World/ChunkMesh.cpp:39-81 | over the whole chunk, a face is emitted iff its cell is in the chunk and holds a displayable non-air block with the face's block id, and the neighbour in the face's direction is not solid |
| Mesher.ChunkMeshShape | src/common/World/ChunkMesh.cpp:30-84 | a chunk's mesh is the closed-form mesh of its faces: 4 vertices and 6 indices per face, at most 6 faces per cell, all indices in range |
| Mesher.ChunkMeshClosed | src/common/World/ChunkMesh.cpp:30-84 | the `generateMesh` reference (`ChunkMesh`) gives an empty-flagged chunk nothing; otherwise its mesh is that of the faces of all cells in x, y, z loop order |
| Mesher.EmptyChunkMesh | src/common/World/ChunkMesh.cpp:32-37 | a chunk that is flagged empty or is all air meshes to no vertices and no indices |
| Mesher.AddIfExposed | src/common/World/ChunkMesh.cpp:51-78 | one direction's test appends that face's quad iff it is exposed |
| Mesher.MeshCell | src/common/World/ChunkMesh.cpp:42-79 | one cell appends exactly its exposed faces |
| Mesher.MeshColumn | src/common/World/ChunkMesh.cpp:41-80 | the innermost z loop appends one column's faces, cell by cell |
| Mesher.MeshSlice | src/common/World/ChunkMesh.cpp:40-81 | the y loop appends one slice's faces |
| Mesher.MeshChunk | src/common/World/ChunkMesh.cpp:39-81 | the outer x loop, run from empty buffers, produces the closed-form mesh of the chunk's faces |
| Mesher.GenerateMesh | src/common/World/ChunkMesh.cpp:30-84 | clears its outputs and produces exactly the chunk's mesh whatever the buffers held before: nothing for an empty-flagged chunk, whatever ids it holds (the registry is consulted only for a chunk not flagged empty), otherwise four vertices and six indices per exposed face (at most six per cell), every index naming an emitted vertex |
| MeshPool.NewPool | src/client/Graphics/Voxel/MeshBufferPool.cpp:13-23 | a new pool owns its two buffers with both cursors at 0 |
| MeshPool.Fits | src/client/Graphics/Voxel/MeshBufferPool.cpp:38-42 | the byte-size capacity test holds iff the vertex cursor stays within 256 Mi words and the index cursor within 512 Mi words after the spans |
| MeshPool.UploadMesh | src/client/Graphics/Voxel/MeshBufferPool.cpp:32-99 | with the staging and submit calls succeeding, throws "MeshBufferPool is out of memory!" iff either span would pass its buffer's end; otherwise the allocation records the index count and the old cursors, the cursors advance by the span lengths, and the pool stays valid |
| MeshPool.UploadEffects | src/client/Graphics/Voxel/MeshBufferPool.cpp:50-92 | every non-empty span is staged, copied to its cursor's byte offset and released; an empty span does nothing |
| MeshPool.StagingBalanced | src/client/Graphics/Voxel/MeshBufferPool.cpp:57-92 | the staging buffers created, the copies recorded and the buffers destroyed name the same targets, one per non-empty span |
| MeshPool.Reset | src/client/Graphics/Voxel/MeshBufferPool.cpp:101-104 | both cursors return to 0 and the buffers are kept |
| MeshPool.UploadsContiguous | src/client/Graphics/Voxel/MeshBufferPool.cpp:44-47 | the second of two uploads starts exactly where the first ended in both buffers |
| MeshPool.UploadAfterReset | src/client/Graphics/Voxel/MeshBufferPool.cpp:101-104 | after `reset` the next allocation starts at offset 0 in both buffers |
| MeshPool.ResetFits | src/client/Graphics/Voxel/MeshBufferPool.cpp:39-42 | after `reset` an upload fails only when the mesh alone exceeds a buffer |
| MeshPool.UploadAll | src/client/Graphics/Voxel/MeshBufferPool.cpp:32-99 | a successful run of uploads gives one allocation per mesh |
| MeshPool.UploadAllLayout | src/client/Graphics/Voxel/MeshBufferPool.cpp:44-47 | in a run of uploads, mesh k starts at the first cursor plus the index counts of the meshes before it |
| MeshPool.UploadAllDisjoint | src/client/Graphics/Voxel/MeshBufferPool.cpp:44-47 | the index ranges of a run's allocations are disjoint and in order |
| VoxelRenderer.Less | src/client/Graphics/Voxel/VoxelRenderer.cpp:157-168 | `ChunkPos::operator<` never relates a key to itself and is the lexicographic order on (x, y, z) |
| VoxelRenderer.LessIsLexicographic | src/client/Graphics/Voxel/VoxelRenderer.cpp:157-168 | `ChunkPos::operator<` is lexicographic order on (x, y, z) |
| VoxelRenderer.LessStrictTotalOrder | src/client/Graphics/Voxel/VoxelRenderer.cpp:157-168 | the comparator is irreflexive, asymmetric, transitive and total, which an ordered-map key needs |
| VoxelRenderer.GridKeyAt | src/client/Graphics/Voxel/VoxelRenderer.cpp:186-203 | the loops put chunk (x, 0, z) at position 64(x + 32) + (z + 32) |
| VoxelRenderer.GridKeysExact | src/client/Graphics/Voxel/VoxelRenderer.cpp:173-203 | the grid holds exactly the keys with y = 0 and x, z in [-32, 32): 4096 of them, within `MAX_CHUNKS` |
| VoxelRenderer.GridKeysSorted | src/client/Graphics/Voxel/VoxelRenderer.cpp:186-203 | the loops create keys in strictly increasing comparator order |
| VoxelRenderer.BuildGrid | src/client/Graphics/Voxel/VoxelRenderer.cpp:179-203 | the loops produce the grid's keys and, for each, the world position of the key scaled by 32 |
| VoxelRenderer.GridWorld | src/client/Graphics/Voxel/VoxelRenderer.cpp:186-203 | the map holds exactly the grid keys, each mapped to the staircase chunk (given an all-air default-constructed start, see Chunks.NewChunk under Left out) |
| VoxelRenderer.FindNeighbor | src/client/Graphics/Voxel/VoxelRenderer.cpp:213-216 | finds a neighbour iff the offset key is in the map, and then returns that chunk |
| VoxelRenderer.NeighboursOf | src/client/Graphics/Voxel/VoxelRenderer.cpp:218-223 | each of the six neighbours is present iff the map holds the key one step away in its direction (North +z, South -z, East +x, West -x, Top +y, Bottom -y), and is then that chunk |
| VoxelRenderer.GridNeighbours | src/client/Graphics/Voxel/VoxelRenderer.cpp:218-223 | in the grid, the up and down neighbours are always missing, and a horizontal neighbour exists iff it stays inside the grid |
| VoxelRenderer.FirstNonEmpty | src/client/Graphics/Voxel/VoxelRenderer.cpp:232-234 | the first mesh with vertices and indices, or none when every mesh is skipped |
| VoxelRenderer.UploadLoop | src/client/Graphics/Voxel/VoxelRenderer.cpp:232-249 | a finished loop made at most one upload, none when an allocation was already held, and left the state as it was when it made none; its only error is the pool's out-of-memory throw |
| VoxelRenderer.UploadLoopHeld | src/client/Graphics/Voxel/VoxelRenderer.cpp:238-243 | once an allocation is held, the loop uploads nothing more |
| VoxelRenderer.UploadLoopOnce | src/client/Graphics/Voxel/VoxelRenderer.cpp:211-244 | starting without an allocation, the loop uploads exactly the first non-empty mesh once (or fails as that upload fails); with no non-empty mesh it uploads nothing |
| VoxelRenderer.GridMeshes | src/client/Graphics/Voxel/VoxelRenderer.cpp:211-230 | one mesh per grid chunk, in loop order |
| VoxelRenderer.InitTestChunk | src/client/Graphics/Voxel/VoxelRenderer.cpp:173-250 | on success there are 4096 positions, position i being chunk key i scaled to (32x, 0, 32z), and a held allocation (the no-mesh throw is stated by VoxelRenderer.InitTestChunkFirst) |
| VoxelRenderer.InitTestChunkAgain | src/client/Graphics/Voxel/VoxelRenderer.cpp:238-243 | when an allocation is already held, nothing is uploaded again and the old allocation is kept |
| VoxelRenderer.InitTestChunkFirst | src/client/Graphics/Voxel/VoxelRenderer.cpp:209-249 | from a reset pool, the shared allocation is the first non-empty mesh uploaded at offset 0; with no non-empty mesh it throws "Failed to generate chunk mesh: no vertices or indices" |
| VoxelRenderer.BuildDrawLists | src/client/Graphics/Voxel/VoxelRenderer.cpp:258-281 | one command and one chunk-data record per position; every command draws the shared mesh once, and each record carries its position |
| VoxelRenderer.PlanUpload | src/client/Graphics/Voxel/VoxelRenderer.cpp:284-292 | nothing is drawn iff there are no commands; otherwise the two uploads are 20 and 16 bytes per chunk, and the draw count is the number of commands |
| VoxelRenderer.UploadFitsBuffers | src/client/Graphics/Voxel/VoxelRenderer.cpp:124-153 | the grid's uploads fit the buffers sized for `MAX_CHUNKS` |
| Vulkan.CheckVkResult | src/client/Graphics/Renderer.cpp:254-258 | passes iff the result is `VK_SUCCESS`, and otherwise throws the given message |
| Vulkan.WaitForFence | src/client/Graphics/Renderer.cpp:115-117 | a wait succeeds iff the fence ends signaled; an unsignaled fence with nothing pending always times out |
| Vulkan.ResetFence | src/client/Graphics/Renderer.cpp:122-123 | a reset leaves the fence unsignaled |
| Vulkan.SubmitWithFence | src/client/Graphics/Renderer.cpp:231-232 | a submission makes the fence pending |
| Vulkan.DeviceWaitIdle | src/client/Graphics/Renderer.cpp:108-111 | waiting for the device leaves nothing pending and leaves non-pending fences as they were |
| Vulkan.FenceCycle | src/client/Graphics/Renderer.cpp:115-232 | wait, reset, submit and a completed wait bring a signaled fence back to signaled |
| DeletionQueue.Push | src/client/Graphics/Core/DeletionQueue.hpp:8 | appends at the back and moves nothing else |
| DeletionQueue.Reverse | src/client/Graphics/Core/DeletionQueue.hpp:11-13 | element i of the reversal is element n-1-i of the input |
| DeletionQueue.ReverseInvolution | src/client/Graphics/Core/DeletionQueue.hpp:11-13 | reversing twice gives the sequence back |
| DeletionQueue.ReversePermutes | src/client/Graphics/Core/DeletionQueue.hpp:11-13 | reversal keeps every element with its multiplicity |
| DeletionQueue.Flush | src/client/Graphics/Core/DeletionQueue.hpp:10-15 | runs every deletor once, last pushed first, and leaves the queue empty |
| DeletionQueue.FlushRunsEachOnce | src/client/Graphics/Core/DeletionQueue.hpp:8-15 | flush runs each registered deletor once; the most recently pushed runs first; an empty queue runs nothing |
| Descriptors.CreatePool | src/client/Graphics/DescriptorAllocator.cpp:94-115 | gives a fresh pool of the requested size, or throws "Failed to create descriptor pool" when the driver refuses |
| Descriptors.Init | src/client/Graphics/DescriptorAllocator.cpp:7-20 | records the ratios, puts one pool of `maxSets` sets on the ready list, and sets the next size to 1.5 x `maxSets` |
| Descriptors.InitFresh | src/client/Graphics/DescriptorAllocator.cpp:7-20 | on a new allocator, `init` leaves exactly one ready pool, no full one, and a valid allocator |
| Descriptors.GetPool | src/client/Graphics/DescriptorAllocator.cpp:78-92 | pops the last ready pool when there is one; otherwise creates a pool of the current size and grows the next size by 1.5, capped at 4092 |
| Descriptors.GrowthCapped | src/client/Graphics/DescriptorAllocator.cpp:84-88 | the next pool size never exceeds 4092 and grows by 1.5 below the cap |
| Descriptors.GetPoolValid | src/client/Graphics/DescriptorAllocator.cpp:78-92 | `getPool` keeps every listed pool except the one it hands out, and that one is a created pool |
| Descriptors.Allocate | src/client/Graphics/DescriptorAllocator.cpp:44-76 | on success the set's pool is back on the ready list; an exhausted pool goes to the full list and the allocation is retried once from a new pool; a second failure throws "Failed to allocate descriptor set on second attempt", any other first failure throws "Failed to allocate descriptor set" (the retry's message is stated by Descriptors.Retry); a failing first `getPool` throws with the allocator unchanged and no pool in hand. The two `getPool` calls get separate pool-creation answers |
| Descriptors.FirstAttempt | src/client/Graphics/DescriptorAllocator.cpp:52-69 | an out-of-pool-memory or fragmented-pool result moves the pool to the full list; any other result keeps the full list, and any other failure throws "Failed to allocate descriptor set" |
| Descriptors.Retry | src/client/Graphics/DescriptorAllocator.cpp:60-72 | the retry succeeds iff a new pool is obtained and the driver allocates from it; a driver failure from the new pool throws "Failed to allocate descriptor set on second attempt" |
| Descriptors.AllocateValid | src/client/Graphics/DescriptorAllocator.cpp:44-76 | whatever the driver answers, the allocator stays valid (no pool listed twice, every listed pool created); on success every pool listed before is still listed; on a throw the pool in hand is on neither list |
| Descriptors.FirstAttemptValid | src/client/Graphics/DescriptorAllocator.cpp:52-69 | the first attempt keeps the allocator valid and, on success, every listed pool plus the one in hand listed |
| Descriptors.RetryValid | src/client/Graphics/DescriptorAllocator.cpp:60-75 | the retry keeps the allocator valid and, on success, every pool listed before still listed |
| Descriptors.RetryCreationRefused | src/client/Graphics/DescriptorAllocator.cpp:44-112 | with no ready pool, a granted first creation, an exhausted first pool and a refused second creation, `allocate` throws "Failed to create descriptor pool" with no pool in hand, the new first pool on the full list and the ready list empty |
| Descriptors.PushReady | src/client/Graphics/DescriptorAllocator.cpp:74 | pushing a created pool that is on neither list onto the ready list keeps the allocator valid and lists exactly one more pool |
| Descriptors.ClearPools | src/client/Graphics/DescriptorAllocator.cpp:22-31 | every full pool moves to the ready list and no pool is lost |
| Descriptors.DestroyPools | src/client/Graphics/DescriptorAllocator.cpp:33-42 | destroys exactly the listed pools and empties both lists |
| Descriptors.ClearThenDestroy | src/client/Graphics/DescriptorAllocator.cpp:22-42 | clearing keeps the allocator valid, and destroying afterwards destroys the same pools in the same order |
| Descriptors.AddBinding | src/client/Graphics/DescriptorAllocator.cpp:117-124 | appends one binding of one descriptor with no stages and keeps the earlier ones |
| Descriptors.ClearBuilder | src/client/Graphics/DescriptorAllocator.cpp:126-128 | removes every binding |
| Descriptors.WithStages | src/client/Graphics/DescriptorAllocator.cpp:133-135 | every binding gets the stages ORed into its own and is otherwise unchanged |
| Descriptors.Build | src/client/Graphics/DescriptorAllocator.cpp:130-150 | ORs the stages into the builder's bindings and creates a layout with exactly those bindings, or throws "Failed to create descriptor set layout" |
| Descriptors.BuildIdempotent | src/client/Graphics/DescriptorAllocator.cpp:133-135 | building twice with the same stages leaves the bindings as building once does |
| Descriptors.BuildCountsAdds | src/client/Graphics/DescriptorAllocator.cpp:117-150 | the layout has as many bindings as `addBinding` calls since the last `clear` |
| Descriptors.ApplyLength | src/client/Graphics/DescriptorAllocator.cpp:117-128 | after any sequence of builder calls, the binding count is the number of adds since the last clear |
| Descriptors.WriteImage | src/client/Graphics/DescriptorAllocator.cpp:152-166 | records one image info and one write of that type at that binding pointing at it, set still null; earlier writes and infos are unchanged and stay well formed |
| Descriptors.WriteBuffer | src/client/Graphics/DescriptorAllocator.cpp:168-182 | the same for one buffer range |
| Descriptors.ClearWriter | src/client/Graphics/DescriptorAllocator.cpp:184-188 | empties the infos and the writes |
| Descriptors.UpdateSet | src/client/Graphics/DescriptorAllocator.cpp:190-197 | every write targets the given set and is otherwise unchanged, and the infos are kept |
| Descriptors.UpdateSetLastWins | src/client/Graphics/DescriptorAllocator.cpp:190-197 | updating twice is the same as updating once with the second set |
| FrameManager.CurrentSlot | src/client/Graphics/Rendering/FrameManager.cpp:20-22 | the current slot is always a valid index into the two-slot ring, namely `frameNumber % 2` |
| FrameManager.GetCurrentFrame | src/client/Graphics/Rendering/FrameManager.cpp:20-22 | returns the current slot's frame data |
| FrameManager.IncrementFrame | src/client/Graphics/FrameManager.hpp:34 | the 64-bit counter steps by one and wraps at 2^64; the slots are untouched |
| FrameManager.SlotsAlternate | src/client/Graphics/FrameManager.hpp:22-34 | consecutive frames use the other slot, even across the wrap |
| FrameManager.SlotOfFrame | src/client/Graphics/FrameManager.hpp:34-42 | counting from 0, frame k uses slot k mod 2 and no slot's data changes |
| FrameManager.Construct | src/client/Graphics/Rendering/FrameManager.cpp:7-11 | succeeds iff every driver call is granted, giving a ring at frame 0 with a pool, a command buffer, a signaled fence and a 1000-set descriptor allocator per slot, and the six registrations in push order |
| FrameManager.CreateFrameCommandPools | src/client/Graphics/Rendering/FrameManager.cpp:24-55 | each slot gets a pool and a command buffer, and each pool's destruction is registered |
| FrameManager.CreateFrameSyncStructures | src/client/Graphics/Rendering/FrameManager.cpp:57-73 | each slot's fence is created signaled, and its destruction is registered |
| FrameManager.InitFrameDescriptors | src/client/Graphics/Rendering/FrameManager.cpp:75-88 | each slot's allocator starts with one ready 1000-set pool, and its pool destruction is registered |
| FrameManager.Destroy | src/client/Graphics/Rendering/FrameManager.cpp:13-18 | flushes slot 0's queue, then slot 1's, then the ring's own queue, and leaves all three empty |
| FrameManager.TeardownOrder | src/client/Graphics/Rendering/FrameManager.cpp:13-88 | a constructed ring is torn down in reverse: descriptor pools, then fences, then command pools |
| FrameManager.SlotQueuesFirst | src/client/Graphics/Rendering/FrameManager.cpp:13-18 | teardown runs every deferred deletion exactly once, all per-slot ones before the ring's own |
| Renderer.CurrentSlot | src/client/Graphics/Renderer.cpp:113-123 | the slot `draw` works on is a valid index, namely `frameNumber % 2` |
| Renderer.CreateFence | src/client/Graphics/Renderer.cpp:290-327 | a fence starts signaled iff it is created with the signaled bit, and never pending |
| Renderer.Construct | src/client/Graphics/Renderer.cpp:22-106 | succeeds iff every driver call is granted, into the initial state: frame 0, no resize pending (assumed, see Left out), every fence signaled, every semaphore unsignaled, empty per-slot queues, per-slot allocators initialised with 1000 sets (next size 1500), the global one with 10 (next size 15), and the 14 registrations in push order |
| Renderer.CreateFrameCommandPools | src/client/Graphics/Renderer.cpp:260-288 | registers both slots' command pools after the draw images |
| Renderer.CreateFrameSyncStructures | src/client/Graphics/Renderer.cpp:290-327 | per slot, a fence created signaled and two semaphores created unsignaled, each registered |
| Renderer.InitFrameDescriptors | src/client/Graphics/Renderer.cpp:54-66 | each slot's allocator starts with a 1000-set pool, and its destruction is registered |
| Renderer.BeginFrame | src/client/Graphics/Renderer.cpp:119-120 | the slot's deletion queue is flushed and its descriptor pools cleared; the slot's fence and semaphores, the other slot, the frame counter, the resize flag, the global descriptors and the main deletion queue are unchanged |
| Renderer.RecordSubmitPresent | src/client/Graphics/Renderer.cpp:138-251 | the fence is pending iff the submit happened; `draw` returns iff presentation succeeded or was out of date, and the frame counter then advances |
| Renderer.Draw | src/client/Graphics/Renderer.cpp:113-252 | the steps taken are a prefix of wait, flush, reset, acquire, record, submit, present, as written |
| Renderer.DrawFixed | src/client/Graphics/Renderer.cpp:113-252 | the corrected steps are a prefix of wait, flush, acquire, reset, record, submit, present |
| Renderer.ResizeSwapchain | src/client/Graphics/Renderer.cpp:611-630 | waits for the device, clears the resize flag and leaves the fences otherwise as they were |
| Renderer.DrawProtocol | src/client/Graphics/Renderer.cpp:113-252 | the slot is flushed only after its fence wait succeeded; an image is acquired only after the fence was reset; the fence ends pending only through this draw's submit or an earlier pending submission; the other slot is untouched; a throw never advances the frame counter |
| Renderer.PresentOutOfDate | src/client/Graphics/Renderer.cpp:244-251 | an out-of-date present is not an error: it requests a resize and the frame counter still advances |
| Renderer.AcquireOutOfDate | src/client/Graphics/Renderer.cpp:122-134 | an out-of-date acquire returns with a resize requested, the frame counter unchanged and the slot's fence reset but never submitted |
| Renderer.OutOfDateStallsNextDraw | src/client/Graphics/Renderer.cpp:113-134 | after an out-of-date acquire, the next `draw` throws "Failed to wait for fence", with or without a resize in between |
| Renderer.InitialNoIdleFence | src/client/Graphics/Renderer.cpp:290-327 | every fence of a fresh renderer can be waited on |
| Renderer.DrawFixedKeepsFences | src/client/Graphics/Renderer.cpp:113-252 | the corrected `draw` leaves every fence waitable whenever it returns |
| Renderer.ResizeKeepsFences | src/client/Graphics/Renderer.cpp:611-630 | a resize leaves every fence waitable |
| Renderer.DrawFixedWaitSucceeds | src/client/Graphics/Renderer.cpp:115-117 | with every fence waitable and the GPU keeping up, the corrected `draw` never fails at its wait |
| Renderer.SignaledWaitSucceeds | src/client/Graphics/Renderer.cpp:115-117 | with the slot's fence signaled, neither version fails at its wait |
| Renderer.DrawFixedOutOfDate | src/client/Graphics/Renderer.cpp:127-134 | in the corrected `draw`, an out-of-date acquire requests a resize and leaves the fence signaled |
| Renderer.DrawFixedOutOfDateRecovers | src/client/Graphics/Renderer.cpp:113-134 | after an out-of-date acquire, the next corrected `draw` does not fail at its wait, with or without a resize |
| Renderer.RunFixedNeverStalls | src/client/Graphics/Renderer.cpp:113-252 | over any run of frames with the GPU keeping up, the corrected `draw` never throws "Failed to wait for fence" and keeps every fence waitable |
| Renderer.Destroy | src/client/Graphics/Renderer.cpp:108-111 | waits for the device, so no fence is pending, then runs every main registration once, newest first |
| Renderer.TeardownOrder | src/client/Graphics/Renderer.cpp:22-111 | a constructed renderer is torn down in exactly the reverse of its construction order |
| Input.ProcessEvent | src/client/Core/InputManager.cpp:7-31 | quit is set by the quit event or Escape and is never cleared; F1 down toggles only when F1 was not held; F1 up re-arms; motion overwrites the delta; other events leave the flags alone |
| Input.OtherEventsIgnored | src/client/Core/InputManager.cpp:7-31 | unrelated events and key-ups change nothing |
| Input.NewFrame | src/client/Core/InputManager.cpp:33-35 | zeroes the mouse delta and keeps the flags |
| Input.IsWireframeToggled | src/client/Core/InputManager.cpp:49-55 | reports the pending toggle and consumes it |
| Input.ToggleReportedOnce | src/client/Core/InputManager.cpp:49-55 | a toggle is reported once; asking again straight away gives false |
| Input.QuitSticky | src/client/Core/InputManager.cpp:8-14 | after a run of events, quit is set iff it was already set or some event asked to quit |
| Input.ToggleOnPress | src/client/Core/InputManager.cpp:16-25 | the held flag follows the last F1 transition, and a toggle is pending iff one was or F1 went down at least once while not held |
| Input.HeldKeyTogglesOnce | src/client/Core/InputManager.cpp:16-21 | auto-repeated F1 key-downs toggle at most once |
| Input.ReleaseRearms | src/client/Core/InputManager.cpp:16-25 | after the toggle is consumed, a release followed by a press toggles again |
| Input.LastMotion | src/client/Core/InputManager.cpp:27-30 | the position of the last motion event, with no motion event after it |
| Input.LastMotionWins | src/client/Core/InputManager.cpp:27-30 | the delta after a run is that of the last motion event, or unchanged when there is none |

## Left out

- Descriptors.Init: the next pool size `static_cast<uint32_t>(maxSets * 1.5F)` is taken as the exact `maxSets * 3 / 2`. This agrees with single-precision rounding for the sizes used (1000, 1500, 2250, 3375) but is not proved for every 32-bit size.
- Descriptors.GetPool: the same float growth, modelled as `n * 3 / 2`.
- Descriptors.CreatePool: the per-type descriptor counts (`ratio * setCount` in float) are recorded as ratios, not computed, because floating point is not modelled.
- Mesher.IsDisplayable: the block registry's JSON loading is not modelled. The registry is a given table of `MAX_BLOCKS` flags. Block colours and `getBlockColor` are left out because they do not affect which faces are emitted.
- VoxelRenderer.GridMeshes: the neighbour-aware `generateMesh` overload the voxel renderer calls is not part of this model. Its result is a parameter (`meshOf`), and the properties proved hold for any mesher.
- VoxelRenderer.PlanUpload: `GPUChunkData` is taken as 16 bytes (a vec3 and a padding float). Its definition is not part of this model.
- The GPU side of `drawVoxels` is not modelled: pipeline binding, push constants and the indirect draw call. Neither are `initMDI` buffer creation or pipeline construction. These are driver calls with no CPU logic beyond the sizes modelled.
- Renderer.Construct: `_resizeRequested` has no initializer in the source. Renderer.hpp does not declare it, and src/client/Graphics/Renderer.cpp:22-23 does not initialise it. It is assumed to start false, which `Initial` states. Renderer.RunFixedNeverStalls does not depend on this assumption.
- Renderer.Construct: swapchain, buffer manager, mesh manager and voxel renderer construction are external and not part of this model. Draw-image creation is one step. ImGui initialisation is one step with its own error message.
- Renderer.Draw: command recording, image layout transitions, blits and the ImGui pass are reduced to one "recorded" step. Their errors are the driver results the model takes as parameters.
- Renderer.Draw: semaphore signalling between acquire, submit and present is not tracked. Only the fence state is.
- Renderer.Draw: the per-frame deletion queue's contents are abstract numbers, because the closures capture driver objects.
- Vulkan.WaitForFence: whether a wait on a pending fence completes within the one-second `VULKAN_TIMEOUT_NS` (src/client/Graphics/Rendering/CommandExecutor.hpp:12) is a parameter of the call. The wait is bounded by that timeout, as the code passes it, not indefinite.
- The camera, `updateCamera`, `isKeyPressed`, `isKeyDown` and `isMouseButtonPressed` are not modelled: they read SDL's live keyboard and mouse state.
- Chunks.UpdateChunksAroundPlayer: the box bounds are parameters. The source computes them as `floor((p -/+ viewDistance) / 32)` in floating point, which is not modelled.
- Chunks.NewChunk: `Chunk()` is declared at src/common/World/Chunk.hpp:22 but its definition is not part of this model, and `_blocks` (Chunk.hpp:44) has no initializer. A default-constructed chunk is assumed to hold all air. VoxelRenderer.GridWorld depends on this assumption: `initTestChunk` starts each chunk from `Chunk()` and writes only the cells below the column height. The positioned constructor (src/common/World/Chunk.cpp:8-9) does fill its storage with air, so Chunks.NewStaircase does not depend on it.
- Mesher.PackBitsArithmetic: the link from the 32-bit result to the unbounded-integer `PackVertex` (`PackBits(...) as int == PackVertex(...)`) is not proved. The lemma stops at the equivalent modulo-and-multiply expression on 32-bit words.
- MeshPool.UploadMesh: `createStagingBuffer`, `uploadToBuffer` and the `immediateSubmit` callback are foreign calls that can throw. That path is not modelled: when it throws, the cursors are unchanged and the staging buffers already created are never destroyed. The model's only error is the out-of-memory check.
- Renderer.ResizeSwapchain: rebuilding the swapchain (src/client/Graphics/Renderer.cpp:622) and `createDrawImages` (:626) can throw. That path is not modelled: it happens after the device wait and leaves `resizeRequested` set.
- The `MeshBufferPool` destructor and its deleted copy operations are not modelled, because the model has no ownership of driver memory.
- Threads and concurrency are not modelled: the engine runs on one thread, and the GPU is modelled only through fence states.
- The comment in src/common/World/ChunkMesh.cpp calls the winding counter-clockwise. Mesher.QuadWinding proves the triangles are clockwise seen from outside, which matches the pipeline's `VK_FRONT_FACE_CLOCKWISE` (src/client/Graphics/Voxel/VoxelRenderer.cpp:92).

## Findings

| source | as written | input that shows it | evidently intended | confidence | as-written member | corrected member |
|---|---|---|---|---|---|---|
| src/client/Graphics/Renderer.cpp:122-134 | `draw` resets the frame's fence before acquiring the swapchain image. When the acquire returns `VK_ERROR_OUT_OF_DATE_KHR`, `draw` returns with the fence unsignaled, nothing submitted and `frameNumber` unchanged. `resizeSwapchain` does not recreate the fences. | Acquire returns `VK_ERROR_OUT_OF_DATE_KHR` (for example, a window resize). The next `draw` uses the same slot, and its wait on the unsignaled, never-submitted fence times out after one second and throws "Failed to wait for fence". | Reset the fence only after the image has been acquired, so an early return leaves it signaled. | not executed | Renderer.OutOfDateStallsNextDraw | Renderer.DrawFixedOutOfDateRecovers |

=== FILE: chunk.dfy ===
/**
 * Dense storage of one cubic chunk of the voxel world: 32 x 32 x 32 one-byte
 * block ids in a flat row-major array, with bounds-checked accessors and a
 * sticky "is empty" hint.
 */
module Chunks {

  /** Side length of a chunk, in cells. */
  const ChunkSize: int := 32
  /** Number of cells of a chunk: `ChunkSize` cubed. */
  const Volume: int := 32768

  lemma VolumeIsCube()
    ensures Volume == ChunkSize * ChunkSize * ChunkSize
  {
  }

  /** Block ids are unsigned 8-bit integers. */
  type BlockId = b: int | 0 <= b < 256
  /** The id that marks an empty cell. */
  const Air: BlockId := 0

  /** The raw state of a chunk: the flat cell array and the emptiness hint. */
  datatype ChunkState = ChunkState(blocks: seq<BlockId>, isEmpty: bool)

  /** A chunk always stores exactly `Volume` cells. */
  type Chunk = c: ChunkState | |c.blocks| == Volume
    witness ChunkState(seq(Volume, _ => Air), true)

  predicate InBounds(x: int, y: int, z: int) {
    0 <= x < ChunkSize && 0 <= y < ChunkSize && 0 <= z < ChunkSize
  }

  /**
   * Row-major position of cell (x, y, z), x varying fastest; the arithmetic
   * is done for any integers (32 is `ChunkSize`, 1024 its square).
   */
  function Index(x: int, y: int, z: int): (i: int)
    ensures InBounds(x, y, z) ==> 0 <= i < Volume
  {
    x + 32 * y + 1024 * z
  }

  /** The three coordinates can be read back from the flat position. */
  lemma IndexDecode(x: int, y: int, z: int)
    requires InBounds(x, y, z)
    ensures Index(x, y, z) % 32 == x
    ensures (Index(x, y, z) / 32) % 32 == y
    ensures Index(x, y, z) / 1024 == z
  {
    var i := Index(x, y, z);
    assert i / 32 == y + 32 * z;
  }

  /** The cell stored at flat position `i`: the inverse of `Index`. */
  function CellOf(i: int): (cell: (int, int, int))
    requires 0 <= i < Volume
    ensures InBounds(cell.0, cell.1, cell.2)
    ensures Index(cell.0, cell.1, cell.2) == i
  {
    var q := i / 32;
    assert i == 32 * q + i % 32;
    assert q == 32 * (q / 32) + q % 32;
    assert q / 32 == i / 1024;
    (i % 32, q % 32, i / 1024)
  }

  /** Reading back the cell of an in-bounds position gives the cell. */
  lemma CellOfIndex(x: int, y: int, z: int)
    requires InBounds(x, y, z)
    ensures CellOf(Index(x, y, z)) == (x, y, z)
  {
    IndexDecode(x, y, z);
  }

  /** `Index` is injective on the chunk, so distinct cells never share storage. */
  lemma IndexInjective(x: int, y: int, z: int, a: int, b: int, c: int)
    requires InBounds(x, y, z) && InBounds(a, b, c)
    ensures Index(x, y, z) == Index(a, b, c) <==> (x, y, z) == (a, b, c)
  {
    IndexDecode(x, y, z);
    IndexDecode(a, b, c);
  }

  /** Reads a cell; any coordinate outside the chunk reads as air. */
  function GetBlock(c: Chunk, x: int, y: int, z: int): (r: BlockId)
    ensures InBounds(x, y, z) ==> r == c.blocks[Index(x, y, z)]
    ensures !InBounds(x, y, z) ==> r == Air
  {
    if !InBounds(x, y, z) then Air else c.blocks[Index(x, y, z)]
  }

  /**
   * The bounds test accepts exactly the coordinates that name a stored cell:
   * those whose flat position lies in the array and decodes back to them.
   */
  lemma InBoundsExactlyStored(x: int, y: int, z: int)
    ensures InBounds(x, y, z) <==> 0 <= Index(x, y, z) < Volume && CellOf(Index(x, y, z)) == (x, y, z)
  {
    if InBounds(x, y, z) {
      CellOfIndex(x, y, z);
    }
  }

  /** Every stored cell is readable: reading the cell of position `i` gives `blocks[i]`. */
  lemma GetBlockReadsStorage(c: Chunk, i: int)
    requires 0 <= i < Volume
    ensures var (x, y, z) := CellOf(i); GetBlock(c, x, y, z) == c.blocks[i]
  {
  }

  /**
   * Writes a cell. Out of bounds nothing changes; in bounds exactly the
   * addressed cell takes the new id, and a non-air write clears the hint.
   */
  function SetBlock(c: Chunk, x: int, y: int, z: int, id: BlockId): (r: Chunk)
    ensures !InBounds(x, y, z) ==> r == c
    ensures InBounds(x, y, z) ==> GetBlock(r, x, y, z) == id
    ensures forall a, b, d :: (a, b, d) != (x, y, z) ==> GetBlock(r, a, b, d) == GetBlock(c, a, b, d)
    ensures InBounds(x, y, z) && id != Air ==> !r.isEmpty
    ensures r.isEmpty ==> c.isEmpty
  {
    if !InBounds(x, y, z) then c
    else
      var r: Chunk := ChunkState(c.blocks[Index(x, y, z) := id], if id != Air then false else c.isEmpty);
      assert forall a, b, d :: (a, b, d) != (x, y, z) ==> GetBlock(r, a, b, d) == GetBlock(c, a, b, d) by {
        forall a, b, d | (a, b, d) != (x, y, z)
          ensures GetBlock(r, a, b, d) == GetBlock(c, a, b, d)
        {
          if InBounds(a, b, d) {
            IndexInjective(x, y, z, a, b, d);
          }
        }
      }
      r
  }

  /** A cell is solid when it lies inside the chunk and does not hold air. */
  function IsBlockSolid(c: Chunk, x: int, y: int, z: int): (solid: bool)
    ensures solid <==> GetBlock(c, x, y, z) != Air
    ensures !InBounds(x, y, z) ==> !solid
  {
    if !InBounds(x, y, z) then false else GetBlock(c, x, y, z) != Air
  }

  /** Overwrites the emptiness hint; the cells are untouched. */
  function SetEmpty(c: Chunk, empty: bool): (r: Chunk)
    ensures r.isEmpty == empty
    ensures forall x, y, z :: GetBlock(r, x, y, z) == GetBlock(c, x, y, z)
  {
    c.(isEmpty := empty)
  }

  /**
   * A fresh chunk: every cell air, as the positioned constructor fills it
   * and as a default-constructed chunk is taken to be, and the hint set.
   */
  function NewChunk(): (c: Chunk)
    ensures c.isEmpty
    ensures forall x, y, z :: GetBlock(c, x, y, z) == Air
  {
    ChunkState(seq(Volume, _ => Air), true)
  }

  /** Height of the staircase column at (x, z). */
  function ColumnHeight(x: int, z: int): int {
    (x + z) / 2
  }

  /** The block the staircase fill puts at a cell below its column height. */
  function StairBlock(x: int, y: int, z: int): BlockId {
    var h := ColumnHeight(x, z);
    if y < h - 5 then 1
    else if y < h - 1 then 2
    else if x % 3 == 0 && z % 3 == 0 then 4
    else 3
  }

  /** The block of the staircase terrain at a cell, air above the column. */
  function Terrain(x: int, y: int, z: int): BlockId {
    if y < ColumnHeight(x, z) then StairBlock(x, y, z) else Air
  }

  /** The chunk the staircase constructor produces. */
  function StaircaseChunk(): (c: Chunk)
    ensures !c.isEmpty
    ensures forall x, y, z :: InBounds(x, y, z) ==>
              (GetBlock(c, x, y, z) != Air <==> y < ColumnHeight(x, z))
    ensures forall x, y, z :: InBounds(x, y, z) && y == ColumnHeight(x, z) - 1 ==>
              GetBlock(c, x, y, z) == (if x % 3 == 0 && z % 3 == 0 then 4 else 3)
    ensures forall x, y, z :: InBounds(x, y, z) && y < ColumnHeight(x, z) - 5 ==>
              GetBlock(c, x, y, z) == 1
    ensures forall x, y, z :: InBounds(x, y, z) && ColumnHeight(x, z) - 5 <= y < ColumnHeight(x, z) - 1 ==>
              GetBlock(c, x, y, z) == 2
  {
    var c: Chunk := ChunkState(seq(Volume, i requires 0 <= i < Volume => var p := CellOf(i); Terrain(p.0, p.1, p.2)), false);
    assert forall x, y, z :: InBounds(x, y, z) ==> GetBlock(c, x, y, z) == Terrain(x, y, z) by {
      forall x, y, z | InBounds(x, y, z)
        ensures GetBlock(c, x, y, z) == Terrain(x, y, z)
      {
        CellOfIndex(x, y, z);
      }
    }
    c
  }

  /**
   * The staircase fill loop run over an existing chunk: every cell below its
   * column height gets its staircase block, every other cell keeps its id.
   */
  method FillStaircase(c0: Chunk) returns (c: Chunk)
    ensures forall x, y, z :: InBounds(x, y, z) ==>
              GetBlock(c, x, y, z) == (if y < ColumnHeight(x, z) then StairBlock(x, y, z) else GetBlock(c0, x, y, z))
    ensures !c.isEmpty
  {
    c := c0;
    var cx := 0;
    while cx < 32
      invariant 0 <= cx <= 32
      invariant forall x, y, z :: InBounds(x, y, z) ==>
                  GetBlock(c, x, y, z) ==
                  (if x < cx && y < ColumnHeight(x, z) then StairBlock(x, y, z) else GetBlock(c0, x, y, z))
      invariant cx > 0 ==> !c.isEmpty
    {
      var cz := 0;
      while cz < 32
        invariant 0 <= cz <= 32
        invariant forall x, y, z :: InBounds(x, y, z) ==>
                    GetBlock(c, x, y, z) ==
                    (if (x < cx || (x == cx && z < cz)) && y < ColumnHeight(x, z)
                     then StairBlock(x, y, z) else GetBlock(c0, x, y, z))
        invariant cx > 0 || cz > 2 ==> !c.isEmpty
      {
        var height := (cx + cz) / 2;
        var cy := 0;
        while cy < height && cy < 32
          invariant 0 <= cy <= height
          invariant forall x, y, z :: InBounds(x, y, z) ==>
                      GetBlock(c, x, y, z) ==
                      (if (x < cx || (x == cx && z < cz) || (x == cx && z == cz && y < cy)) && y < ColumnHeight(x, z)
                       then StairBlock(x, y, z) else GetBlock(c0, x, y, z))
          invariant cx > 0 || cz > 2 || cy > 0 ==> !c.isEmpty
        {
          if cy < height - 5 {
            c := SetBlock(c, cx, cy, cz, 1);
          } else if cy < height - 1 {
            c := SetBlock(c, cx, cy, cz, 2);
          } else if cy < height && cx % 3 == 0 && cz % 3 == 0 {
            c := SetBlock(c, cx, cy, cz, 4);
          } else if cy < height {
            c := SetBlock(c, cx, cy, cz, 3);
          } else {
            // `Chunk(x, y, z)` writes air here; the loop guard makes the branch dead.
            assert false;
          }
          cy := cy + 1;
        }
        cz := cz + 1;
      }
      cx := cx + 1;
    }
  }

  /** The staircase constructor: an all-air chunk followed by the fill loop. */
  method NewStaircase() returns (c: Chunk)
    ensures c == StaircaseChunk()
  {
    c := FillStaircase(NewChunk());
    var s := StaircaseChunk();
    forall i | 0 <= i < Volume
      ensures c.blocks[i] == s.blocks[i]
    {
      var p := CellOf(i);
      assert GetBlock(c, p.0, p.1, p.2) == c.blocks[i];
      assert GetBlock(s, p.0, p.1, p.2) == s.blocks[i];
    }
  }

  /** Chunk coordinates used as the key of the loaded-chunk map. */
  type ChunkKey = (int, int, int)

  /**
   * Loads the chunk at (x, y, z) into the map unless one is already there;
   * a new entry is a staircase chunk and no other entry changes.
   */
  function LoadChunkAt(loaded: map<ChunkKey, Chunk>, x: int, y: int, z: int): (r: map<ChunkKey, Chunk>)
    ensures (x, y, z) in r
    ensures (x, y, z) in loaded ==> r == loaded
    ensures (x, y, z) !in loaded ==> r[(x, y, z)] == StaircaseChunk()
    ensures r.Keys == loaded.Keys + {(x, y, z)}
    ensures forall k :: k in loaded ==> r[k] == loaded[k]
  {
    if (x, y, z) in loaded then loaded else loaded[(x, y, z) := StaircaseChunk()]
  }

  /** Loading the same key twice is the same as loading it once. */
  lemma LoadChunkAtIdempotent(loaded: map<ChunkKey, Chunk>, x: int, y: int, z: int)
    ensures LoadChunkAt(LoadChunkAt(loaded, x, y, z), x, y, z) == LoadChunkAt(loaded, x, y, z)
  {
  }
  /** Whether a key lies in the inclusive box from `lo` to `hi`. */
  predicate InBox(k: ChunkKey, lo: ChunkKey, hi: ChunkKey) {
    lo.0 <= k.0 <= hi.0 && lo.1 <= k.1 <= hi.1 && lo.2 <= k.2 <= hi.2
  }

  /**
   * The loading loops around the player, over chunk bounds already rounded
   * down: afterwards the map holds the old keys and every key of the box;
   * old entries are kept and new ones are staircase chunks.
   */
  method UpdateChunksAroundPlayer(loaded: map<ChunkKey, Chunk>, lo: ChunkKey, hi: ChunkKey)
    returns (r: map<ChunkKey, Chunk>)
    ensures forall k :: k in r <==> k in loaded || InBox(k, lo, hi)
    ensures forall k :: k in r ==> r[k] == if k in loaded then loaded[k] else StaircaseChunk()
  {
    r := loaded;
    var x := lo.0;
    while x <= hi.0
      invariant lo.0 <= x || hi.0 < lo.0
      invariant forall k :: k in r <==> k in loaded || (InBox(k, lo, hi) && k.0 < x)
      invariant forall k :: k in r ==> r[k] == if k in loaded then loaded[k] else StaircaseChunk()
      decreases hi.0 - x
    {
      var y := lo.1;
      while y <= hi.1
        invariant forall k :: k in r <==> k in loaded || (InBox(k, lo, hi) && (k.0 < x || (k.0 == x && k.1 < y)))
        invariant forall k :: k in r ==> r[k] == if k in loaded then loaded[k] else StaircaseChunk()
        decreases hi.1 - y
      {
        var z := lo.2;
        while z <= hi.2
          invariant forall k :: k in r <==>
                      (k in loaded || (InBox(k, lo, hi) && (k.0 < x || (k.0 == x && k.1 < y) || (k.0 == x && k.1 == y && k.2 < z))))
          invariant forall k :: k in r ==> r[k] == if k in loaded then loaded[k] else StaircaseChunk()
          decreases hi.2 - z
        {
          r := LoadChunkAt(r, x, y, z);
          z := z + 1;
        }
        y := y + 1;
      }
      x := x + 1;
    }
  }
}

=== FILE: deletion_queue.dfy ===
/**
 * The deletion queue: closures pushed during set-up and run in reverse push
 * order by `flush`, which then empties the queue. A closure is modelled by a
 * value naming what it destroys.
 */
module DeletionQueue {

  datatype Queue<T> = Queue(deletors: seq<T>)

  function Empty<T>(): (q: Queue<T>)
    ensures |q.deletors| == 0
  {
    Queue([])
  }

  /** `push`: appends at the back; nothing else moves. */
  function Push<T>(q: Queue<T>, d: T): (r: Queue<T>)
    ensures |r.deletors| == |q.deletors| + 1
    ensures r.deletors[|q.deletors|] == d
    ensures r.deletors[..|q.deletors|] == q.deletors
  {
    Queue(q.deletors + [d])
  }

  /** The sequence backwards: element i is element |s| - 1 - i of `s`. */
  function Reverse<T>(s: seq<T>): (r: seq<T>)
    ensures |r| == |s|
    ensures forall i :: 0 <= i < |s| ==> r[i] == s[|s| - 1 - i]
  {
    if |s| == 0 then [] else [s[|s| - 1]] + Reverse(s[..|s| - 1])
  }

  /** Reversing twice gives the sequence back. */
  lemma ReverseInvolution<T>(s: seq<T>)
    ensures Reverse(Reverse(s)) == s
  {
  }

  /** Reversal is a permutation: every element occurs as often as before. */
  lemma {:induction false} ReversePermutes<T>(s: seq<T>)
    ensures multiset(Reverse(s)) == multiset(s)
  {
    if |s| > 0 {
      ReversePermutes(s[..|s| - 1]);
      assert s == s[..|s| - 1] + [s[|s| - 1]];
    }
  }

  /** Reversal of a concatenation swaps the parts. */
  lemma ReverseAppend<T>(a: seq<T>, b: seq<T>)
    ensures Reverse(a + b) == Reverse(b) + Reverse(a)
  {
  }

  /**
   * `flush`: walks the deletors from the back and runs each, then clears the
   * queue. Returns the emptied queue and the deletors in the order they ran.
   */
  method Flush<T>(q: Queue<T>) returns (r: Queue<T>, ran: seq<T>)
    ensures r.deletors == []
    ensures |ran| == |q.deletors|
    ensures forall i :: 0 <= i < |ran| ==> ran[i] == q.deletors[|q.deletors| - 1 - i]
    ensures ran == FlushOrder(q)
    ensures multiset(ran) == multiset(q.deletors)
  {
    ran := [];
    var k := |q.deletors|;
    while k > 0
      invariant 0 <= k <= |q.deletors|
      invariant |ran| == |q.deletors| - k
      invariant forall i :: 0 <= i < |ran| ==> ran[i] == q.deletors[|q.deletors| - 1 - i]
    {
      k := k - 1;
      ran := ran + [q.deletors[k]];
    }
    r := Queue([]);
    ReversePermutes(q.deletors);
  }

  /** The order `flush` runs the deletors in, as a function. */
  function FlushOrder<T>(q: Queue<T>): seq<T> {
    Reverse(q.deletors)
  }

  /**
   * Each deletor pushed since the last flush runs exactly once, the last
   * pushed first, and a flush right after a flush runs nothing.
   */
  lemma FlushRunsEachOnce<T>(q: Queue<T>, d: T)
    ensures multiset(FlushOrder(q)) == multiset(q.deletors)
    ensures FlushOrder(Push(q, d)) == [d] + FlushOrder(q)
    ensures FlushOrder(Empty<T>()) == []
  {
    ReversePermutes(q.deletors);
    ReverseAppend(q.deletors, [d]);
  }
}

=== FILE: descriptors.dfy ===
/**
 * Descriptor bookkeeping: the growable pool allocator with its ready and
 * full lists, the layout builder and the descriptor writer. Pools, sets,
 * buffers and images are opaque handles; whether the driver grants a
 * request is a parameter.
 */
module Descriptors {
  import opened Wrappers
  import opened Ints
  import opened Vulkan

  // ---------------------------------------------------------------------
  // The growable allocator

  /** The cap `getPool` puts on the number of sets per new pool. */
  const MaxSetsPerPool: int := 4092

  /** `static_cast<uint32_t>(n * 1.5F)`, taken as the exact n * 3 / 2. */
  function Grow(n: nat): nat {
    n * 3 / 2
  }

  /** How many descriptors of one type a pool holds per set. */
  datatype PoolSizeRatio = PoolSizeRatio(descriptorType: nat, ratio: real)

  /** A descriptor pool handle: pool h is the h-th pool created. */
  type Pool = nat

  /**
   * The allocator: the ratios, the full and ready lists, the size of the
   * next new pool, and the set count of every pool created so far.
   */
  datatype Allocator = Allocator(ratios: seq<PoolSizeRatio>, full: seq<Pool>, ready: seq<Pool>, setsPerPool: nat, created: seq<nat>)

  /** A default-constructed allocator. */
  const Default: Allocator := Allocator([], [], [], 0, [])

  /** The pools the two lists hold. */
  function Listed(a: Allocator): multiset<Pool> {
    multiset(a.ready + a.full)
  }

  /** Every listed pool has been created, and no pool is listed twice. */
  predicate Valid(a: Allocator) {
    (forall p :: p in Listed(a) ==> p < |a.created|) &&
    (forall p :: p in Listed(a) ==> Listed(a)[p] == 1)
  }

  /** `createPool`: a fresh pool of `setCount` sets, or the throw when the driver refuses. */
  function CreatePool(a: Allocator, setCount: nat, createOk: bool): (r: Result<(Allocator, Pool), string>)
    ensures r.Ok? <==> createOk
    ensures r.Err? ==> r.error == "Failed to create descriptor pool"
    ensures r.Ok? ==> var (b, p) := r.value;
            && p == |a.created| && b.created == a.created + [setCount]
            && b == a.(created := b.created)
  {
    if createOk then Ok((a.(created := a.created + [setCount]), |a.created|))
    else Err("Failed to create descriptor pool")
  }

  /**
   * `init`: replaces the ratios, creates one pool of `initialSets` sets and
   * puts it on the ready list, and sets the next pool size to 1.5 times
   * `initialSets`, with no cap.
   */
  function Init(a: Allocator, initialSets: U32, ratios: seq<PoolSizeRatio>, createOk: bool): (r: Result<Allocator, string>)
    ensures r.Ok? <==> createOk
    ensures r.Ok? ==> var b := r.value;
            && b.ratios == ratios
            && b.ready == a.ready + [|a.created|]
            && b.full == a.full
            && b.created == a.created + [initialSets]
            && b.setsPerPool == Grow(initialSets)
  {
    var a1 := a.(ratios := ratios);
    match CreatePool(a1, initialSets, createOk)
    case Err(e) => Err(e)
    case Ok((a2, pool)) => Ok(a2.(setsPerPool := Grow(initialSets), ready := a2.ready + [pool]))
  }

  /** On a fresh allocator `init` leaves exactly one ready pool and no full one. */
  lemma InitFresh(initialSets: U32, ratios: seq<PoolSizeRatio>)
    ensures var r := Init(Default, initialSets, ratios, true);
            r.Ok? && r.value.ready == [0] && r.value.full == [] && Valid(r.value) &&
            r.value.created == [initialSets]
  {
    var b := Init(Default, initialSets, ratios, true).value;
    assert Listed(b) == multiset{0};
  }

  /**
   * `getPool`: pops the last ready pool when there is one; otherwise
   * creates a pool of `setsPerPool` sets and grows `setsPerPool` by half,
   * capped at 4092.
   */
  function GetPool(a: Allocator, createOk: bool): (r: Result<(Allocator, Pool), string>)
    ensures |a.ready| > 0 ==> r.Ok? && r.value.1 == a.ready[|a.ready| - 1] &&
                              r.value.0 == a.(ready := a.ready[..|a.ready| - 1])
    ensures |a.ready| == 0 ==> (r.Ok? <==> createOk)
    ensures |a.ready| == 0 && r.Ok? ==> var (b, p) := r.value;
            && p == |a.created| && b.created == a.created + [a.setsPerPool]
            && b.setsPerPool == (if Grow(a.setsPerPool) < MaxSetsPerPool then Grow(a.setsPerPool) else MaxSetsPerPool)
            && b.ready == a.ready && b.full == a.full && b.ratios == a.ratios
  {
    if |a.ready| > 0 then
      Ok((a.(ready := a.ready[..|a.ready| - 1]), a.ready[|a.ready| - 1]))
    else
      match CreatePool(a, a.setsPerPool, createOk)
      case Err(e) => Err(e)
      case Ok((b, p)) =>
        var grown := Grow(b.setsPerPool);
        Ok((b.(setsPerPool := if grown < MaxSetsPerPool then grown else MaxSetsPerPool), p))
  }

  /** Once a pool has been created by `getPool`, the next pool size never exceeds the cap. */
  lemma GrowthCapped(a: Allocator, createOk: bool)
    requires |a.ready| == 0 && createOk
    ensures GetPool(a, createOk).value.0.setsPerPool <= MaxSetsPerPool
    ensures a.setsPerPool < 2728 ==> GetPool(a, createOk).value.0.setsPerPool == Grow(a.setsPerPool)
  {
  }

  /** Listing fewer pools, with at least as many created, keeps the allocator valid. */
  lemma ValidSub(a: Allocator, b: Allocator)
    requires Valid(a) && Listed(b) <= Listed(a) && |a.created| <= |b.created|
    ensures Valid(b)
  {
    forall q | q in Listed(b)
      ensures q < |b.created| && Listed(b)[q] == 1
    {
      assert Listed(b)[q] <= Listed(a)[q];
    }
  }

  /** `getPool` keeps every listed pool except the one it hands out, which it unlists. */
  lemma GetPoolValid(a: Allocator, createOk: bool)
    requires Valid(a)
    requires GetPool(a, createOk).Ok?
    ensures var (b, p) := GetPool(a, createOk).value;
            && Valid(b)
            && p < |b.created|
            && p !in Listed(b)
            && Listed(a) <= Listed(b) + multiset{p}
  {
    var (b, p) := GetPool(a, createOk).value;
    if |a.ready| > 0 {
      var n := |a.ready| - 1;
      assert a.ready == a.ready[..n] + [p];
      assert a.ready + a.full == b.ready + [p] + b.full;
      assert Listed(a) == Listed(b) + multiset{p};
      ValidSub(a, b);
      assert Listed(a)[p] == Listed(b)[p] + 1;
    } else {
      assert b.ready + b.full == a.ready + a.full;
      ValidSub(a, b);
    }
  }

  /**
   * What the driver answers during one `allocate`: whether the pool creation
   * of the first and of the retry `getPool` succeed (consulted only when the
   * ready list is empty), and the results of the two `vkAllocateDescriptorSets`
   * calls.
   */
  datatype Driver = Driver(firstCreateOk: bool, retryCreateOk: bool, firstResult: VkResult, retryResult: VkResult)

  /**
   * The outcome of `allocate`: the allocator afterwards, the pool last
   * obtained from `getPool` (none when `getPool` itself threw), and the pool
   * the new set came from or the error thrown.
   */
  datatype Allocated = Allocated(state: Allocator, inHand: Option<Pool>, result: Result<Pool, string>)

  /** A result that sends `allocate` to its one retry. */
  predicate PoolExhausted(r: VkResult) {
    r == ErrorOutOfPoolMemory || r == ErrorFragmentedPool
  }

  /**
   * `allocate`. On success the pool used goes back on the ready list. When
   * the first attempt reports an exhausted or fragmented pool, that pool
   * goes on the full list and one retry is made from a fresh `getPool`; any
   * other failure, or a failed retry, throws with the pool in hand on
   * neither list.
   */
  function Allocate(a: Allocator, d: Driver): (r: Allocated)
    ensures r.result.Ok? ==> r.inHand == Some(r.result.value) && |r.state.ready| > 0 &&
                             r.state.ready[|r.state.ready| - 1] == r.result.value
    ensures GetPool(a, d.firstCreateOk).Err? ==> r == Allocated(a, None, Err(GetPool(a, d.firstCreateOk).error))
    ensures GetPool(a, d.firstCreateOk).Ok? && !PoolExhausted(d.firstResult) && d.firstResult != Success ==>
              r.result == Err("Failed to allocate descriptor set")
  {
    match GetPool(a, d.firstCreateOk)
    case Err(e) => Allocated(a, None, Err(e))
    case Ok((a1, first)) => FirstAttempt(a1, first, d)
  }

  /** The first `vkAllocateDescriptorSets` call, from `first`, the pool `getPool` handed out. */
  function FirstAttempt(a1: Allocator, first: Pool, d: Driver): (r: Allocated)
    ensures r.result.Ok? ==> r.inHand == Some(r.result.value) && |r.state.ready| > 0 &&
                             r.state.ready[|r.state.ready| - 1] == r.result.value
    ensures PoolExhausted(d.firstResult) ==> r.state.full == a1.full + [first]
    ensures !PoolExhausted(d.firstResult) ==>
              r.state.full == a1.full && r.inHand == Some(first) &&
              (r.result.Ok? <==> d.firstResult == Success)
    ensures !PoolExhausted(d.firstResult) && d.firstResult != Success ==> r.result == Err("Failed to allocate descriptor set")
  {
    if PoolExhausted(d.firstResult) then Retry(a1.(full := a1.full + [first]), d)
    else if d.firstResult != Success then Allocated(a1, Some(first), Err("Failed to allocate descriptor set"))
    else Allocated(a1.(ready := a1.ready + [first]), Some(first), Ok(first))
  }

  /** The one retry, after the exhausted pool has gone on the full list. */
  function Retry(a2: Allocator, d: Driver): (r: Allocated)
    ensures r.result.Ok? ==> r.inHand == Some(r.result.value) && |r.state.ready| > 0 &&
                             r.state.ready[|r.state.ready| - 1] == r.result.value
    ensures r.state.full == a2.full
    ensures r.result.Ok? <==> GetPool(a2, d.retryCreateOk).Ok? && d.retryResult == Success
    ensures GetPool(a2, d.retryCreateOk).Ok? && d.retryResult != Success ==>
              r.result == Err("Failed to allocate descriptor set on second attempt")
  {
    match GetPool(a2, d.retryCreateOk)
    case Err(e) => Allocated(a2, None, Err(e))
    case Ok((a3, second)) =>
      if d.retryResult != Success then Allocated(a3, Some(second), Err("Failed to allocate descriptor set on second attempt"))
      else Allocated(a3.(ready := a3.ready + [second]), Some(second), Ok(second))
  }

  /**
   * What `allocate` keeps: the allocator stays valid, no listed pool is lost
   * on success, and on a throw the pool in hand is on neither list.
   */
  predicate KeepsPools(before: multiset<Pool>, r: Allocated) {
    && Valid(r.state)
    && (r.result.Err? && r.inHand.Some? ==> r.inHand.value !in Listed(r.state))
    && (r.result.Ok? ==> before <= Listed(r.state))
  }

  /** `allocate` keeps the pools, whatever the driver answers. */
  lemma AllocateValid(a: Allocator, d: Driver)
    requires Valid(a)
    ensures KeepsPools(Listed(a), Allocate(a, d))
  {
    if GetPool(a, d.firstCreateOk).Ok? {
      GetPoolValid(a, d.firstCreateOk);
      var (a1, first) := GetPool(a, d.firstCreateOk).value;
      FirstAttemptValid(a1, first, d);
    }
  }

  lemma FirstAttemptValid(a1: Allocator, first: Pool, d: Driver)
    requires Valid(a1) && first < |a1.created| && first !in Listed(a1)
    ensures KeepsPools(Listed(a1) + multiset{first}, FirstAttempt(a1, first, d))
  {
    if PoolExhausted(d.firstResult) {
      var a2 := a1.(full := a1.full + [first]);
      assert a2.ready + a2.full == (a1.ready + a1.full) + [first];
      AddListed(a1, a2, first);
      RetryValid(a2, d);
    } else if d.firstResult == Success {
      PushReady(a1, first);
    }
  }

  lemma RetryValid(a2: Allocator, d: Driver)
    requires Valid(a2)
    ensures KeepsPools(Listed(a2), Retry(a2, d))
  {
    if GetPool(a2, d.retryCreateOk).Ok? {
      GetPoolValid(a2, d.retryCreateOk);
      var (a3, second) := GetPool(a2, d.retryCreateOk).value;
      if d.retryResult == Success {
        PushReady(a3, second);
      }
    }
  }

  /**
   * With no ready pool, an exhausted first pool and a refused second pool
   * creation, `allocate` throws the creation error with no pool in hand: the
   * first pool, created moments before, stays on the full list.
   */
  lemma RetryCreationRefused(a: Allocator, d: Driver)
    requires |a.ready| == 0 && d.firstCreateOk && !d.retryCreateOk && PoolExhausted(d.firstResult)
    ensures var r := Allocate(a, d);
            && r.result == Err("Failed to create descriptor pool")
            && r.inHand.None?
            && r.state.full == a.full + [|a.created|]
            && r.state.ready == []
            && |r.state.created| == |a.created| + 1
  {
    var (a1, first) := GetPool(a, true).value;
    var a2 := a1.(full := a1.full + [first]);
    assert GetPool(a2, false) == Err("Failed to create descriptor pool");
  }

  /** Listing one more created, previously unlisted pool keeps the allocator valid. */
  lemma AddListed(a: Allocator, b: Allocator, p: Pool)
    requires Valid(a) && p < |a.created| && p !in Listed(a)
    requires Listed(b) == Listed(a) + multiset{p} && b.created == a.created
    ensures Valid(b)
  {
    forall q | q in Listed(b)
      ensures q < |b.created| && Listed(b)[q] == 1
    {
      if q == p {
        assert Listed(b)[q] == Listed(a)[q] + 1;
      } else {
        assert Listed(b)[q] == Listed(a)[q];
      }
    }
  }

  /** Putting an unlisted created pool back on the ready list keeps the allocator valid. */
  lemma PushReady(a: Allocator, p: Pool)
    requires Valid(a) && p < |a.created| && p !in Listed(a)
    ensures Valid(a.(ready := a.ready + [p]))
    ensures Listed(a.(ready := a.ready + [p])) == Listed(a) + multiset{p}
  {
    var b := a.(ready := a.ready + [p]);
    assert b.ready + b.full == a.ready + [p] + a.full;
    AddListed(a, b, p);
  }

  /**
   * `clearPools`: every full pool moves to the back of the ready list, in
   * order, after the ready pools; the full list ends empty.
   */
  function ClearPools(a: Allocator): (r: Allocator)
    ensures r.full == []
    ensures r.ready == a.ready + a.full
    ensures Listed(r) == Listed(a)
  {
    a.(ready := a.ready + a.full, full := [])
  }

  /**
   * `destroyPools`: destroys the ready pools, then the full ones, and leaves
   * both lists empty. Returns the pools in the order they are destroyed.
   */
  function DestroyPools(a: Allocator): (r: (Allocator, seq<Pool>))
    ensures r.0.ready == [] && r.0.full == []
    ensures multiset(r.1) == Listed(a)
    ensures r.1 == a.ready + a.full
  {
    (a.(ready := [], full := []), a.ready + a.full)
  }

  /** Clearing keeps validity and loses no pool; destroying after clearing destroys the same pools. */
  lemma ClearThenDestroy(a: Allocator)
    requires Valid(a)
    ensures Valid(ClearPools(a))
    ensures DestroyPools(ClearPools(a)).1 == DestroyPools(a).1
  {
  }

  // ---------------------------------------------------------------------
  // The layout builder

  /**
   * A shader stage mask, as the set of its bits; ORing two masks is the
   * union of their sets.
   */
  type StageFlags = set<nat>

  /** A layout binding. */
  datatype Binding = Binding(binding: U32, descriptorType: nat, descriptorCount: nat, stageFlags: StageFlags)

  datatype LayoutBuilder = LayoutBuilder(bindings: seq<Binding>)

  /** `addBinding`: appends a binding of one descriptor and no stages yet. */
  function AddBinding(b: LayoutBuilder, binding: U32, descriptorType: nat): (r: LayoutBuilder)
    ensures |r.bindings| == |b.bindings| + 1
    ensures r.bindings[..|b.bindings|] == b.bindings
    ensures r.bindings[|b.bindings|] == Binding(binding, descriptorType, 1, {})
  {
    LayoutBuilder(b.bindings + [Binding(binding, descriptorType, 1, {})])
  }

  /** `clear` of the builder. */
  function ClearBuilder(b: LayoutBuilder): (r: LayoutBuilder)
    ensures |r.bindings| == 0
  {
    LayoutBuilder([])
  }

  /** The layout handed to the driver: the bindings and their count. */
  datatype Layout = Layout(bindings: seq<Binding>, bindingCount: nat)

  /** The stages of every binding joined with `stages`. */
  function WithStages(bindings: seq<Binding>, stages: StageFlags): (r: seq<Binding>)
    ensures |r| == |bindings|
    ensures forall i :: 0 <= i < |r| ==> r[i].stageFlags == bindings[i].stageFlags + stages
    ensures forall i :: 0 <= i < |r| ==> r[i].(stageFlags := {}) == bindings[i].(stageFlags := {})
    decreases |bindings|
  {
    if |bindings| == 0 then []
    else WithStages(bindings[..|bindings| - 1], stages) +
         [bindings[|bindings| - 1].(stageFlags := bindings[|bindings| - 1].stageFlags + stages)]
  }

  /**
   * `build`: ORs the stages into every binding, in the builder itself, and
   * creates a layout of all of them; it throws when the driver refuses,
   * after the builder has been updated.
   */
  function Build(b: LayoutBuilder, stages: StageFlags, createOk: bool): (r: (LayoutBuilder, Result<Layout, string>))
    ensures r.0.bindings == WithStages(b.bindings, stages)
    ensures r.1.Ok? <==> createOk
    ensures r.1.Err? ==> r.1.error == "Failed to create descriptor set layout"
    ensures r.1.Ok? ==> r.1.value.bindings == r.0.bindings && r.1.value.bindingCount == |b.bindings|
  {
    var bs := WithStages(b.bindings, stages);
    (LayoutBuilder(bs), if createOk then Ok(Layout(bs, |bs|)) else Err("Failed to create descriptor set layout"))
  }

  /** Building twice with the same stages gives the same bindings as building once. */
  lemma BuildIdempotent(b: LayoutBuilder, stages: StageFlags, ok1: bool, ok2: bool)
    ensures Build(Build(b, stages, ok1).0, stages, ok2).0 == Build(b, stages, ok1).0
  {
    var once := Build(b, stages, ok1).0.bindings;
    var twice := Build(Build(b, stages, ok1).0, stages, ok2).0.bindings;
    forall i | 0 <= i < |once|
      ensures twice[i] == once[i]
    {
      assert twice[i].(stageFlags := {}) == once[i].(stageFlags := {});
    }
  }

  /** A call on the builder. */
  datatype BuilderCall = AddCall(binding: U32, descriptorType: nat) | ClearCall

  function Apply(b: LayoutBuilder, calls: seq<BuilderCall>): LayoutBuilder
    decreases |calls|
  {
    if |calls| == 0 then b
    else
      var next := match calls[0]
        case AddCall(n, t) => AddBinding(b, n, t)
        case ClearCall => ClearBuilder(b);
      Apply(next, calls[1..])
  }

  /** The number of `addBinding` calls after the last `clear`, counting from `start` if there is none. */
  function AddsSinceClear(start: nat, calls: seq<BuilderCall>): nat
    decreases |calls|
  {
    if |calls| == 0 then start
    else if calls[|calls| - 1].ClearCall? then 0
    else AddsSinceClear(start, calls[..|calls| - 1]) + 1
  }

  /**
   * The layout built after any sequence of calls reports as many bindings
   * as were added since the last `clear`.
   */
  lemma {:induction false} BuildCountsAdds(b: LayoutBuilder, calls: seq<BuilderCall>, stages: StageFlags)
    ensures Build(Apply(b, calls), stages, true).1.value.bindingCount == AddsSinceClear(|b.bindings|, calls)
    decreases |calls|
  {
    ApplyLength(b, calls);
  }

  lemma {:induction false} ApplyLength(b: LayoutBuilder, calls: seq<BuilderCall>)
    ensures |Apply(b, calls).bindings| == AddsSinceClear(|b.bindings|, calls)
    decreases |calls|
  {
    if |calls| > 0 {
      var n := |calls| - 1;
      ApplySplit(b, calls[..n], calls[n]);
      assert calls[..n] + [calls[n]] == calls;
      ApplyLength(b, calls[..n]);
    }
  }

  /** Applying one more call acts on the result of the earlier ones. */
  lemma {:induction false} ApplySplit(b: LayoutBuilder, calls: seq<BuilderCall>, c: BuilderCall)
    ensures Apply(b, calls + [c]) == Apply(Apply(b, calls), [c])
    decreases |calls|
  {
    if |calls| > 0 {
      assert (calls + [c])[1..] == calls[1..] + [c];
      var next := match calls[0]
        case AddCall(n, t) => AddBinding(b, n, t)
        case ClearCall => ClearBuilder(b);
      ApplySplit(next, calls[1..], c);
    }
  }

  // ---------------------------------------------------------------------
  // The writer

  datatype ImageInfo = ImageInfo(sampler: nat, imageView: nat, imageLayout: nat)
  datatype BufferInfo = BufferInfo(buffer: nat, offset: nat, range: nat)

  /** Which recorded info a write points at. */
  datatype InfoRef = ImageRef(index: nat) | BufferRef(index: nat)

  /** The null handle a write carries as its set until `updateSet`. */
  const NullSet: nat := 0

  datatype Write = Write(dstBinding: U32, dstSet: nat, descriptorCount: nat, descriptorType: nat, info: InfoRef)

  datatype Writer = Writer(imageInfos: seq<ImageInfo>, bufferInfos: seq<BufferInfo>, writes: seq<Write>)

  const EmptyWriter: Writer := Writer([], [], [])

  /** Every write points at an info that exists. */
  predicate WellFormed(w: Writer) {
    forall i :: 0 <= i < |w.writes| ==>
      match w.writes[i].info
      case ImageRef(k) => k < |w.imageInfos|
      case BufferRef(k) => k < |w.bufferInfos|
  }

  /**
   * `writeImage`: records the image info and a write of one descriptor
   * pointing at it, with no set yet; the binding is cast to `uint32_t`.
   */
  function WriteImage(w: Writer, binding: int, image: nat, sampler: nat, layout: nat, descriptorType: nat): (r: Writer)
    ensures WellFormed(w) ==> WellFormed(r)
    ensures r.imageInfos == w.imageInfos + [ImageInfo(sampler, image, layout)] && r.bufferInfos == w.bufferInfos
    ensures |r.writes| == |w.writes| + 1 && r.writes[..|w.writes|] == w.writes
    ensures var last := r.writes[|w.writes|];
            last.info == ImageRef(|w.imageInfos|) && r.imageInfos[|w.imageInfos|] == ImageInfo(sampler, image, layout) &&
            last.dstSet == NullSet && last.descriptorCount == 1 && last.dstBinding == ToU32(binding) &&
            last.descriptorType == descriptorType
  {
    Writer(w.imageInfos + [ImageInfo(sampler, image, layout)], w.bufferInfos,
           w.writes + [Write(ToU32(binding), NullSet, 1, descriptorType, ImageRef(|w.imageInfos|))])
  }

  /** `writeBuffer`: the same for a buffer range. */
  function WriteBuffer(w: Writer, binding: int, buffer: nat, size: nat, offset: nat, descriptorType: nat): (r: Writer)
    ensures WellFormed(w) ==> WellFormed(r)
    ensures r.bufferInfos == w.bufferInfos + [BufferInfo(buffer, offset, size)] && r.imageInfos == w.imageInfos
    ensures |r.writes| == |w.writes| + 1 && r.writes[..|w.writes|] == w.writes
    ensures var last := r.writes[|w.writes|];
            last.info == BufferRef(|w.bufferInfos|) && r.bufferInfos[|w.bufferInfos|] == BufferInfo(buffer, offset, size) &&
            last.dstSet == NullSet && last.descriptorCount == 1 && last.dstBinding == ToU32(binding) &&
            last.descriptorType == descriptorType
  {
    Writer(w.imageInfos, w.bufferInfos + [BufferInfo(buffer, offset, size)],
           w.writes + [Write(ToU32(binding), NullSet, 1, descriptorType, BufferRef(|w.bufferInfos|))])
  }

  /** `clear` of the writer: all three lists empty. */
  function ClearWriter(w: Writer): (r: Writer)
    ensures r.imageInfos == [] && r.bufferInfos == [] && r.writes == []
    ensures WellFormed(r)
  {
    EmptyWriter
  }

  /**
   * `updateSet`: every pending write is pointed at `dst`, and nothing else
   * about the writes or the infos changes.
   */
  function UpdateSet(w: Writer, dst: nat): (r: Writer)
    ensures |r.writes| == |w.writes|
    ensures forall i :: 0 <= i < |r.writes| ==> r.writes[i].dstSet == dst
    ensures forall i :: 0 <= i < |r.writes| ==> r.writes[i].(dstSet := NullSet) == w.writes[i].(dstSet := NullSet)
    ensures r.imageInfos == w.imageInfos && r.bufferInfos == w.bufferInfos
    ensures WellFormed(w) ==> WellFormed(r)
  {
    w.(writes := seq(|w.writes|, i requires 0 <= i < |w.writes| => w.writes[i].(dstSet := dst)))
  }

  /** The last `updateSet` wins: updating twice is updating once with the second set. */
  lemma UpdateSetLastWins(w: Writer, s1: nat, s2: nat)
    ensures UpdateSet(UpdateSet(w, s1), s2) == UpdateSet(w, s2)
  {
  }
}

=== FILE: frame_manager.dfy ===
/**
 * The two-slot frame ring: per-slot command pool, render fence, deletion
 * queue and descriptor allocator, a 64-bit frame counter selecting the
 * slot, and the shared queue that tears the slots down.
 */
module FrameManager {
  import opened Wrappers
  import opened Ints
  import opened Vulkan
  import D = Descriptors
  import opened DeletionQueue

  /** Number of frames in flight. */
  const FrameOverlap: int := 2

  /** The teardown closures the frame ring registers, and any a frame defers. */
  datatype Deletor =
    | DestroyCommandPool(slot: int)
    | DestroyFence(slot: int)
    | DestroyDescriptorPools(slot: int)
    | Deferred(id: nat)

  /** One slot. Handles not yet created are `false` / `None`. */
  datatype FrameData = FrameData(
    hasCommandPool: bool,
    hasCommandBuffer: bool,
    renderFence: Option<FenceState>,
    deletionQueue: Queue<Deletor>,
    frameDescriptors: D.Allocator)

  /** A slot before any of its objects is created. */
  const BlankFrame: FrameData := FrameData(false, false, None, Queue([]), D.Default)

  datatype RingState = RingState(frameNumber: U64, frames: seq<FrameData>, frameDeletionQueue: Queue<Deletor>)

  /** The ring always holds exactly `FrameOverlap` slots. */
  type Ring = r: RingState | |r.frames| == FrameOverlap
    witness RingState(0, [BlankFrame, BlankFrame], Queue([]))

  // ---------------------------------------------------------------------
  // Slot selection

  /** The slot `getCurrentFrame` returns: always a valid index into the ring. */
  function CurrentSlot(m: Ring): (s: nat)
    ensures s < FrameOverlap
    ensures s == m.frameNumber % FrameOverlap
  {
    m.frameNumber % 2
  }

  /** `getCurrentFrame`. */
  function GetCurrentFrame(m: Ring): (f: FrameData)
    ensures f in m.frames
    ensures f == m.frames[CurrentSlot(m)]
  {
    m.frames[m.frameNumber % 2]
  }

  /** `incrementFrame`: the unsigned 64-bit counter steps by one and wraps; the slots are untouched. */
  function IncrementFrame(m: Ring): (r: Ring)
    ensures r.frames == m.frames && r.frameDeletionQueue == m.frameDeletionQueue
    ensures m.frameNumber + 1 < Two64 ==> r.frameNumber == m.frameNumber + 1
    ensures m.frameNumber + 1 == Two64 ==> r.frameNumber == 0
  {
    m.(frameNumber := (m.frameNumber + 1) % Two64)
  }

  /** Consecutive frames use the other slot, including across the counter's wrap. */
  lemma SlotsAlternate(m: Ring)
    ensures CurrentSlot(IncrementFrame(m)) == 1 - CurrentSlot(m)
  {
    if m.frameNumber + 1 == Two64 {
      assert m.frameNumber % 2 == 1;
    }
  }

  function IncrementTimes(m: Ring, k: nat): Ring
    decreases k
  {
    if k == 0 then m else IncrementFrame(IncrementTimes(m, k - 1))
  }

  /**
   * Counting from frame 0, the k-th frame after uses slot k mod 2, so the
   * slots go 0, 1, 0, 1, ... for ever.
   */
  lemma {:induction false} SlotOfFrame(m: Ring, k: nat)
    requires m.frameNumber == 0
    ensures CurrentSlot(IncrementTimes(m, k)) == k % 2
    ensures IncrementTimes(m, k).frames == m.frames
    decreases k
  {
    if k > 0 {
      SlotOfFrame(m, k - 1);
      SlotsAlternate(IncrementTimes(m, k - 1));
    }
  }

  // ---------------------------------------------------------------------
  // Construction and destruction

  /** One driver call of the constructor, for slot `slot`. */
  datatype Step =
    | CreateCommandPool(slot: int)
    | AllocateCommandBuffer(slot: int)
    | CreateFence(slot: int)
    | InitDescriptors(slot: int)

  /** Every call the constructor makes is granted. */
  predicate AllGranted(grants: Step -> bool) {
    && grants(CreateCommandPool(0)) && grants(AllocateCommandBuffer(0))
    && grants(CreateCommandPool(1)) && grants(AllocateCommandBuffer(1))
    && grants(CreateFence(0)) && grants(CreateFence(1))
    && grants(InitDescriptors(0)) && grants(InitDescriptors(1))
  }

  /** The per-frame descriptor ratios: storage image, storage buffer, uniform buffer 3 each, combined image sampler 4. */
  const FrameSizes: seq<D.PoolSizeRatio> := [
    D.PoolSizeRatio(3, 3.0), D.PoolSizeRatio(7, 3.0), D.PoolSizeRatio(6, 3.0), D.PoolSizeRatio(1, 4.0)]

  /** The sets of each slot's first descriptor pool. */
  const InitialFrameSets: int := 1000

  /** The registrations of a fully constructed ring, in push order. */
  const Registrations: seq<Deletor> := [
    DestroyCommandPool(0), DestroyCommandPool(1),
    DestroyFence(0), DestroyFence(1),
    DestroyDescriptorPools(0), DestroyDescriptorPools(1)]

  /** A ring as the constructor's initializer list leaves it: frame 0, nothing created. */
  const BlankRing: Ring := RingState(0, [BlankFrame, BlankFrame], Queue([]))

  /**
   * The constructor: command pools and buffers, then signaled fences, then
   * descriptor allocators, registering a teardown closure after every
   * successful creation; the first refused call throws.
   */
  method Construct(grants: Step -> bool) returns (r: Result<Ring, string>)
    ensures r.Ok? <==> AllGranted(grants)
    ensures r.Ok? ==> r.value.frameNumber == 0 && r.value.frameDeletionQueue.deletors == Registrations
    ensures r.Ok? ==> forall j :: 0 <= j < FrameOverlap ==>
              var f := r.value.frames[j];
              && f.renderFence == Some(Signaled)
              && f.hasCommandPool && f.hasCommandBuffer
              && f.deletionQueue.deletors == []
              && f.frameDescriptors.setsPerPool == 1500
              && |f.frameDescriptors.ready| == 1 && f.frameDescriptors.full == []
  {
    var pools := CreateFrameCommandPools(grants);
    if pools.Err? {
      return Err(pools.error);
    }
    var sync := CreateFrameSyncStructures(pools.value, grants);
    if sync.Err? {
      return Err(sync.error);
    }
    var descriptors := InitFrameDescriptors(sync.value, grants);
    if descriptors.Err? {
      return Err(descriptors.error);
    }
    r := Ok(descriptors.value);
  }

  /** `createFrameCommandPools`, run first, on the blank ring. */
  method CreateFrameCommandPools(grants: Step -> bool) returns (r: Result<Ring, string>)
    ensures r.Ok? <==> forall j :: 0 <= j < FrameOverlap ==> grants(CreateCommandPool(j)) && grants(AllocateCommandBuffer(j))
    ensures r.Ok? ==> r.value.frameNumber == 0 && r.value.frameDeletionQueue.deletors == Registrations[..2]
    ensures r.Ok? ==> forall j :: 0 <= j < FrameOverlap ==>
              r.value.frames[j] == BlankFrame.(hasCommandPool := true, hasCommandBuffer := true)
  {
    var frames := BlankRing.frames;
    var q := BlankRing.frameDeletionQueue;
    var i := 0;
    while i < 2
      invariant 0 <= i <= 2 && |frames| == 2
      invariant forall j :: 0 <= j < i ==> grants(CreateCommandPool(j)) && grants(AllocateCommandBuffer(j))
      invariant q.deletors == Registrations[..i]
      invariant forall j :: 0 <= j < 2 ==>
                  frames[j] == if j < i then BlankFrame.(hasCommandPool := true, hasCommandBuffer := true) else BlankFrame
    {
      if !grants(CreateCommandPool(i)) {
        return Err("Failed to create command pool");
      }
      frames := frames[i := frames[i].(hasCommandPool := true)];
      q := Push(q, DestroyCommandPool(i));
      if !grants(AllocateCommandBuffer(i)) {
        return Err("Failed to allocate command buffers");
      }
      frames := frames[i := frames[i].(hasCommandBuffer := true)];
      i := i + 1;
    }
    r := Ok(RingState(0, frames, q));
  }

  /** `createFrameSyncStructures`: one fence per slot, created signaled. */
  method CreateFrameSyncStructures(m: Ring, grants: Step -> bool) returns (r: Result<Ring, string>)
    requires m.frameDeletionQueue.deletors == Registrations[..2]
    ensures r.Ok? <==> forall j :: 0 <= j < FrameOverlap ==> grants(CreateFence(j))
    ensures r.Ok? ==> r.value.frameNumber == m.frameNumber && r.value.frameDeletionQueue.deletors == Registrations[..4]
    ensures r.Ok? ==> forall j :: 0 <= j < FrameOverlap ==>
              r.value.frames[j] == m.frames[j].(renderFence := Some(Signaled))
  {
    var frames := m.frames;
    var q := m.frameDeletionQueue;
    var i := 0;
    while i < 2
      invariant 0 <= i <= 2 && |frames| == 2
      invariant forall j :: 0 <= j < i ==> grants(CreateFence(j))
      invariant q.deletors == Registrations[..2 + i]
      invariant forall j :: 0 <= j < 2 ==>
                  frames[j] == if j < i then m.frames[j].(renderFence := Some(Signaled)) else m.frames[j]
    {
      if !grants(CreateFence(i)) {
        return Err("Failed to create render fence");
      }
      frames := frames[i := frames[i].(renderFence := Some(Signaled))];
      q := Push(q, DestroyFence(i));
      i := i + 1;
    }
    r := Ok(m.(frames := frames, frameDeletionQueue := q));
  }

  /** `initFrameDescriptors`: each slot's allocator starts with 1000 sets. */
  method InitFrameDescriptors(m: Ring, grants: Step -> bool) returns (r: Result<Ring, string>)
    requires m.frameDeletionQueue.deletors == Registrations[..4]
    requires forall j :: 0 <= j < FrameOverlap ==> m.frames[j].frameDescriptors == D.Default
    ensures r.Ok? <==> forall j :: 0 <= j < FrameOverlap ==> grants(InitDescriptors(j))
    ensures r.Ok? ==> r.value.frameNumber == m.frameNumber && r.value.frameDeletionQueue.deletors == Registrations
    ensures r.Ok? ==> forall j :: 0 <= j < FrameOverlap ==>
              var a := r.value.frames[j].frameDescriptors;
              && r.value.frames[j] == m.frames[j].(frameDescriptors := a)
              && a.setsPerPool == 1500 && |a.ready| == 1 && a.full == []
  {
    D.InitFresh(InitialFrameSets, FrameSizes);
    ghost var initialized := D.Init(D.Default, InitialFrameSets, FrameSizes, true).value;
    var frames := m.frames;
    var q := m.frameDeletionQueue;
    var i := 0;
    while i < 2
      invariant 0 <= i <= 2 && |frames| == 2
      invariant forall j :: 0 <= j < i ==> grants(InitDescriptors(j))
      invariant q.deletors == Registrations[..4 + i]
      invariant forall j :: 0 <= j < 2 ==>
                  frames[j] == if j < i then m.frames[j].(frameDescriptors := initialized) else m.frames[j]
    {
      var init := D.Init(frames[i].frameDescriptors, InitialFrameSets, FrameSizes, grants(InitDescriptors(i)));
      if init.Err? {
        return Err(init.error);
      }
      frames := frames[i := frames[i].(frameDescriptors := init.value)];
      q := Push(q, DestroyDescriptorPools(i));
      i := i + 1;
    }
    r := Ok(m.(frames := frames, frameDeletionQueue := q));
  }

  /**
   * The destructor: each slot's own queue, slot 0 first, then the shared
   * queue. Returns the ring with every queue empty and the closures in the
   * order they ran.
   */
  method Destroy(m: Ring) returns (r: Ring, ran: seq<Deletor>)
    ensures ran == FlushOrder(m.frames[0].deletionQueue) + FlushOrder(m.frames[1].deletionQueue) + FlushOrder(m.frameDeletionQueue)
    ensures forall j :: 0 <= j < FrameOverlap ==> r.frames[j].deletionQueue.deletors == []
    ensures r.frameDeletionQueue.deletors == []
  {
    r := m;
    ran := [];
    var i := 0;
    while i < 2
      invariant 0 <= i <= 2
      invariant r.frameDeletionQueue == m.frameDeletionQueue
      invariant forall j :: 0 <= j < 2 ==> r.frames[j].deletionQueue == if j < i then Empty() else m.frames[j].deletionQueue
      invariant ran == if i == 0 then [] else if i == 1 then FlushOrder(m.frames[0].deletionQueue)
                       else FlushOrder(m.frames[0].deletionQueue) + FlushOrder(m.frames[1].deletionQueue)
    {
      var emptied, slotRan := Flush(r.frames[i].deletionQueue);
      r := r.(frames := r.frames[i := r.frames[i].(deletionQueue := emptied)]);
      ran := ran + slotRan;
      i := i + 1;
    }
    var emptied, sharedRan := Flush(r.frameDeletionQueue);
    r := r.(frameDeletionQueue := emptied);
    ran := ran + sharedRan;
  }

  /** Tearing down a freshly constructed ring destroys descriptor pools first, then fences, then command pools. */
  lemma TeardownOrder()
    ensures FlushOrder(Queue(Registrations)) == [
              DestroyDescriptorPools(1), DestroyDescriptorPools(0),
              DestroyFence(1), DestroyFence(0),
              DestroyCommandPool(1), DestroyCommandPool(0)]
  {
  }

  /**
   * In the destructor's order the closures of the slots' own queues all run
   * before any of the shared queue, so a slot's deferred deletions precede
   * the destruction of its command pool, fence and descriptor pools.
   */
  lemma SlotQueuesFirst(m: Ring)
    ensures var order := FlushOrder(m.frames[0].deletionQueue) + FlushOrder(m.frames[1].deletionQueue) + FlushOrder(m.frameDeletionQueue);
            var n := |m.frames[0].deletionQueue.deletors| + |m.frames[1].deletionQueue.deletors|;
            && n <= |order|
            && multiset(order[..n]) == multiset(m.frames[0].deletionQueue.deletors + m.frames[1].deletionQueue.deletors)
            && multiset(order[n..]) == multiset(m.frameDeletionQueue.deletors)
  {
    var f0 := FlushOrder(m.frames[0].deletionQueue);
    var f1 := FlushOrder(m.frames[1].deletionQueue);
    var fs := FlushOrder(m.frameDeletionQueue);
    FlushRunsEachOnce(m.frames[0].deletionQueue, Deferred(0));
    FlushRunsEachOnce(m.frames[1].deletionQueue, Deferred(0));
    FlushRunsEachOnce(m.frameDeletionQueue, Deferred(0));
    var order := f0 + f1 + fs;
    assert order[..|f0| + |f1|] == f0 + f1;
    assert order[|f0| + |f1|..] == fs;
  }
}

=== FILE: input.dfy ===
/**
 * The input manager's flag state machine: a sticky quit flag, an
 * edge-triggered wireframe toggle on F1 that is consumed when read, and
 * the mouse delta of the last motion event of a frame.
 */
module Input {

  datatype Key = Escape | F1 | OtherKey(code: nat)

  /** The window events the manager distinguishes; every other kind is `OtherEvent`. */
  datatype Event =
    | Quit
    | KeyDown(key: Key)
    | KeyUp(key: Key)
    | MouseMotion(xrel: real, yrel: real)
    | OtherEvent(kind: nat)

  datatype InputState = InputState(
    shouldQuit: bool,
    wireframeToggled: bool,
    wireframeKeyWasPressed: bool,
    mouseDeltaX: real,
    mouseDeltaY: real)

  /** The default-initialised manager: every flag false and no motion. */
  const Start: InputState := InputState(false, false, false, 0.0, 0.0)

  /** An event that asks the application to quit: the window's quit event or Escape pressed. */
  predicate Quits(e: Event) {
    e == Quit || e == KeyDown(Escape)
  }

  /** `processEvent`. */
  function ProcessEvent(s: InputState, e: Event): (r: InputState)
    ensures r.shouldQuit <==> s.shouldQuit || Quits(e)
    ensures e == KeyDown(F1) ==> r.wireframeKeyWasPressed && (r.wireframeToggled <==> s.wireframeToggled || !s.wireframeKeyWasPressed)
    ensures e == KeyUp(F1) ==> !r.wireframeKeyWasPressed && r.wireframeToggled == s.wireframeToggled
    ensures e != KeyDown(F1) && e != KeyUp(F1) ==>
              r.wireframeToggled == s.wireframeToggled && r.wireframeKeyWasPressed == s.wireframeKeyWasPressed
    ensures e.MouseMotion? ==> r.mouseDeltaX == e.xrel && r.mouseDeltaY == e.yrel
    ensures !e.MouseMotion? ==> r.mouseDeltaX == s.mouseDeltaX && r.mouseDeltaY == s.mouseDeltaY
  {
    var s1 := if e == Quit then s.(shouldQuit := true) else s;
    var s2 := if e == KeyDown(Escape) then s1.(shouldQuit := true) else s1;
    var s3 := if e == KeyDown(F1) && !s2.wireframeKeyWasPressed
              then s2.(wireframeToggled := true, wireframeKeyWasPressed := true) else s2;
    var s4 := if e == KeyUp(F1) then s3.(wireframeKeyWasPressed := false) else s3;
    if e.MouseMotion? then s4.(mouseDeltaX := e.xrel, mouseDeltaY := e.yrel) else s4
  }

  /** Events of any other kind change nothing. */
  lemma OtherEventsIgnored(s: InputState, kind: nat, code: nat)
    ensures ProcessEvent(s, OtherEvent(kind)) == s
    ensures ProcessEvent(s, KeyUp(OtherKey(code))) == s
    ensures ProcessEvent(s, KeyUp(Escape)) == s
    ensures ProcessEvent(s, KeyDown(OtherKey(code))) == s
  {
  }

  /** `newFrame`: the mouse delta is zeroed and the flags are kept. */
  function NewFrame(s: InputState): (r: InputState)
    ensures r.mouseDeltaX == 0.0 && r.mouseDeltaY == 0.0
    ensures r.(mouseDeltaX := s.mouseDeltaX, mouseDeltaY := s.mouseDeltaY) == s
  {
    s.(mouseDeltaX := 0.0, mouseDeltaY := 0.0)
  }

  /** `isWireframeToggled`: reports the pending toggle and consumes it. */
  function IsWireframeToggled(s: InputState): (r: (InputState, bool))
    ensures r.1 == s.wireframeToggled
    ensures !r.0.wireframeToggled
    ensures r.0.(wireframeToggled := s.wireframeToggled) == s
  {
    if s.wireframeToggled then (s.(wireframeToggled := false), true) else (s, false)
  }

  /** A toggle is reported once: asking twice in a row, the second answer is false. */
  lemma ToggleReportedOnce(s: InputState)
    ensures !IsWireframeToggled(IsWireframeToggled(s).0).1
  {
  }

  /** A frame's worth of events, in order. */
  function ProcessAll(s: InputState, es: seq<Event>): InputState
    decreases |es|
  {
    if |es| == 0 then s else ProcessAll(ProcessEvent(s, es[0]), es[1..])
  }

  /** Once set, the quit flag stays set: it is set after a run iff it was before or some event quits. */
  lemma {:induction false} QuitSticky(s: InputState, es: seq<Event>)
    ensures ProcessAll(s, es).shouldQuit <==> s.shouldQuit || exists i :: 0 <= i < |es| && Quits(es[i])
    decreases |es|
  {
    if |es| > 0 {
      QuitSticky(ProcessEvent(s, es[0]), es[1..]);
      if exists i :: 0 <= i < |es| && Quits(es[i]) {
        var i :| 0 <= i < |es| && Quits(es[i]);
        if i > 0 {
          assert Quits(es[1..][i - 1]);
        }
      }
      if exists i :: 0 <= i < |es[1..]| && Quits(es[1..][i]) {
        var i :| 0 <= i < |es[1..]| && Quits(es[1..][i]);
        assert Quits(es[i + 1]);
      }
    }
  }

  /** Whether F1 is held after the events, starting from `held`. */
  function HeldAfter(held: bool, es: seq<Event>): bool
    decreases |es|
  {
    if |es| == 0 then held
    else HeldAfter(if es[0] == KeyDown(F1) then true else if es[0] == KeyUp(F1) then false else held, es[1..])
  }

  /** The number of F1 presses among the events that are not auto-repeats of a held key. */
  function Presses(held: bool, es: seq<Event>): nat
    decreases |es|
  {
    if |es| == 0 then 0
    else
      (if es[0] == KeyDown(F1) && !held then 1 else 0) +
      Presses(if es[0] == KeyDown(F1) then true else if es[0] == KeyUp(F1) then false else held, es[1..])
  }

  /**
   * The toggle is edge-triggered: after any events the key-held flag tracks
   * the last F1 transition, and a toggle is pending iff one was before or
   * F1 went down while not held at least once.
   */
  lemma {:induction false} ToggleOnPress(s: InputState, es: seq<Event>)
    ensures ProcessAll(s, es).wireframeKeyWasPressed == HeldAfter(s.wireframeKeyWasPressed, es)
    ensures ProcessAll(s, es).wireframeToggled <==> s.wireframeToggled || Presses(s.wireframeKeyWasPressed, es) > 0
    decreases |es|
  {
    if |es| > 0 {
      ToggleOnPress(ProcessEvent(s, es[0]), es[1..]);
    }
  }

  /** Holding F1 toggles once: repeated key-downs while held never toggle again. */
  lemma {:induction false} HeldKeyTogglesOnce(held: bool, n: nat)
    ensures Presses(held, seq(n, _ => KeyDown(F1))) == if held || n == 0 then 0 else 1
    decreases n
  {
    if n > 0 {
      var downs := seq(n, _ => KeyDown(F1));
      assert downs[1..] == seq(n - 1, _ => KeyDown(F1));
      HeldKeyTogglesOnce(true, n - 1);
    }
  }

  /** Releasing F1 re-arms the toggle: a press right after a release always toggles. */
  lemma ReleaseRearms(s: InputState)
    ensures !IsWireframeToggled(s).0.wireframeToggled
    ensures ProcessAll(IsWireframeToggled(s).0, [KeyUp(F1), KeyDown(F1)]).wireframeToggled
  {
    var t := IsWireframeToggled(s).0;
    assert [KeyUp(F1), KeyDown(F1)][1..] == [KeyDown(F1)];
    assert [KeyDown(F1)][1..] == [];
  }

  /** The index of the last motion event, if any. */
  function LastMotion(es: seq<Event>): (i: int)
    ensures -1 <= i < |es|
    ensures i >= 0 ==> es[i].MouseMotion?
    ensures forall j :: i < j < |es| ==> !es[j].MouseMotion?
    decreases |es|
  {
    if |es| == 0 then -1
    else if es[|es| - 1].MouseMotion? then |es| - 1
    else LastMotion(es[..|es| - 1])
  }

  /** Motion overwrites rather than accumulates: the delta after a run is the last motion's. */
  lemma {:induction false} LastMotionWins(s: InputState, es: seq<Event>)
    ensures var r := ProcessAll(s, es);
            var i := LastMotion(es);
            if i < 0 then r.mouseDeltaX == s.mouseDeltaX && r.mouseDeltaY == s.mouseDeltaY
            else r.mouseDeltaX == es[i].xrel && r.mouseDeltaY == es[i].yrel
    decreases |es|
  {
    if |es| > 0 {
      var n := |es| - 1;
      ProcessAllSplit(s, es[..n], es[n]);
      assert es[..n] + [es[n]] == es;
      LastMotionWins(s, es[..n]);
    }
  }

  /** Processing one more event acts on the result of the earlier ones. */
  lemma {:induction false} ProcessAllSplit(s: InputState, es: seq<Event>, e: Event)
    ensures ProcessAll(s, es + [e]) == ProcessEvent(ProcessAll(s, es), e)
    decreases |es|
  {
    if |es| > 0 {
      assert (es + [e])[1..] == es[1..] + [e];
      ProcessAllSplit(ProcessEvent(s, es[0]), es[1..], e);
    } else {
      assert [e][1..] == [];
    }
  }
}

=== FILE: ints.dfy ===
/** Fixed-width C++ integers over Dafny's unbounded `int`. */
module Ints {

  /** Unsigned 32-bit integer. */
  const Two32: int := 0x1_0000_0000
  type U32 = n: int | 0 <= n < Two32

  /** `static_cast<uint32_t>` of an integer: reduction modulo 2^32. */
  function ToU32(a: int): (r: U32)
    ensures 0 <= a < Two32 ==> r == a
    ensures (r - a) % Two32 == 0
  {
    a % Two32
  }

  /** Adding after a cast wraps to the same value as adding before it: `uint32_t` addition is modular. */
  lemma ToU32Shift(a: int, b: int)
    ensures ToU32(ToU32(a) + b) == ToU32(a + b)
  {
    var q := a / Two32;
    assert a == Two32 * q + ToU32(a);
    assert a + b == Two32 * q + (ToU32(a) + b);
  }

  /** Signed 32-bit integer. */
  const Two31: int := 0x8000_0000
  type I32 = n: int | -Two31 <= n < Two31

  /** `static_cast<int32_t>` of an integer: two's-complement wrap-around. */
  function ToI32(a: int): (r: I32)
    ensures -Two31 <= a < Two31 ==> r == a
    ensures (r - a) % Two32 == 0
  {
    var m := a % Two32;
    if m < Two31 then m else m - Two32
  }

  /** Unsigned 64-bit integer, the width of `size_t`, `VkDeviceSize` and `uint64_t`. */
  const Two64: int := 0x1_0000_0000_0000_0000
  type U64 = n: int | 0 <= n < Two64
}

=== FILE: mesh_pool.dfy ===
/**
 * The mesh arena: an append-only bump allocator over one vertex and one index
 * buffer of fixed capacity. An upload checks capacity first, stages the
 * non-empty spans, submits one batch of copies, releases the staging buffers
 * and advances both cursors; `reset` rewinds the cursors.
 */
module MeshPool {
  import opened Wrappers
  import opened Ints

  /** Bytes per vertex and per index: both are `uint32_t`. */
  const WordSize: int := 4
  /** Capacity of the vertex buffer: 256 Mi words, 1 GiB. */
  const VertexBufferSize: int := 256 * 1024 * 1024 * WordSize
  /** Capacity of the index buffer: 512 Mi words, 2 GiB. */
  const IndexBufferSize: int := 512 * 1024 * 1024 * WordSize

  /**
   * A sub-allocation inside the two buffers. The default value is all
   * zeros, and a zero index count means "nothing uploaded yet".
   */
  datatype Allocation = Allocation(indexCount: U32, firstIndex: U32, vertexOffset: I32)

  const NotUploaded: Allocation := Allocation(0, 0, 0)

  /**
   * The pool: the two buffer handles, fixed at construction, and the two
   * cursors counted in words.
   */
  datatype Pool = Pool(vertexBuffer: nat, indexBuffer: nat, vertexOffset: U32, indexOffset: U32)

  /** Both cursors lie within their buffers. */
  predicate Valid(p: Pool) {
    p.vertexOffset * WordSize <= VertexBufferSize && p.indexOffset * WordSize <= IndexBufferSize
  }

  /** A new pool owns the two given buffers and starts with both cursors at 0. */
  function NewPool(vertexBuffer: nat, indexBuffer: nat): (p: Pool)
    ensures p.vertexOffset == 0 && p.indexOffset == 0
    ensures p.vertexBuffer == vertexBuffer && p.indexBuffer == indexBuffer
    ensures Valid(p)
  {
    Pool(vertexBuffer, indexBuffer, 0, 0)
  }

  datatype Target = VertexTarget | IndexTarget

  /** A staging buffer created for one target and filled with a span. */
  datatype Stage = Stage(target: Target, data: seq<U32>)

  /** One `vkCmdCopyBuffer` region, source offset 0, in bytes. */
  datatype Copy = Copy(target: Target, dstOffset: nat, size: nat)

  /**
   * A successful upload: the new pool and the allocation, and the effects in
   * the order they happen: the staging buffers created and filled, the one
   * submitted batch of copies, the staging buffers destroyed.
   */
  datatype Upload = Upload(pool: Pool, allocation: Allocation, staged: seq<Stage>, batch: seq<Copy>, released: seq<Target>)

  /**
   * The capacity test, in bytes: both spans fit behind their cursors. In
   * words, the vertex cursor may reach 256 Mi and the index cursor 512 Mi.
   */
  function Fits(p: Pool, indexCount: nat, vertexCount: nat): (b: bool)
    ensures b <==> p.vertexOffset + vertexCount <= 256 * 1024 * 1024 && p.indexOffset + indexCount <= 512 * 1024 * 1024
  {
    p.vertexOffset * WordSize + vertexCount * WordSize <= VertexBufferSize &&
    p.indexOffset * WordSize + indexCount * WordSize <= IndexBufferSize
  }

  function StagedTargets(staged: seq<Stage>): multiset<Target> {
    multiset(seq(|staged|, k requires 0 <= k < |staged| => staged[k].target))
  }

  function CopiedTargets(batch: seq<Copy>): multiset<Target> {
    multiset(seq(|batch|, k requires 0 <= k < |batch| => batch[k].target))
  }

  /** The staging buffer and copy region for one span, present only when the span is non-empty. */
  function StageOf(target: Target, data: seq<U32>): seq<Stage> {
    if |data| == 0 then [] else [Stage(target, data)]
  }

  function CopyOf(target: Target, cursor: nat, data: seq<U32>): seq<Copy> {
    if |data| == 0 then [] else [Copy(target, cursor * WordSize, |data| * WordSize)]
  }

  function ReleaseOf(target: Target, data: seq<U32>): seq<Target> {
    if |data| == 0 then [] else [target]
  }

  /**
   * `uploadMesh`, with the staging, copy and submit calls taken to succeed.
   * It throws its out-of-memory error exactly when a span does not fit, and
   * then nothing has happened. Otherwise the allocation records the cursors
   * as they were and the cursors advance by the span lengths without
   * wrapping.
   */
  function UploadMesh(p: Pool, indices: seq<U32>, vertices: seq<U32>): (r: Result<Upload, string>)
    ensures r.Err? <==> !Fits(p, |indices|, |vertices|)
    ensures r.Err? ==> r.error == "MeshBufferPool is out of memory!"
    ensures r.Ok? ==> var u := r.value;
            && u.allocation == Allocation(|indices|, p.indexOffset, p.vertexOffset)
            && u.pool.vertexOffset == p.vertexOffset + |vertices|
            && u.pool.indexOffset == p.indexOffset + |indices|
            && u.pool.vertexBuffer == p.vertexBuffer && u.pool.indexBuffer == p.indexBuffer
            && Valid(u.pool)
  {
    if !Fits(p, |indices|, |vertices|) then
      Err("MeshBufferPool is out of memory!")
    else
      var allocation := Allocation(ToU32(|indices|), p.indexOffset, ToI32(p.vertexOffset));
      var staged := StageOf(VertexTarget, vertices) + StageOf(IndexTarget, indices);
      var batch := CopyOf(VertexTarget, p.vertexOffset, vertices) + CopyOf(IndexTarget, p.indexOffset, indices);
      var released := ReleaseOf(VertexTarget, vertices) + ReleaseOf(IndexTarget, indices);
      var pool := p.(vertexOffset := ToU32(p.vertexOffset + |vertices|), indexOffset := ToU32(p.indexOffset + |indices|));
      Ok(Upload(pool, allocation, staged, batch, released))
  }

  /**
   * The effects of a successful upload: a staging buffer and a copy exist
   * exactly for each non-empty span, each staging buffer holds its span, the
   * copies land at the old cursors with the span's byte length, and every
   * staging buffer created is destroyed exactly once.
   */
  lemma UploadEffects(p: Pool, indices: seq<U32>, vertices: seq<U32>)
    requires Fits(p, |indices|, |vertices|)
    ensures var u := UploadMesh(p, indices, vertices).value;
            && (VertexTarget in StagedTargets(u.staged) <==> |vertices| > 0)
            && (IndexTarget in StagedTargets(u.staged) <==> |indices| > 0)
            && (forall s :: s in u.staged ==> s.data == (if s.target == VertexTarget then vertices else indices))
            && CopiedTargets(u.batch) == StagedTargets(u.staged)
            && (forall c :: c in u.batch && c.target == VertexTarget ==>
                  c.dstOffset == p.vertexOffset * WordSize && c.size == |vertices| * WordSize)
            && (forall c :: c in u.batch && c.target == IndexTarget ==>
                  c.dstOffset == p.indexOffset * WordSize && c.size == |indices| * WordSize)
            && multiset(u.released) == StagedTargets(u.staged)
  {
    StagingBalanced(vertices, indices, p.vertexOffset, p.indexOffset);
  }

  /** The staged, copied and released targets agree, one of each per non-empty span. */
  lemma StagingBalanced(vertices: seq<U32>, indices: seq<U32>, vertexCursor: nat, indexCursor: nat)
    ensures var staged := StageOf(VertexTarget, vertices) + StageOf(IndexTarget, indices);
            var batch := CopyOf(VertexTarget, vertexCursor, vertices) + CopyOf(IndexTarget, indexCursor, indices);
            var released := ReleaseOf(VertexTarget, vertices) + ReleaseOf(IndexTarget, indices);
            var expected := (if |vertices| > 0 then multiset{VertexTarget} else multiset{}) +
                            (if |indices| > 0 then multiset{IndexTarget} else multiset{});
            && StagedTargets(staged) == expected
            && CopiedTargets(batch) == expected
            && multiset(released) == expected
  {
    var staged := StageOf(VertexTarget, vertices) + StageOf(IndexTarget, indices);
    var batch := CopyOf(VertexTarget, vertexCursor, vertices) + CopyOf(IndexTarget, indexCursor, indices);
    var ts := seq(|staged|, k requires 0 <= k < |staged| => staged[k].target);
    var tb := seq(|batch|, k requires 0 <= k < |batch| => batch[k].target);
    var released := ReleaseOf(VertexTarget, vertices) + ReleaseOf(IndexTarget, indices);
    assert ts == released;
    assert tb == released;
  }

  /** `reset`: both cursors back to 0; the buffers stay. */
  function Reset(p: Pool): (r: Pool)
    ensures r.vertexOffset == 0 && r.indexOffset == 0
    ensures r.vertexBuffer == p.vertexBuffer && r.indexBuffer == p.indexBuffer
    ensures Valid(r)
  {
    p.(vertexOffset := 0, indexOffset := 0)
  }

  /**
   * Two successive uploads are contiguous: the second starts where the first
   * ends, in both buffers, so their index and vertex ranges are disjoint.
   */
  lemma UploadsContiguous(p: Pool, i1: seq<U32>, v1: seq<U32>, i2: seq<U32>, v2: seq<U32>)
    requires UploadMesh(p, i1, v1).Ok?
    requires UploadMesh(UploadMesh(p, i1, v1).value.pool, i2, v2).Ok?
    ensures var a := UploadMesh(p, i1, v1).value.allocation;
            var b := UploadMesh(UploadMesh(p, i1, v1).value.pool, i2, v2).value.allocation;
            && b.firstIndex == a.firstIndex + a.indexCount
            && b.vertexOffset == a.vertexOffset + |v1|
            && a.firstIndex + a.indexCount <= b.firstIndex
  {
  }

  /** The first upload after `reset` starts both buffers at offset 0. */
  lemma UploadAfterReset(p: Pool, indices: seq<U32>, vertices: seq<U32>)
    requires UploadMesh(Reset(p), indices, vertices).Ok?
    ensures UploadMesh(Reset(p), indices, vertices).value.allocation == Allocation(|indices|, 0, 0)
  {
  }

  /** After `reset`, an upload fails only when the span alone exceeds the buffer. */
  lemma ResetFits(p: Pool, indices: seq<U32>, vertices: seq<U32>)
    ensures UploadMesh(Reset(p), indices, vertices).Ok? <==>
            |vertices| * WordSize <= VertexBufferSize && |indices| * WordSize <= IndexBufferSize
  {
  }

  /**
   * Applies a sequence of uploads in order, stopping at the first one that
   * does not fit, and returns the allocations made.
   */
  function UploadAll(p: Pool, meshes: seq<(seq<U32>, seq<U32>)>): (r: Result<(Pool, seq<Allocation>), string>)
    ensures r.Ok? ==> |r.value.1| == |meshes|
    decreases |meshes|
  {
    if |meshes| == 0 then Ok((p, []))
    else
      match UploadMesh(p, meshes[0].0, meshes[0].1)
      case Err(e) => Err(e)
      case Ok(u) =>
        match UploadAll(u.pool, meshes[1..])
        case Err(e) => Err(e)
        case Ok(rest) => Ok((rest.0, [u.allocation] + rest.1))
  }

  /** Total number of indices in a sequence of meshes. */
  function IndexTotal(meshes: seq<(seq<U32>, seq<U32>)>): nat {
    if |meshes| == 0 then 0 else |meshes[0].0| + IndexTotal(meshes[1..])
  }

  /**
   * Allocation k of a run of uploads starts at the index cursor plus the
   * indices of the meshes before it, so distinct allocations never overlap.
   */
  lemma {:induction false} UploadAllLayout(p: Pool, meshes: seq<(seq<U32>, seq<U32>)>)
    requires UploadAll(p, meshes).Ok?
    ensures var r := UploadAll(p, meshes).value;
            && |r.1| == |meshes|
            && r.0.indexOffset == p.indexOffset + IndexTotal(meshes)
            && forall k :: 0 <= k < |meshes| ==>
                 r.1[k].firstIndex == p.indexOffset + IndexTotal(meshes[..k]) &&
                 r.1[k].indexCount == |meshes[k].0|
    decreases |meshes|
  {
    if |meshes| > 0 {
      var u := UploadMesh(p, meshes[0].0, meshes[0].1).value;
      UploadAllLayout(u.pool, meshes[1..]);
      var r := UploadAll(p, meshes).value;
      forall k | 0 <= k < |meshes|
        ensures r.1[k].firstIndex == p.indexOffset + IndexTotal(meshes[..k])
      {
        if k > 0 {
          assert meshes[..k][1..] == meshes[1..][..k - 1];
        }
      }
    }
  }

  /** Allocations of one run occupy disjoint index ranges, in order. */
  lemma UploadAllDisjoint(p: Pool, meshes: seq<(seq<U32>, seq<U32>)>, j: int, k: int)
    requires UploadAll(p, meshes).Ok?
    requires 0 <= j < k < |meshes|
    ensures var a := UploadAll(p, meshes).value.1;
            a[j].firstIndex + a[j].indexCount <= a[k].firstIndex
  {
    UploadAllLayout(p, meshes);
    IndexTotalPrefix(meshes, j, k);
  }

  lemma {:induction false} IndexTotalPrefix(meshes: seq<(seq<U32>, seq<U32>)>, j: int, k: int)
    requires 0 <= j < k <= |meshes|
    ensures IndexTotal(meshes[..j]) + |meshes[j].0| <= IndexTotal(meshes[..k])
    decreases j
  {
    if j == 0 {
      assert meshes[..k][0] == meshes[0];
    } else {
      IndexTotalPrefix(meshes[1..], j - 1, k - 1);
      assert meshes[..j][1..] == meshes[1..][..j - 1];
      assert meshes[..k][1..] == meshes[1..][..k - 1];
    }
  }
}

=== FILE: mesher.dfy ===
/**
 * The chunk mesher: culls every cell face against the neighbouring cell and
 * emits one quad (four packed 32-bit vertices, six indices) per exposed face.
 *
 * Packed vertex layout, low bit first:
 * [X:6][Y:6][Z:6][Normal:3][UV:2][Texture:7][Spare:2].
 */
module Mesher {
  import opened Ints
  import opened Chunks

  // ---------------------------------------------------------------------
  // Vertex packing
  //
  // On an unsigned word, masking with 2^w - 1 is reduction modulo 2^w, a
  // left shift by s is multiplication by 2^s, and an OR of fields occupying
  // disjoint bits is their sum; the packing is written in those terms.
  // `PackBitsArithmetic` shows, within 32-bit word arithmetic, that the
  // mask-and-shift form equals the modulo-and-multiply form.

  /** The six fields of a packed vertex. */
  datatype VertexFields = VertexFields(x: int, y: int, z: int, normalId: int, uvId: int, textureId: int)

  /** Reads the fields back out of a packed vertex, following the bit layout. */
  function Unpack(v: U32): VertexFields {
    VertexFields(v % 64, (v / 64) % 64, (v / 4096) % 64, (v / 262144) % 8, (v / 2097152) % 4, (v / 8388608) % 128)
  }

  /**
   * Packs one vertex. Each input is truncated to its field width; unpacking
   * gives back exactly the truncated inputs and the two spare bits are clear.
   */
  function PackVertex(x: U32, y: U32, z: U32, normalId: U32, uvId: U32, textureId: U32): (v: U32)
    ensures Unpack(v) == VertexFields(x % 64, y % 64, z % 64, normalId % 8, uvId % 4, textureId % 128)
    ensures v < 0x4000_0000
  {
    var a, b, c, d, e, t := x % 64, y % 64, z % 64, normalId % 8, uvId % 4, textureId % 128;
    var r4 := e + 4 * t;
    var r3 := d + 8 * r4;
    var r2 := c + 64 * r3;
    var r1 := b + 64 * r2;
    var v := a + 64 * r1;
    assert v % 64 == a && v / 64 == r1;
    assert r1 % 64 == b && r1 / 64 == r2;
    assert r2 % 64 == c && r2 / 64 == r3;
    assert r3 % 8 == d && r3 / 8 == r4;
    assert r4 % 4 == e && r4 / 4 == t;
    assert v / 4096 == r2 && v / 262144 == r3 && v / 2097152 == r4 && v / 8388608 == t;
    v
  }

  /** Packing is injective on in-range fields: the round trip loses nothing. */
  lemma PackRoundTrip(x: U32, y: U32, z: U32, normalId: U32, uvId: U32, textureId: U32)
    requires x < 64 && y < 64 && z < 64 && normalId < 8 && uvId < 4 && textureId < 128
    ensures Unpack(PackVertex(x, y, z, normalId, uvId, textureId)) == VertexFields(x, y, z, normalId, uvId, textureId)
  {
    assert x % 64 == x && y % 64 == y && z % 64 == z;
    assert normalId % 8 == normalId && uvId % 4 == uvId && textureId % 128 == textureId;
  }

  /** The packing as `packVertex` writes it: masks, shifts and ORs on a 32-bit word. */
  function PackBits(x: bv32, y: bv32, z: bv32, normalId: bv32, uvId: bv32, textureId: bv32): bv32 {
    0 | (x & 0x3F) | ((y & 0x3F) << 6) | ((z & 0x3F) << 12)
      | ((normalId & 0x7) << 18) | ((uvId & 0x3) << 21) | ((textureId & 0x7F) << 23)
  }

  /**
   * On 32-bit words the mask-and-shift form is the modulo-and-multiply form
   * `PackVertex` uses; that form stays below 2^30, so it never wraps and
   * means the same on unbounded integers.
   */
  lemma PackBitsArithmetic(x: bv32, y: bv32, z: bv32, normalId: bv32, uvId: bv32, textureId: bv32)
    ensures PackBits(x, y, z, normalId, uvId, textureId) ==
              x % 64 + 64 * (y % 64 + 64 * (z % 64 + 64 * (normalId % 8 + 8 * (uvId % 4 + 4 * (textureId % 128)))))
  {
  }

  // ---------------------------------------------------------------------
  // Block registry

  /** Number of block ids the registry has entries for. */
  const MaxBlocks: int := 10

  /**
   * The part of the block registry the mesher reads: whether an id is
   * displayable. The table is loaded from a file, so the flag is left
   * uninterpreted.
   */
  datatype Registry = Registry(displayable: BlockId -> bool)

  /** The registry indexes its table without a bounds check, so callers keep ids below `MaxBlocks`. */
  function IsDisplayable(reg: Registry, id: BlockId): bool
    requires id < MaxBlocks
  {
    reg.displayable(id)
  }

  /** Every id stored in the chunk has a registry entry. */
  ghost predicate RegistryCovers(c: Chunk) {
    forall i :: 0 <= i < |c.blocks| ==> c.blocks[i] < MaxBlocks
  }

  // ---------------------------------------------------------------------
  // Faces and their geometry

  datatype Direction = North | South | East | West | Top | Bottom

  /** The normal id written into every vertex of a face. */
  function NormalId(d: Direction): U32 {
    match d
    case East => 0
    case West => 1
    case Top => 2
    case Bottom => 3
    case North => 4
    case South => 5
  }

  /** An integer point or vector. */
  datatype Vec3 = V(x: int, y: int, z: int)

  function Add(a: Vec3, b: Vec3): Vec3 { V(a.x + b.x, a.y + b.y, a.z + b.z) }

  /** The unit vector pointing out of the cell through the face: East +x, Top +y, North +z. */
  function Outward(d: Direction): Vec3 {
    V(NormalX(d), NormalY(d), NormalZ(d))
  }

  function NormalX(d: Direction): int {
    if d == East then 1 else if d == West then -1 else 0
  }

  function NormalY(d: Direction): int {
    if d == Top then 1 else if d == Bottom then -1 else 0
  }

  function NormalZ(d: Direction): int {
    if d == North then 1 else if d == South then -1 else 0
  }

  /** The axis a face is perpendicular to: 0 for x, 1 for y, 2 for z. */
  function Axis(d: Direction): int {
    match d
    case East | West => 0
    case Top | Bottom => 1
    case North | South => 2
  }

  /** Directions pointing along an axis rather than against it. */
  predicate Positive(d: Direction) {
    d == North || d == East || d == Top
  }

  /** Component `axis` of a vector. */
  function Coord(v: Vec3, axis: int): int
    requires 0 <= axis < 3
  {
    if axis == 0 then v.x else if axis == 1 then v.y else v.z
  }

  /*
   * The corner table of `addFace`, one axis at a time: corner `k` of a face
   * sits at the cell's minimum corner plus (OffsetX, OffsetY, OffsetZ). Read
   * down a direction's three columns to get its four corners in order; along
   * a side the offset is 0 1 1 0 (corners 1 and 2), 1 0 0 1 (corners 0 and 3)
   * or 0 0 1 1 (corners 2 and 3).
   */

  function OffsetX(d: Direction, k: int): int {
    match d
    case East => 1
    case West => 0
    case Top => if k == 1 || k == 2 then 1 else 0
    case Bottom => if k == 1 || k == 2 then 1 else 0
    case North => if k == 0 || k == 3 then 1 else 0
    case South => if k == 1 || k == 2 then 1 else 0
  }

  function OffsetY(d: Direction, k: int): int {
    match d
    case Top => 1
    case Bottom => 0
    case East | West | North | South => if k >= 2 then 1 else 0
  }

  function OffsetZ(d: Direction, k: int): int {
    match d
    case East => if k == 1 || k == 2 then 1 else 0
    case West => if k == 0 || k == 3 then 1 else 0
    case Top => if k >= 2 then 1 else 0
    case Bottom => if k < 2 then 1 else 0
    case North => 1
    case South => 0
  }

  /** Offset of quad corner `k` from the cell's minimum corner. */
  function CornerOffset(d: Direction, k: int): Vec3
    requires 0 <= k < 4
  {
    V(OffsetX(d, k), OffsetY(d, k), OffsetZ(d, k))
  }

  /** One exposed face of the cell (x, y, z) holding `blockId`. */
  datatype Face = Face(dir: Direction, x: int, y: int, z: int, blockId: BlockId)

  /** The cell a face belongs to. */
  function Cell(f: Face): Vec3 {
    V(f.x, f.y, f.z)
  }

  function Corner(f: Face, k: int): Vec3
    requires 0 <= k < 4
  {
    Add(Cell(f), CornerOffset(f.dir, k))
  }

  /** The packed vertex of corner `k`: coordinates wrap as `uint32_t`, uv id is `k`, texture is the block id. */
  function FaceVertex(f: Face, k: int): U32
    requires 0 <= k < 4
  {
    var p := Corner(f, k);
    PackVertex(ToU32(p.x), ToU32(p.y), ToU32(p.z), NormalId(f.dir), k, f.blockId)
  }

  /** The six index offsets of a quad: triangles (0, 1, 2) and (0, 2, 3). */
  function QuadIndex(j: int): int
    requires 0 <= j < 6
  {
    if j == 0 || j == 3 then 0 else if j == 1 then 1 else if j == 2 || j == 4 then 2 else 3
  }

  /**
   * All four corners lie on the face's plane: along the face's axis they sit
   * one unit past the cell for the positive directions and on the cell's own
   * coordinate for the negative ones; off that axis they span the cell.
   * For an in-bounds cell every corner lies in [0, 32] on every axis.
   */
  lemma FaceOnPlane(f: Face, k: int)
    requires 0 <= k < 4
    ensures Coord(Corner(f, k), Axis(f.dir)) == Coord(Cell(f), Axis(f.dir)) + (if Positive(f.dir) then 1 else 0)
    ensures forall axis :: 0 <= axis < 3 ==> Coord(Cell(f), axis) <= Coord(Corner(f, k), axis) <= Coord(Cell(f), axis) + 1
    ensures InBounds(f.x, f.y, f.z) ==>
              0 <= Corner(f, k).x <= ChunkSize && 0 <= Corner(f, k).y <= ChunkSize && 0 <= Corner(f, k).z <= ChunkSize
  {
  }

  /*
   * Winding. The index pattern splits every quad into triangles (0, 1, 2)
   * and (0, 2, 3). Since the cell position cancels from corner differences,
   * a triangle (a, b, c) of the table winds inward when the cross product of
   * u = b - a and v = c - a is the negated outward normal; the predicates
   * write that out on the table's columns.
   */

  predicate FirstTriangleInward(d: Direction) {
    var ux, uy, uz := OffsetX(d, 1) - OffsetX(d, 0), OffsetY(d, 1) - OffsetY(d, 0), OffsetZ(d, 1) - OffsetZ(d, 0);
    var vx, vy, vz := OffsetX(d, 2) - OffsetX(d, 0), OffsetY(d, 2) - OffsetY(d, 0), OffsetZ(d, 2) - OffsetZ(d, 0);
    uy * vz - uz * vy == -NormalX(d) && uz * vx - ux * vz == -NormalY(d) && ux * vy - uy * vx == -NormalZ(d)
  }

  predicate SecondTriangleInward(d: Direction) {
    var ux, uy, uz := OffsetX(d, 2) - OffsetX(d, 0), OffsetY(d, 2) - OffsetY(d, 0), OffsetZ(d, 2) - OffsetZ(d, 0);
    var vx, vy, vz := OffsetX(d, 3) - OffsetX(d, 0), OffsetY(d, 3) - OffsetY(d, 0), OffsetZ(d, 3) - OffsetZ(d, 0);
    uy * vz - uz * vy == -NormalX(d) && uz * vx - ux * vz == -NormalY(d) && ux * vy - uy * vx == -NormalZ(d)
  }

  lemma EastWinds() ensures FirstTriangleInward(East) && SecondTriangleInward(East) {}
  lemma WestWinds() ensures FirstTriangleInward(West) && SecondTriangleInward(West) {}
  lemma TopWinds() ensures FirstTriangleInward(Top) && SecondTriangleInward(Top) {}
  lemma BottomWinds() ensures FirstTriangleInward(Bottom) && SecondTriangleInward(Bottom) {}
  lemma NorthWinds() ensures FirstTriangleInward(North) && SecondTriangleInward(North) {}
  lemma SouthWinds() ensures FirstTriangleInward(South) && SecondTriangleInward(South) {}

  /**
   * Both triangles of every direction's quad wind the same way: clockwise
   * seen from outside the cell in a right-handed frame.
   */
  lemma QuadWinding(d: Direction)
    ensures FirstTriangleInward(d) && SecondTriangleInward(d)
  {
    match d
    case East => EastWinds();
    case West => WestWinds();
    case Top => TopWinds();
    case Bottom => BottomWinds();
    case North => NorthWinds();
    case South => SouthWinds();
  }

  /** Decoding a vertex of an in-bounds face gives its corner, normal id, uv id and texture. */
  lemma FaceVertexFields(f: Face, k: int)
    requires InBounds(f.x, f.y, f.z) && 0 <= k < 4
    ensures var u := Unpack(FaceVertex(f, k));
            && u.x == Corner(f, k).x
            && u.y == Corner(f, k).y
            && u.z == Corner(f, k).z
            && u.normalId == NormalId(f.dir)
            && u.uvId == k
            && u.textureId == f.blockId % 128
  {
    var p := Corner(f, k);
    FaceOnPlane(f, k);
    assert ToU32(p.x) == p.x && ToU32(p.y) == p.y && ToU32(p.z) == p.z;
    assert p.x % 64 == p.x && p.y % 64 == p.y && p.z % 64 == p.z;
    assert NormalId(f.dir) % 8 == NormalId(f.dir) && k % 4 == k;
  }

  // ---------------------------------------------------------------------
  // Emitting quads

  /** The output buffers of the mesher. */
  datatype Mesh = Mesh(vertices: seq<U32>, indices: seq<U32>)

  const EmptyMesh: Mesh := Mesh([], [])

  /** The defensive early return of `addFace`: an East normal together with an all-zero first vertex. */
  predicate DefensiveReturn(f: Face) {
    NormalId(f.dir) == 0 && FaceVertex(f, 0) == 0
  }

  /** The four packed vertices of a face's quad, corners 0 to 3. */
  function QuadVertices(f: Face): (q: seq<U32>)
    ensures |q| == 4
  {
    seq(4, k requires 0 <= k < 4 => FaceVertex(f, k))
  }

  /** The six indices of a quad whose first vertex is `base`; the additions wrap as `uint32_t`. */
  function QuadIndices(base: U32): (q: seq<U32>)
    ensures |q| == 6
  {
    seq(6, j requires 0 <= j < 6 => ToU32(base + QuadIndex(j)))
  }

  /** Each vertex of a quad carries the face's normal id and its corner number as uv id. */
  lemma QuadVertexTags(f: Face)
    ensures forall k :: 0 <= k < 4 ==>
              Unpack(QuadVertices(f)[k]).normalId == NormalId(f.dir) && Unpack(QuadVertices(f)[k]).uvId == k
  {
    forall k | 0 <= k < 4
      ensures Unpack(QuadVertices(f)[k]).normalId == NormalId(f.dir) && Unpack(QuadVertices(f)[k]).uvId == k
    {
      assert NormalId(f.dir) % 8 == NormalId(f.dir) && k % 4 == k;
    }
  }

  /** While `base + 4` fits 32 bits, the indices of a quad stay within its four vertices. */
  lemma QuadIndicesRange(base: U32)
    requires base + 4 <= Two32
    ensures forall j :: 0 <= j < 6 ==> base <= QuadIndices(base)[j] < base + 4
  {
    forall j | 0 <= j < 6
      ensures base <= QuadIndices(base)[j] < base + 4
    {
      assert ToU32(base + QuadIndex(j)) == base + QuadIndex(j);
    }
  }

  /**
   * Appends the quad of one face. The base index is the vertex count cast
   * to `uint32_t`. What was already written is kept; the four new vertices
   * carry the face's normal id and the uv ids 0 to 3, and while the vertex
   * count fits 32 bits the six new indices name only the new vertices.
   */
  function AddFace(m: Mesh, f: Face): (r: Mesh)
    ensures DefensiveReturn(f) ==> r == m
    ensures !DefensiveReturn(f) ==> |r.vertices| == |m.vertices| + 4 && |r.indices| == |m.indices| + 6
    ensures |m.vertices| <= |r.vertices| && r.vertices[..|m.vertices|] == m.vertices
    ensures |m.indices| <= |r.indices| && r.indices[..|m.indices|] == m.indices
    ensures forall j :: |m.vertices| <= j < |r.vertices| ==>
              Unpack(r.vertices[j]).normalId == NormalId(f.dir) && Unpack(r.vertices[j]).uvId == j - |m.vertices|
    ensures |m.vertices| + 4 <= Two32 ==>
              forall j :: |m.indices| <= j < |r.indices| ==> |m.vertices| <= r.indices[j] < |r.vertices|
  {
    if DefensiveReturn(f) then m
    else
      var base := |m.vertices|;
      var q, ix := QuadVertices(f), QuadIndices(ToU32(base));
      QuadVertexTags(f);
      assert base + 4 <= Two32 ==> forall j :: 0 <= j < 6 ==> base <= ix[j] < base + 4 by {
        if base + 4 <= Two32 {
          QuadIndicesRange(base);
        }
      }
      Mesh(m.vertices + q, m.indices + ix)
  }

  /** The defensive return never fires inside the chunk, because the East face's first corner has x >= 1. */
  lemma DefensiveReturnUnreachable(f: Face)
    requires InBounds(f.x, f.y, f.z)
    ensures !DefensiveReturn(f)
  {
    if f.dir == East {
      FaceVertexFields(f, 0);
    }
  }

  /** The mesh of a face list: the quads appended one after another, from empty buffers. */
  function EmitFaces(faces: seq<Face>): Mesh {
    if |faces| == 0 then EmptyMesh
    else AddFace(EmitFaces(faces[..|faces| - 1]), faces[|faces| - 1])
  }

  ghost predicate AllInBounds(faces: seq<Face>) {
    forall i :: 0 <= i < |faces| ==> InBounds(faces[i].x, faces[i].y, faces[i].z)
  }

  /**
   * Vertex i of the closed form is corner i % 4 of face i / 4, so the
   * vertices fall into consecutive blocks of four, block k being the quad of
   * face k.
   */
  function Vertices(faces: seq<Face>): (vs: seq<U32>)
    ensures |vs| == 4 * |faces|
    ensures forall i :: 0 <= i < |vs| ==> vs[i] == FaceVertex(faces[i / 4], i % 4)
    ensures forall k :: 0 <= k < |faces| ==> vs[4 * k..4 * k + 4] == QuadVertices(faces[k])
  {
    var vs := Spread(faces, VertexOf);
    assert forall k :: 0 <= k < |faces| ==> vs[4 * k..4 * k + 4] == QuadVertices(faces[k]) by {
      forall k | 0 <= k < |faces|
        ensures vs[4 * k..4 * k + 4] == QuadVertices(faces[k])
      {
        forall j | 0 <= j < 4
          ensures vs[4 * k + j] == QuadVertices(faces[k])[j]
        {
          assert (4 * k + j) / 4 == k && (4 * k + j) % 4 == j;
        }
      }
    }
    vs
  }

  /** `FaceVertex` as a total function value, so the closed form can be reasoned about generically. */
  const VertexOf: (Face, int) -> U32 := (f: Face, k: int) => if 0 <= k < 4 then FaceVertex(f, k) else 0

  /** Four values per face, value i taken from corner i % 4 of face i / 4. */
  function Spread(faces: seq<Face>, g: (Face, int) -> U32): (vs: seq<U32>)
    ensures |vs| == 4 * |faces|
    ensures forall i :: 0 <= i < |vs| ==> vs[i] == g(faces[i / 4], i % 4)
  {
    seq(4 * |faces|, i requires 0 <= i < 4 * |faces| => g(faces[i / 4], i % 4))
  }

  /** Spreading one more face appends that face's four values. */
  lemma SpreadAppend(faces: seq<Face>, f: Face, g: (Face, int) -> U32)
    ensures Spread(faces, g) + [g(f, 0), g(f, 1), g(f, 2), g(f, 3)] == Spread(faces + [f], g)
  {
    var a, b := Spread(faces, g) + [g(f, 0), g(f, 1), g(f, 2), g(f, 3)], Spread(faces + [f], g);
    var n := |faces|;
    forall i | 0 <= i < |b|
      ensures a[i] == b[i]
    {
      if i < 4 * n {
        assert (faces + [f])[i / 4] == faces[i / 4];
      } else {
        assert (faces + [f])[i / 4] == f;
      }
    }
  }

  /** Index i of `n` quads in closed form: 4 * (i / 6) + QuadIndex(i % 6), wrapped to 32 bits. */
  predicate IsQuadIndexing(ix: seq<U32>, n: nat) {
    |ix| == 6 * n && forall i :: 0 <= i < |ix| ==> ix[i] == ToU32(4 * (i / 6) + QuadIndex(i % 6))
  }

  /** Block k of six closed-form indices is the quad pattern based at vertex 4k. */
  lemma QuadIndexingBlock(ix: seq<U32>, n: nat, k: int)
    requires IsQuadIndexing(ix, n) && 0 <= k < n
    ensures ix[6 * k..6 * k + 6] == QuadIndices(ToU32(4 * k))
  {
    var q := QuadIndices(ToU32(4 * k));
    forall j | 0 <= j < 6
      ensures ix[6 * k + j] == q[j]
    {
      DivModSix(k, j);
      ToU32Shift(4 * k, QuadIndex(j));
    }
  }

  lemma DivModSix(k: int, j: int)
    requires 0 <= k && 0 <= j < 6
    ensures (6 * k + j) / 6 == k && (6 * k + j) % 6 == j
  {
  }

  /** While 4n fits 32 bits, no closed-form index wraps, so each is below 4n. */
  lemma QuadIndexingBelow(ix: seq<U32>, n: nat, i: int)
    requires IsQuadIndexing(ix, n) && 4 * n <= Two32 && 0 <= i < |ix|
    ensures ix[i] < 4 * n
  {
    var q := QuadIndex(i % 6);
    assert i / 6 < n && q <= 3;
    assert ToU32(4 * (i / 6) + q) == 4 * (i / 6) + q;
  }

  /**
   * The closed-form indices of `n` quads: block k of six is the quad pattern
   * based at vertex 4k, and while the 4n vertices fit 32 bits every index
   * names one of them.
   */
  function Indices(n: nat): (ix: seq<U32>)
    ensures |ix| == 6 * n
    ensures forall k :: 0 <= k < n ==> ix[6 * k..6 * k + 6] == QuadIndices(ToU32(4 * k))
    ensures 4 * n <= Two32 ==> forall j :: 0 <= j < |ix| ==> ix[j] < 4 * n
  {
    var ix := seq(6 * n, i requires 0 <= i < 6 * n => ToU32(4 * (i / 6) + QuadIndex(i % 6)));
    assert IsQuadIndexing(ix, n);
    assert forall k :: 0 <= k < n ==> ix[6 * k..6 * k + 6] == QuadIndices(ToU32(4 * k)) by {
      forall k | 0 <= k < n {
        QuadIndexingBlock(ix, n, k);
      }
    }
    assert 4 * n <= Two32 ==> forall j :: 0 <= j < |ix| ==> ix[j] < 4 * n by {
      if 4 * n <= Two32 {
        forall j | 0 <= j < |ix| {
          QuadIndexingBelow(ix, n, j);
        }
      }
    }
    ix
  }

  /** The mesh of `n` quads written out in closed form: four vertices and six indices per face. */
  function ClosedMesh(faces: seq<Face>): Mesh {
    Mesh(Vertices(faces), Indices(|faces|))
  }

  /** Appending an in-bounds face extends the closed-form vertices by that face's corners. */
  lemma AddFaceVertices(faces: seq<Face>, f: Face)
    ensures Vertices(faces) + QuadVertices(f) == Vertices(faces + [f])
  {
    SpreadAppend(faces, f, VertexOf);
    assert QuadVertices(f) == [VertexOf(f, 0), VertexOf(f, 1), VertexOf(f, 2), VertexOf(f, 3)];
  }

  /** Appending a face extends the closed-form indices by the quad of base 4n. */
  lemma AddFaceIndices(n: nat)
    ensures Indices(n) + QuadIndices(ToU32(4 * n)) == Indices(n + 1)
  {
    var a, b := Indices(n) + QuadIndices(ToU32(4 * n)), Indices(n + 1);
    forall i | 0 <= i < |b|
      ensures a[i] == b[i]
    {
      if i >= 6 * n {
        var j := i - 6 * n;
        assert i / 6 == n && i % 6 == j;
        assert ToU32(ToU32(4 * n) + QuadIndex(j)) == ToU32(4 * n + QuadIndex(j));
      }
    }
  }

  /** One step of the fold on the closed form: appending an in-bounds face. */
  lemma AddFaceClosed(faces: seq<Face>, f: Face)
    requires InBounds(f.x, f.y, f.z)
    ensures AddFace(ClosedMesh(faces), f) == ClosedMesh(faces + [f])
  {
    DefensiveReturnUnreachable(f);
    AddFaceVertices(faces, f);
    AddFaceIndices(|faces|);
  }

  /**
   * The fold `addFace` performs equals the closed form when every face is in
   * bounds: vertex i is corner i % 4 of face i / 4, and index i is
   * 4 * (i / 6) + QuadIndex(i % 6) as a `uint32_t`.
   */
  lemma {:induction false} EmitFacesClosed(faces: seq<Face>)
    requires AllInBounds(faces)
    ensures EmitFaces(faces) == ClosedMesh(faces)
  {
    if |faces| == 0 {
      assert Vertices(faces) == [] && Indices(0) == [];
    } else {
      var n := |faces| - 1;
      var prefix := faces[..n];
      assert AllInBounds(prefix);
      assert prefix + [faces[n]] == faces;
      EmitFacesClosed(prefix);
      AddFaceClosed(prefix, faces[n]);
    }
  }

  /** Every face appends four vertices and six indices, and each index names a vertex of the mesh as long as the vertex count fits 32 bits. */
  lemma ClosedMeshShape(faces: seq<Face>)
    requires 4 * |faces| <= Two32
    ensures var m := ClosedMesh(faces);
            && |m.vertices| == 4 * |faces| && |m.indices| == 6 * |faces|
            && forall i :: 0 <= i < |m.indices| ==> m.indices[i] < |m.vertices|
  {
    var m := ClosedMesh(faces);
    forall i | 0 <= i < |m.indices|
      ensures m.indices[i] < |m.vertices|
    {
      var q := QuadIndex(i % 6);
      assert i / 6 < |faces| && q <= 3;
      assert ToU32(4 * (i / 6) + q) == 4 * (i / 6) + q;
    }
  }

  // ---------------------------------------------------------------------
  // Culling

  /** The neighbouring cell in direction `d`. */
  function Neighbour(d: Direction, x: int, y: int, z: int): Vec3 {
    Add(V(x, y, z), Outward(d))
  }

  /** Whether the neighbour of (x, y, z) in direction `d` is solid. */
  predicate NeighbourSolid(c: Chunk, d: Direction, x: int, y: int, z: int) {
    var n := Neighbour(d, x, y, z);
    IsBlockSolid(c, n.x, n.y, n.z)
  }

  /** The face of cell (x, y, z) in direction `d`, if the neighbour there is not solid. */
  function FaceIfExposed(c: Chunk, d: Direction, x: int, y: int, z: int, id: BlockId): seq<Face> {
    if !NeighbourSolid(c, d, x, y, z) then [Face(d, x, y, z, id)] else []
  }

  /** Position of a direction in the order the mesher tests them: North, South, East, West, Top, Bottom. */
  function DirRank(d: Direction): int {
    match d
    case North => 0
    case South => 1
    case East => 2
    case West => 3
    case Top => 4
    case Bottom => 5
  }

  /**
   * The faces one cell contributes: none for air or a non-displayable
   * block, otherwise the exposed ones, tested North, South, East, West,
   * Top, Bottom.
   */
  function CellFaces(c: Chunk, reg: Registry, x: int, y: int, z: int): seq<Face>
    requires InBounds(x, y, z) && RegistryCovers(c)
  {
    var id := GetBlock(c, x, y, z);
    if id == Air || !IsDisplayable(reg, id) then []
    else
      FaceIfExposed(c, North, x, y, z, id) + FaceIfExposed(c, South, x, y, z, id)
      + FaceIfExposed(c, East, x, y, z, id) + FaceIfExposed(c, West, x, y, z, id)
      + FaceIfExposed(c, Top, x, y, z, id) + FaceIfExposed(c, Bottom, x, y, z, id)
  }

  /** Faces listed with strictly increasing direction rank: at most one per direction, in testing order. */
  ghost predicate RankOrdered(fs: seq<Face>) {
    forall i, j :: 0 <= i < j < |fs| ==> DirRank(fs[i].dir) < DirRank(fs[j].dir)
  }

  /** Every face of `fs` has rank below `r`. */
  ghost predicate RanksBelow(fs: seq<Face>, r: int) {
    forall i :: 0 <= i < |fs| ==> DirRank(fs[i].dir) < r
  }

  /** Appending the test of a later direction keeps the list rank-ordered. */
  lemma RankOrderedStep(fs: seq<Face>, c: Chunk, d: Direction, x: int, y: int, z: int, id: BlockId)
    requires RankOrdered(fs) && RanksBelow(fs, DirRank(d))
    ensures var gs := fs + FaceIfExposed(c, d, x, y, z, id);
            RankOrdered(gs) && RanksBelow(gs, DirRank(d) + 1) && |gs| <= |fs| + 1
  {
  }

  /** A cell emits at most six faces, in the order North, South, East, West, Top, Bottom. */
  lemma CellFacesOrder(c: Chunk, reg: Registry, x: int, y: int, z: int)
    requires InBounds(x, y, z) && RegistryCovers(c)
    ensures var fs := CellFaces(c, reg, x, y, z);
            |fs| <= 6 && RankOrdered(fs)
  {
    var id := GetBlock(c, x, y, z);
    if id != Air && IsDisplayable(reg, id) {
      var f0: seq<Face> := [];
      RankOrderedStep(f0, c, North, x, y, z, id);
      var f1 := f0 + FaceIfExposed(c, North, x, y, z, id);
      RankOrderedStep(f1, c, South, x, y, z, id);
      var f2 := f1 + FaceIfExposed(c, South, x, y, z, id);
      RankOrderedStep(f2, c, East, x, y, z, id);
      var f3 := f2 + FaceIfExposed(c, East, x, y, z, id);
      RankOrderedStep(f3, c, West, x, y, z, id);
      var f4 := f3 + FaceIfExposed(c, West, x, y, z, id);
      RankOrderedStep(f4, c, Top, x, y, z, id);
      var f5 := f4 + FaceIfExposed(c, Top, x, y, z, id);
      RankOrderedStep(f5, c, Bottom, x, y, z, id);
      assert f1 == FaceIfExposed(c, North, x, y, z, id);
    }
  }

  /** The test of one direction yields exactly its face when the neighbour is not solid. */
  lemma FaceIfExposedMember(c: Chunk, d: Direction, x: int, y: int, z: int, id: BlockId, f: Face)
    ensures f in FaceIfExposed(c, d, x, y, z, id) <==> f == Face(d, x, y, z, id) && !NeighbourSolid(c, d, x, y, z)
  {
  }

  /**
   * A cell emits the face in direction `d` exactly when it holds a
   * displayable non-air block and the neighbour in `d` is not solid, and
   * only faces of its own cell and block id.
   */
  lemma CellFacesMember(c: Chunk, reg: Registry, x: int, y: int, z: int, f: Face)
    requires InBounds(x, y, z) && RegistryCovers(c)
    ensures f in CellFaces(c, reg, x, y, z) <==>
              var id := GetBlock(c, x, y, z);
              && id != Air && IsDisplayable(reg, id)
              && f == Face(f.dir, x, y, z, id)
              && !NeighbourSolid(c, f.dir, x, y, z)
  {
    var id := GetBlock(c, x, y, z);
    if id != Air && IsDisplayable(reg, id) {
      var fs := CellFaces(c, reg, x, y, z);
      var n, s, e, w, t, b :=
        FaceIfExposed(c, North, x, y, z, id), FaceIfExposed(c, South, x, y, z, id),
        FaceIfExposed(c, East, x, y, z, id), FaceIfExposed(c, West, x, y, z, id),
        FaceIfExposed(c, Top, x, y, z, id), FaceIfExposed(c, Bottom, x, y, z, id);
      assert fs == n + s + e + w + t + b;
      assert f in fs <==> f in n || f in s || f in e || f in w || f in t || f in b;
      FaceIfExposedMember(c, f.dir, x, y, z, id, f);
      match f.dir
      case North => FaceIfExposedMember(c, North, x, y, z, id, f);
      case South => FaceIfExposedMember(c, South, x, y, z, id, f);
      case East => FaceIfExposedMember(c, East, x, y, z, id, f);
      case West => FaceIfExposedMember(c, West, x, y, z, id, f);
      case Top => FaceIfExposedMember(c, Top, x, y, z, id, f);
      case Bottom => FaceIfExposedMember(c, Bottom, x, y, z, id, f);
    }
  }

  /** A cell's faces lie in the cell, so in bounds, and there are at most six. */
  lemma CellFacesBounds(c: Chunk, reg: Registry, x: int, y: int, z: int)
    requires InBounds(x, y, z) && RegistryCovers(c)
    ensures AllInBounds(CellFaces(c, reg, x, y, z)) && |CellFaces(c, reg, x, y, z)| <= 6
  {
    CellFacesOrder(c, reg, x, y, z);
    var fs := CellFaces(c, reg, x, y, z);
    forall i | 0 <= i < |fs|
      ensures InBounds(fs[i].x, fs[i].y, fs[i].z)
    {
      CellFacesMember(c, reg, x, y, z, fs[i]);
    }
  }

  /** A face on the chunk boundary of a displayable block is always emitted. */
  lemma BoundaryFaceEmitted(c: Chunk, reg: Registry, x: int, y: int, z: int, d: Direction)
    requires InBounds(x, y, z) && RegistryCovers(c)
    requires GetBlock(c, x, y, z) != Air && IsDisplayable(reg, GetBlock(c, x, y, z))
    requires var n := Neighbour(d, x, y, z); !InBounds(n.x, n.y, n.z)
    ensures Face(d, x, y, z, GetBlock(c, x, y, z)) in CellFaces(c, reg, x, y, z)
  {
    CellFacesMember(c, reg, x, y, z, Face(d, x, y, z, GetBlock(c, x, y, z)));
  }

  // ---------------------------------------------------------------------
  // Whole-chunk specification, following the three nested loops

  /** The faces each cell contributes, as a function of the cell. */
  type CellMap = Vec3 -> seq<Face>

  /** The faces of the cells of chunk `c`; outside the chunk, none. */
  ghost function Cells(c: Chunk, reg: Registry): (cells: CellMap)
    requires RegistryCovers(c)
    ensures forall x, y, z :: InBounds(x, y, z) ==> cells(V(x, y, z)) == CellFaces(c, reg, x, y, z)
  {
    (p: Vec3) => if InBounds(p.x, p.y, p.z) then CellFaces(c, reg, p.x, p.y, p.z) else []
  }

  /** The faces of cells (x, y, 0) .. (x, y, n - 1): the innermost loop, z ascending. */
  ghost function ColumnFaces(cells: CellMap, x: int, y: int, n: nat): seq<Face>
  {
    if n == 0 then [] else ColumnFaces(cells, x, y, n - 1) + cells(V(x, y, n - 1))
  }

  /** The faces of the columns (x, 0) .. (x, n - 1): the middle loop, y ascending. */
  ghost function SliceFaces(cells: CellMap, x: int, n: nat): seq<Face>
  {
    if n == 0 then [] else SliceFaces(cells, x, n - 1) + ColumnFaces(cells, x, n - 1, ChunkSize)
  }

  /** The faces of the slices 0 .. n - 1: the outer loop, x ascending. */
  ghost function ChunkFaces(cells: CellMap, n: nat): seq<Face>
  {
    if n == 0 then [] else ChunkFaces(cells, n - 1) + SliceFaces(cells, n - 1, ChunkSize)
  }

  /** One more cell at the end of a column, after any earlier faces. */
  lemma ColumnStep(before: seq<Face>, cells: CellMap, x: int, y: int, z: nat)
    ensures before + ColumnFaces(cells, x, y, z) + cells(V(x, y, z)) == before + ColumnFaces(cells, x, y, z + 1)
  {
  }

  /** One more column at the end of a slice, after any earlier faces. */
  lemma SliceStep(before: seq<Face>, cells: CellMap, x: int, y: nat)
    ensures before + SliceFaces(cells, x, y) + ColumnFaces(cells, x, y, ChunkSize) == before + SliceFaces(cells, x, y + 1)
  {
  }

  /** Concatenation keeps every face in bounds. */
  lemma AllInBoundsAppend(a: seq<Face>, b: seq<Face>)
    requires AllInBounds(a) && AllInBounds(b)
    ensures AllInBounds(a + b)
  {
    forall i | 0 <= i < |a + b|
      ensures InBounds((a + b)[i].x, (a + b)[i].y, (a + b)[i].z)
    {
      if i >= |a| {
        assert (a + b)[i] == b[i - |a|];
      }
    }
  }

  /** Every cell of the chunk has at most six faces, all in bounds. */
  ghost predicate CellsBounded(cells: CellMap) {
    forall x, y, z :: InBounds(x, y, z) ==> AllInBounds(cells(V(x, y, z))) && |cells(V(x, y, z))| <= 6
  }

  lemma CellsOfChunkBounded(c: Chunk, reg: Registry)
    requires RegistryCovers(c)
    ensures CellsBounded(Cells(c, reg))
  {
    forall x, y, z | InBounds(x, y, z)
      ensures AllInBounds(Cells(c, reg)(V(x, y, z))) && |Cells(c, reg)(V(x, y, z))| <= 6
    {
      CellFacesBounds(c, reg, x, y, z);
    }
  }

  lemma {:induction false} ColumnFacesBounds(cells: CellMap, x: int, y: int, n: nat)
    requires CellsBounded(cells) && 0 <= x < ChunkSize && 0 <= y < ChunkSize && n <= ChunkSize
    ensures AllInBounds(ColumnFaces(cells, x, y, n)) && |ColumnFaces(cells, x, y, n)| <= 6 * n
  {
    if n > 0 {
      ColumnFacesBounds(cells, x, y, n - 1);
      assert InBounds(x, y, n - 1);
      AllInBoundsAppend(ColumnFaces(cells, x, y, n - 1), cells(V(x, y, n - 1)));
    }
  }

  lemma {:induction false} SliceFacesBounds(cells: CellMap, x: int, n: nat)
    requires CellsBounded(cells) && 0 <= x < ChunkSize && n <= ChunkSize
    ensures AllInBounds(SliceFaces(cells, x, n)) && |SliceFaces(cells, x, n)| <= 192 * n
  {
    if n > 0 {
      var earlier := SliceFaces(cells, x, n - 1);
      var column := ColumnFaces(cells, x, n - 1, ChunkSize);
      SliceFacesBounds(cells, x, n - 1);
      ColumnFacesBounds(cells, x, n - 1, ChunkSize);
      assert SliceFaces(cells, x, n) == earlier + column;
      AllInBoundsAppend(earlier, column);
    }
  }

  /** Every slice of the chunk has at most 192 * 32 faces, all in bounds. */
  ghost predicate SlicesBounded(cells: CellMap) {
    forall x :: 0 <= x < ChunkSize ==>
      AllInBounds(SliceFaces(cells, x, ChunkSize)) && |SliceFaces(cells, x, ChunkSize)| <= 6144
  }

  lemma SlicesOfBounded(cells: CellMap)
    requires CellsBounded(cells)
    ensures SlicesBounded(cells)
  {
    forall x | 0 <= x < ChunkSize
      ensures AllInBounds(SliceFaces(cells, x, ChunkSize)) && |SliceFaces(cells, x, ChunkSize)| <= 6144
    {
      SliceFacesBounds(cells, x, ChunkSize);
    }
  }

  /** Every face the mesher finds belongs to an in-bounds cell, and there are at most six per cell. */
  lemma ChunkFacesBounds(cells: CellMap)
    requires CellsBounded(cells)
    ensures AllInBounds(ChunkFaces(cells, ChunkSize)) && |ChunkFaces(cells, ChunkSize)| <= 6144 * ChunkSize
  {
    SlicesOfBounded(cells);
    SlicesBoundedFaces(cells, ChunkSize);
  }

  /** The faces of a covered chunk's cells stay in the chunk, at most six per block. */
  lemma ChunkFacesOf(c: Chunk, reg: Registry)
    requires RegistryCovers(c)
    ensures AllInBounds(ChunkFaces(Cells(c, reg), ChunkSize)) && |ChunkFaces(Cells(c, reg), ChunkSize)| <= 6 * Volume
  {
    CellsOfChunkBounded(c, reg);
    ChunkFacesBounds(Cells(c, reg));
  }

  /** Every face a cell map lists for a position belongs to the cell at that position. */
  ghost predicate CellsOwn(cells: CellMap) {
    forall p: Vec3, f: Face :: f in cells(p) ==> Cell(f) == p
  }

  lemma CellsOfChunkOwn(c: Chunk, reg: Registry)
    requires RegistryCovers(c)
    ensures CellsOwn(Cells(c, reg))
  {
    var cells := Cells(c, reg);
    forall p: Vec3, f: Face | f in cells(p)
      ensures Cell(f) == p
    {
      CellFacesMember(c, reg, p.x, p.y, p.z, f);
    }
  }

  /** A column lists exactly the faces of its first `n` cells. */
  lemma {:induction false} ColumnFacesMember(cells: CellMap, x: int, y: int, n: nat, f: Face)
    requires CellsOwn(cells)
    ensures f in ColumnFaces(cells, x, y, n) <==> f.x == x && f.y == y && 0 <= f.z < n && f in cells(V(x, y, f.z))
  {
    if n > 0 {
      ColumnFacesMember(cells, x, y, n - 1, f);
      assert ColumnFaces(cells, x, y, n) == ColumnFaces(cells, x, y, n - 1) + cells(V(x, y, n - 1));
      if f in cells(V(x, y, n - 1)) {
        assert Cell(f) == V(x, y, n - 1);
      }
    }
  }

  /** A slice lists exactly the faces of the cells in its first `n` columns. */
  lemma {:induction false} SliceFacesMember(cells: CellMap, x: int, n: nat, f: Face)
    requires CellsOwn(cells)
    ensures f in SliceFaces(cells, x, n) <==>
              f.x == x && 0 <= f.y < n && 0 <= f.z < ChunkSize && f in cells(V(x, f.y, f.z))
  {
    if n > 0 {
      SliceFacesMember(cells, x, n - 1, f);
      ColumnFacesMember(cells, x, n - 1, ChunkSize, f);
      assert SliceFaces(cells, x, n) == SliceFaces(cells, x, n - 1) + ColumnFaces(cells, x, n - 1, ChunkSize);
    }
  }

  /** The chunk lists exactly the faces of the cells in its first `n` slices. */
  lemma {:induction false} ChunkFacesIn(cells: CellMap, n: nat, f: Face)
    requires CellsOwn(cells)
    ensures f in ChunkFaces(cells, n) <==>
              0 <= f.x < n && 0 <= f.y < ChunkSize && 0 <= f.z < ChunkSize && f in cells(V(f.x, f.y, f.z))
  {
    if n > 0 {
      ChunkFacesIn(cells, n - 1, f);
      SliceFacesMember(cells, n - 1, ChunkSize, f);
      assert ChunkFaces(cells, n) == ChunkFaces(cells, n - 1) + SliceFaces(cells, n - 1, ChunkSize);
    }
  }

  /**
   * Culling over the whole chunk: a face is emitted exactly when its cell
   * is in the chunk and holds a displayable non-air block with the face's
   * block id, and the neighbour in the face's direction is not solid.
   */
  lemma ChunkFacesMember(c: Chunk, reg: Registry, f: Face)
    requires RegistryCovers(c)
    ensures f in ChunkFaces(Cells(c, reg), ChunkSize) <==>
              && InBounds(f.x, f.y, f.z)
              && var id := GetBlock(c, f.x, f.y, f.z);
              && id != Air && IsDisplayable(reg, id)
              && f.blockId == id
              && !NeighbourSolid(c, f.dir, f.x, f.y, f.z)
  {
    CellsOfChunkOwn(c, reg);
    ChunkFacesIn(Cells(c, reg), ChunkSize, f);
    if InBounds(f.x, f.y, f.z) {
      CellFacesMember(c, reg, f.x, f.y, f.z, f);
    }
  }

  lemma {:induction false} SlicesBoundedFaces(cells: CellMap, n: nat)
    requires SlicesBounded(cells) && n <= ChunkSize
    ensures AllInBounds(ChunkFaces(cells, n)) && |ChunkFaces(cells, n)| <= 6144 * n
  {
    if n > 0 {
      var earlier := ChunkFaces(cells, n - 1);
      var slice := SliceFaces(cells, n - 1, ChunkSize);
      SlicesBoundedFaces(cells, n - 1);
      assert ChunkFaces(cells, n) == earlier + slice;
      AllInBoundsAppend(earlier, slice);
    }
  }

  /** No cell of the chunk has a face. */
  ghost predicate NoCellFaces(cells: CellMap) {
    forall x, y, z :: InBounds(x, y, z) ==> cells(V(x, y, z)) == []
  }

  /** A chunk all of whose cells are air. */
  ghost predicate AllAir(c: Chunk) {
    forall x, y, z :: InBounds(x, y, z) ==> GetBlock(c, x, y, z) == Air
  }

  lemma AllAirCells(c: Chunk, reg: Registry)
    requires RegistryCovers(c) && AllAir(c)
    ensures NoCellFaces(Cells(c, reg))
  {
  }

  lemma {:induction false} NoFacesColumn(cells: CellMap, x: int, y: int, n: nat)
    requires NoCellFaces(cells) && 0 <= x < ChunkSize && 0 <= y < ChunkSize && n <= ChunkSize
    ensures ColumnFaces(cells, x, y, n) == []
  {
    if n > 0 {
      NoFacesColumn(cells, x, y, n - 1);
      assert InBounds(x, y, n - 1);
    }
  }

  lemma {:induction false} NoFacesSlice(cells: CellMap, x: int, n: nat)
    requires NoCellFaces(cells) && 0 <= x < ChunkSize && n <= ChunkSize
    ensures SliceFaces(cells, x, n) == []
  {
    if n > 0 {
      NoFacesSlice(cells, x, n - 1);
      NoFacesColumn(cells, x, n - 1, ChunkSize);
    }
  }

  lemma {:induction false} NoFacesChunk(cells: CellMap, n: nat)
    requires NoCellFaces(cells) && n <= ChunkSize
    ensures ChunkFaces(cells, n) == []
  {
    if n > 0 {
      NoFacesChunk(cells, n - 1);
      NoFacesSlice(cells, n - 1, ChunkSize);
    }
  }

  /**
   * The mesh `generateMesh` produces: nothing for a chunk flagged empty,
   * whatever ids it holds, since the registry is never consulted for it;
   * otherwise every culled face.
   */
  ghost function ChunkMesh(c: Chunk, reg: Registry): Mesh
    requires !c.isEmpty ==> RegistryCovers(c)
  {
    if c.isEmpty then EmptyMesh else EmitFaces(ChunkFaces(Cells(c, reg), ChunkSize))
  }

  /**
   * The mesh has four vertices and six indices per face, at most six faces
   * per cell, and every index below the vertex count.
   */
  lemma ChunkMeshShape(c: Chunk, reg: Registry)
    requires !c.isEmpty ==> RegistryCovers(c)
    ensures var m := ChunkMesh(c, reg);
            var faces := if c.isEmpty then [] else ChunkFaces(Cells(c, reg), ChunkSize);
            && m == ClosedMesh(faces)
            && |m.vertices| == 4 * |faces|
            && |m.indices| == 6 * |faces|
            && |faces| <= 6 * Volume
            && (forall i :: 0 <= i < |m.indices| ==> m.indices[i] < |m.vertices|)
  {
    var faces := if c.isEmpty then [] else ChunkFaces(Cells(c, reg), ChunkSize);
    ChunkMeshClosed(c, reg);
    if !c.isEmpty {
      ChunkFacesOf(c, reg);
    }
    ClosedMeshShape(faces);
  }

  /** The chunk's buffers are the closed form of its face list. */
  lemma ChunkMeshClosed(c: Chunk, reg: Registry)
    requires !c.isEmpty ==> RegistryCovers(c)
    ensures ChunkMesh(c, reg) == ClosedMesh(if c.isEmpty then [] else ChunkFaces(Cells(c, reg), ChunkSize))
  {
    if c.isEmpty {
      assert ClosedMesh([]) == EmptyMesh;
    } else {
      ChunkFacesOf(c, reg);
      EmitFacesClosed(ChunkFaces(Cells(c, reg), ChunkSize));
    }
  }

  /** A chunk flagged empty, or holding only air, meshes to empty buffers. */
  lemma EmptyChunkMesh(c: Chunk, reg: Registry)
    requires !c.isEmpty ==> RegistryCovers(c)
    ensures (c.isEmpty || AllAir(c)) ==> ChunkMesh(c, reg) == EmptyMesh
  {
    if AllAir(c) && !c.isEmpty {
      var cells := Cells(c, reg);
      AllAirCells(c, reg);
      NoFacesChunk(cells, ChunkSize);
      ChunkMeshClosed(c, reg);
      assert ClosedMesh([]) == EmptyMesh;
    }
  }

  // ---------------------------------------------------------------------
  // The mesher

  /*
   * Each method below returns, next to the mesh, the ghost list of faces it
   * stands for; the mesh is always `ClosedMesh` of that list, so the proofs
   * only ever compare face lists.
   */

  /** One `if (!isBlockSolid(neighbour)) addFace(...)` step of the innermost loop. */
  method AddIfExposed(c: Chunk, d: Direction, x: int, y: int, z: int, id: BlockId, m0: Mesh, ghost acc0: seq<Face>)
    returns (m: Mesh, ghost acc: seq<Face>)
    requires InBounds(x, y, z) && m0 == ClosedMesh(acc0)
    ensures m == ClosedMesh(acc) && acc == acc0 + FaceIfExposed(c, d, x, y, z, id)
    ensures m == ClosedMesh(acc0 + FaceIfExposed(c, d, x, y, z, id))
  {
    var n := Neighbour(d, x, y, z);
    if !IsBlockSolid(c, n.x, n.y, n.z) {
      AddFaceClosed(acc0, Face(d, x, y, z, id));
      m := AddFace(m0, Face(d, x, y, z, id));
      acc := acc0 + [Face(d, x, y, z, id)];
    } else {
      m, acc := m0, acc0;
    }
  }

  /** The quads of one cell appended to the mesh: the body of the innermost loop. */
  method MeshCell(c: Chunk, reg: Registry, x: int, y: int, z: int, m0: Mesh, ghost acc0: seq<Face>)
    returns (m: Mesh, ghost acc: seq<Face>)
    requires InBounds(x, y, z) && RegistryCovers(c)
    requires m0 == ClosedMesh(acc0)
    ensures m == ClosedMesh(acc) && acc == acc0 + CellFaces(c, reg, x, y, z)
    ensures m == ClosedMesh(acc0 + CellFaces(c, reg, x, y, z))
  {
    var id := GetBlock(c, x, y, z);
    if id == Air || !IsDisplayable(reg, id) {
      return m0, acc0;
    }
    m, acc := AddIfExposed(c, North, x, y, z, id, m0, acc0);
    m, acc := AddIfExposed(c, South, x, y, z, id, m, acc);
    m, acc := AddIfExposed(c, East, x, y, z, id, m, acc);
    m, acc := AddIfExposed(c, West, x, y, z, id, m, acc);
    m, acc := AddIfExposed(c, Top, x, y, z, id, m, acc);
    m, acc := AddIfExposed(c, Bottom, x, y, z, id, m, acc);
  }

  /** The innermost loop: the cells (x, y, 0) .. (x, y, 31) appended in order. */
  method MeshColumn(c: Chunk, reg: Registry, x: int, y: int, m0: Mesh, ghost acc0: seq<Face>)
    returns (m: Mesh, ghost acc: seq<Face>)
    requires 0 <= x < ChunkSize && 0 <= y < ChunkSize && RegistryCovers(c)
    requires m0 == ClosedMesh(acc0)
    ensures m == ClosedMesh(acc) && acc == acc0 + ColumnFaces(Cells(c, reg), x, y, ChunkSize)
    ensures m == ClosedMesh(acc0 + ColumnFaces(Cells(c, reg), x, y, ChunkSize))
  {
    ghost var cells := Cells(c, reg);
    m, acc := m0, acc0;
    var z := 0;
    while z < ChunkSize
      invariant 0 <= z <= ChunkSize
      invariant m == ClosedMesh(acc) && acc == acc0 + ColumnFaces(cells, x, y, z)
    {
      m, acc := MeshCell(c, reg, x, y, z, m, acc);
      ColumnStep(acc0, cells, x, y, z);
      z := z + 1;
    }
  }

  /** The middle loop: the columns (x, 0) .. (x, 31) appended in order. */
  method MeshSlice(c: Chunk, reg: Registry, x: int, m0: Mesh, ghost acc0: seq<Face>)
    returns (m: Mesh, ghost acc: seq<Face>)
    requires 0 <= x < ChunkSize && RegistryCovers(c)
    requires m0 == ClosedMesh(acc0)
    ensures m == ClosedMesh(acc) && acc == acc0 + SliceFaces(Cells(c, reg), x, ChunkSize)
    ensures m == ClosedMesh(acc0 + SliceFaces(Cells(c, reg), x, ChunkSize))
  {
    ghost var cells := Cells(c, reg);
    m, acc := m0, acc0;
    var y := 0;
    while y < ChunkSize
      invariant 0 <= y <= ChunkSize
      invariant m == ClosedMesh(acc) && acc == acc0 + SliceFaces(cells, x, y)
    {
      m, acc := MeshColumn(c, reg, x, y, m, acc);
      SliceStep(acc0, cells, x, y);
      y := y + 1;
    }
  }

  /** The outer loop: the slices x = 0 .. 31 appended in order to an empty mesh. */
  method MeshChunk(c: Chunk, reg: Registry) returns (m: Mesh)
    requires RegistryCovers(c)
    ensures m == ClosedMesh(ChunkFaces(Cells(c, reg), ChunkSize))
  {
    ghost var cells := Cells(c, reg);
    m := EmptyMesh;
    ghost var acc: seq<Face> := [];
    var x := 0;
    while x < ChunkSize
      invariant 0 <= x <= ChunkSize
      invariant m == ClosedMesh(acc) && acc == ChunkFaces(cells, x)
    {
      m, acc := MeshSlice(c, reg, x, m, acc);
      x := x + 1;
    }
  }

  /**
   * The mesher. Both output buffers are cleared first, so their previous
   * contents never matter; the loops visit x outermost and z innermost and
   * test the six directions in the order North, South, East, West, Top, Bottom.
   */
  method GenerateMesh(c: Chunk, reg: Registry, vertices0: seq<U32>, indices0: seq<U32>)
    returns (vertices: seq<U32>, indices: seq<U32>)
    requires !c.isEmpty ==> RegistryCovers(c)
    ensures Mesh(vertices, indices) == ChunkMesh(c, reg)
    ensures c.isEmpty ==> vertices == [] && indices == []
    ensures var faces := if c.isEmpty then [] else ChunkFaces(Cells(c, reg), ChunkSize);
            |vertices| == 4 * |faces| && |indices| == 6 * |faces| && |faces| <= 6 * Volume
    ensures forall i :: 0 <= i < |indices| ==> indices[i] < |vertices|
  {
    if c.isEmpty {
      return [], [];
    }
    ChunkMeshClosed(c, reg);
    var m := MeshChunk(c, reg);
    ChunkFacesOf(c, reg);
    ClosedMeshShape(ChunkFaces(Cells(c, reg), ChunkSize));
    vertices, indices := m.vertices, m.indices;
  }
}

=== FILE: renderer.dfy ===
/**
 * The renderer's frame protocol: two frame slots, each with a render fence,
 * two binary semaphores, a deletion queue and a descriptor allocator; a
 * 64-bit frame counter choosing the slot; the resize flag; the main
 * deletion queue that tears everything down. Every driver call's result is
 * supplied by the caller; command recording, image transitions, ImGui and
 * the swapchain itself are reduced to their result codes.
 */
module Renderer {
  import opened Wrappers
  import opened Ints
  import opened Vulkan
  import opened DeletionQueue
  import D = Descriptors

  const FrameOverlap: int := 2

  /** A binary semaphore: all the renderer's semaphores are created unsignaled. */
  datatype SemaphoreState = SemaphoreUnsignaled | SemaphoreSignaled

  /** One frame slot. Its own deletion queue holds deferred deletions, named by number. */
  datatype Frame = Frame(
    renderFence: FenceState,
    swapchainSemaphore: SemaphoreState,
    renderSemaphore: SemaphoreState,
    deletionQueue: Queue<nat>,
    frameDescriptors: D.Allocator)

  /** The teardown closures of the main deletion queue. */
  datatype MainDeletor =
    | DestroyDrawImages
    | DestroyCommandPool(slot: int)
    | DestroyFence(slot: int)
    | DestroySwapchainSemaphore(slot: int)
    | DestroyRenderSemaphore(slot: int)
    | DestroyGlobalDescriptorPools
    | DestroyFrameDescriptorPools(slot: int)
    | DestroyImmediateObjects
    | ShutdownImGui

  datatype RendererState = RendererState(
    frames: seq<Frame>,
    frameNumber: U64,
    resizeRequested: bool,
    globalDescriptors: D.Allocator,
    mainDeletionQueue: Queue<MainDeletor>)

  const BlankFrame: Frame := Frame(Unsignaled, SemaphoreUnsignaled, SemaphoreUnsignaled, Queue([]), D.Default)

  /** The renderer always has exactly `FrameOverlap` slots. */
  type State = s: RendererState | |s.frames| == FrameOverlap
    witness RendererState([BlankFrame, BlankFrame], 0, false, D.Default, Queue([]))

  /** `getCurrentFrame`'s slot. */
  function CurrentSlot(s: State): (slot: nat)
    ensures slot < FrameOverlap && slot == s.frameNumber % FrameOverlap
  {
    s.frameNumber % 2
  }

  function SetFence(s: State, slot: nat, f: FenceState): (r: State)
    requires slot < FrameOverlap
    ensures r.frames[slot].renderFence == f
    ensures forall j :: 0 <= j < FrameOverlap && j != slot ==> r.frames[j] == s.frames[j]
    ensures r.frames[slot] == s.frames[slot].(renderFence := f)
    ensures r.frameNumber == s.frameNumber && r.resizeRequested == s.resizeRequested
    ensures r.mainDeletionQueue == s.mainDeletionQueue
  {
    s.(frames := s.frames[slot := s.frames[slot].(renderFence := f)])
  }

  // ---------------------------------------------------------------------
  // Construction

  /** `vkCreateFence`: signaled exactly when created with the signaled bit. */
  function CreateFence(signaledBit: bool): (f: FenceState)
    ensures f != Pending
    ensures f == Signaled <==> signaledBit
  {
    if signaledBit then Signaled else Unsignaled
  }

  /** A driver call the constructor makes. */
  datatype Step =
    | CreateDrawImages
    | CreateCommandPool(slot: int)
    | AllocateCommandBuffer(slot: int)
    | CreateRenderFence(slot: int)
    | CreateSwapchainSemaphore(slot: int)
    | CreateRenderSemaphore(slot: int)
    | InitGlobalDescriptors
    | InitSlotDescriptors(slot: int)
    | CreateImmediatePool
    | AllocateImmediateBuffer
    | CreateImmediateFence
    | CreateImGuiPool

  /** The main queue after a complete construction, in push order. */
  const MainRegistrations: seq<MainDeletor> := [
    DestroyDrawImages,
    DestroyCommandPool(0), DestroyCommandPool(1),
    DestroyFence(0), DestroySwapchainSemaphore(0), DestroyRenderSemaphore(0),
    DestroyFence(1), DestroySwapchainSemaphore(1), DestroyRenderSemaphore(1),
    DestroyGlobalDescriptorPools,
    DestroyFrameDescriptorPools(0), DestroyFrameDescriptorPools(1),
    DestroyImmediateObjects,
    ShutdownImGui]

  /** The per-slot steps, for both slots. */
  predicate SlotsGranted(grants: Step -> bool) {
    forall j :: 0 <= j < FrameOverlap ==>
      && grants(CreateCommandPool(j)) && grants(AllocateCommandBuffer(j))
      && grants(CreateRenderFence(j)) && grants(CreateSwapchainSemaphore(j)) && grants(CreateRenderSemaphore(j))
      && grants(InitSlotDescriptors(j))
  }

  predicate AllGranted(grants: Step -> bool) {
    && grants(CreateDrawImages) && SlotsGranted(grants) && grants(InitGlobalDescriptors)
    && grants(CreateImmediatePool) && grants(AllocateImmediateBuffer) && grants(CreateImmediateFence)
    && grants(CreateImGuiPool)
  }

  /** The state every successfully constructed renderer starts in. */
  predicate Initial(s: State) {
    && s.frameNumber == 0 && !s.resizeRequested
    && s.mainDeletionQueue.deletors == MainRegistrations
    && (forall j :: 0 <= j < FrameOverlap ==>
          && s.frames[j].renderFence == Signaled
          && s.frames[j].swapchainSemaphore == SemaphoreUnsignaled
          && s.frames[j].renderSemaphore == SemaphoreUnsignaled
          && s.frames[j].deletionQueue.deletors == []
          && s.frames[j].frameDescriptors.setsPerPool == 1500)
    && s.globalDescriptors.setsPerPool == 15
  }

  /**
   * The constructor, from the draw images on (the swapchain and buffer
   * managers are not modelled). Each creation is checked and the first
   * refused one throws; each successful one registers its teardown.
   */
  method Construct(grants: Step -> bool) returns (r: Result<State, string>)
    ensures r.Ok? <==> AllGranted(grants)
    ensures r.Ok? ==> Initial(r.value)
  {
    if !grants(CreateDrawImages) {
      return Err("Failed to create draw image");
    }
    var q: Queue<MainDeletor> := Push(Empty(), DestroyDrawImages);
    var pools := CreateFrameCommandPools(q, grants);
    if pools.Err? {
      return Err(pools.error);
    }
    var sync := CreateFrameSyncStructures(pools.value, grants);
    if sync.Err? {
      return Err(sync.error);
    }
    var (frames, q2) := sync.value;
    var global := D.Init(D.Default, 10, [D.PoolSizeRatio(3, 1.0)], grants(InitGlobalDescriptors));
    if global.Err? {
      return Err(global.error);
    }
    q2 := Push(q2, DestroyGlobalDescriptorPools);
    var described := InitFrameDescriptors(frames, q2, grants);
    if described.Err? {
      return Err(described.error);
    }
    var (frames3, q3) := described.value;
    if !grants(CreateImmediatePool) {
      return Err("Failed to create immediate command pool");
    }
    if !grants(AllocateImmediateBuffer) {
      return Err("Failed to allocate immediate command buffer");
    }
    if !grants(CreateImmediateFence) {
      return Err("Failed to create immediate fence");
    }
    q3 := Push(q3, DestroyImmediateObjects);
    if !grants(CreateImGuiPool) {
      return Err("Failed to create ImGui descriptor pool");
    }
    q3 := Push(q3, ShutdownImGui);
    assert q3.deletors == MainRegistrations;
    r := Ok(RendererState(frames3, 0, false, global.value, q3));
  }

  /** `createFrameCommandPools`: a pool and a command buffer per slot. */
  method CreateFrameCommandPools(q: Queue<MainDeletor>, grants: Step -> bool) returns (r: Result<Queue<MainDeletor>, string>)
    requires q.deletors == MainRegistrations[..1]
    ensures r.Ok? <==> forall j :: 0 <= j < FrameOverlap ==> grants(CreateCommandPool(j)) && grants(AllocateCommandBuffer(j))
    ensures r.Ok? ==> r.value.deletors == MainRegistrations[..3]
  {
    var queue := q;
    var i := 0;
    while i < 2
      invariant 0 <= i <= 2
      invariant forall j :: 0 <= j < i ==> grants(CreateCommandPool(j)) && grants(AllocateCommandBuffer(j))
      invariant queue.deletors == MainRegistrations[..1 + i]
    {
      if !grants(CreateCommandPool(i)) {
        return Err("Failed to create command pool");
      }
      queue := Push(queue, DestroyCommandPool(i));
      if !grants(AllocateCommandBuffer(i)) {
        return Err("Failed to allocate command buffers");
      }
      i := i + 1;
    }
    r := Ok(queue);
  }

  /** `createFrameSyncStructures`: per slot a fence created signaled and two semaphores created unsignaled. */
  method CreateFrameSyncStructures(q: Queue<MainDeletor>, grants: Step -> bool)
    returns (r: Result<(seq<Frame>, Queue<MainDeletor>), string>)
    requires q.deletors == MainRegistrations[..3]
    ensures r.Ok? <==> forall j :: 0 <= j < FrameOverlap ==>
              grants(CreateRenderFence(j)) && grants(CreateSwapchainSemaphore(j)) && grants(CreateRenderSemaphore(j))
    ensures r.Ok? ==> |r.value.0| == FrameOverlap && r.value.1.deletors == MainRegistrations[..9]
    ensures r.Ok? ==> forall j :: 0 <= j < FrameOverlap ==>
              r.value.0[j] == BlankFrame.(renderFence := Signaled)
  {
    var frames := [BlankFrame, BlankFrame];
    var queue := q;
    var i := 0;
    while i < 2
      invariant 0 <= i <= 2 && |frames| == 2
      invariant forall j :: 0 <= j < i ==>
                  grants(CreateRenderFence(j)) && grants(CreateSwapchainSemaphore(j)) && grants(CreateRenderSemaphore(j))
      invariant queue.deletors == MainRegistrations[..3 + 3 * i]
      invariant forall j :: 0 <= j < 2 ==>
                  frames[j] == if j < i then BlankFrame.(renderFence := Signaled) else BlankFrame
    {
      if !grants(CreateRenderFence(i)) {
        return Err("Failed to create render fence");
      }
      frames := frames[i := frames[i].(renderFence := CreateFence(true))];
      queue := Push(queue, DestroyFence(i));
      if !grants(CreateSwapchainSemaphore(i)) {
        return Err("Failed to create swapchain semaphore");
      }
      queue := Push(queue, DestroySwapchainSemaphore(i));
      if !grants(CreateRenderSemaphore(i)) {
        return Err("Failed to create render semaphore");
      }
      queue := Push(queue, DestroyRenderSemaphore(i));
      i := i + 1;
    }
    r := Ok((frames, queue));
  }

  /** The per-slot descriptor allocators, 1000 sets each. */
  method InitFrameDescriptors(frames: seq<Frame>, q: Queue<MainDeletor>, grants: Step -> bool)
    returns (r: Result<(seq<Frame>, Queue<MainDeletor>), string>)
    requires |frames| == FrameOverlap && q.deletors == MainRegistrations[..10]
    requires forall j :: 0 <= j < FrameOverlap ==> frames[j] == BlankFrame.(renderFence := Signaled)
    ensures r.Ok? <==> forall j :: 0 <= j < FrameOverlap ==> grants(InitSlotDescriptors(j))
    ensures r.Ok? ==> |r.value.0| == FrameOverlap && r.value.1.deletors == MainRegistrations[..12]
    ensures r.Ok? ==> forall j :: 0 <= j < FrameOverlap ==>
              var f := r.value.0[j];
              f == frames[j].(frameDescriptors := f.frameDescriptors) && f.frameDescriptors.setsPerPool == 1500
  {
    var fs := frames;
    var queue := q;
    var i := 0;
    while i < 2
      invariant 0 <= i <= 2 && |fs| == 2
      invariant forall j :: 0 <= j < i ==> grants(InitSlotDescriptors(j))
      invariant queue.deletors == MainRegistrations[..10 + i]
      invariant forall j :: 0 <= j < 2 ==> fs[j] == frames[j].(frameDescriptors := fs[j].frameDescriptors)
      invariant forall j :: i <= j < 2 ==> fs[j] == frames[j]
      invariant forall j :: 0 <= j < i ==> fs[j].frameDescriptors.setsPerPool == 1500
    {
      var init := D.Init(fs[i].frameDescriptors, 1000, [D.PoolSizeRatio(3, 3.0), D.PoolSizeRatio(7, 3.0),
                                                       D.PoolSizeRatio(6, 3.0), D.PoolSizeRatio(1, 4.0)],
                         grants(InitSlotDescriptors(i)));
      if init.Err? {
        return Err(init.error);
      }
      fs := fs[i := fs[i].(frameDescriptors := init.value)];
      queue := Push(queue, DestroyFrameDescriptorPools(i));
      i := i + 1;
    }
    r := Ok((fs, queue));
  }

  // ---------------------------------------------------------------------
  // Drawing

  /** What the driver answers during one `draw`, and whether the GPU finishes the awaited work within the timeout. */
  datatype DrawEnv = DrawEnv(
    gpuCompletes: bool,
    reset: VkResult,
    acquire: VkResult,
    resetCommandBuffer: VkResult,
    beginCommandBuffer: VkResult,
    endCommandBuffer: VkResult,
    submit: VkResult,
    present: VkResult)

  /** The protocol steps of one `draw`, as they happen. */
  datatype Event =
    | Waited(slot: nat)
    | Flushed(slot: nat)
    | PoolsCleared(slot: nat)
    | FenceReset(slot: nat)
    | Acquired
    | Recorded
    | Submitted(slot: nat)
    | Presented

  /** The state after `draw`, the steps it took, and whether it returned or threw. */
  datatype DrawOutcome = DrawOutcome(state: State, events: seq<Event>, result: Result<(), string>)

  function After(prefix: seq<Event>, o: DrawOutcome): (r: DrawOutcome)
    ensures r.state == o.state && r.result == o.result && r.events == prefix + o.events
  {
    o.(events := prefix + o.events)
  }

  /** The full step sequence of `draw` as written. */
  function WrittenOrder(slot: nat): seq<Event> {
    [Waited(slot), Flushed(slot), PoolsCleared(slot), FenceReset(slot), Acquired, Recorded, Submitted(slot), Presented]
  }

  /** The full step sequence of the corrected `draw`: the fence is reset only once an image is acquired. */
  function FixedOrder(slot: nat): seq<Event> {
    [Waited(slot), Flushed(slot), PoolsCleared(slot), Acquired, FenceReset(slot), Recorded, Submitted(slot), Presented]
  }

  /** Flushing the slot's deletion queue and clearing its descriptor pools. */
  function BeginFrame(s: State, slot: nat): (r: State)
    requires slot < FrameOverlap
    ensures r.frames[slot].deletionQueue.deletors == []
    ensures r.frames[slot].frameDescriptors == D.ClearPools(s.frames[slot].frameDescriptors)
    ensures r.frames[slot].renderFence == s.frames[slot].renderFence
    ensures forall j :: 0 <= j < FrameOverlap && j != slot ==> r.frames[j] == s.frames[j]
    ensures r.frames[slot].swapchainSemaphore == s.frames[slot].swapchainSemaphore
    ensures r.frames[slot].renderSemaphore == s.frames[slot].renderSemaphore
    ensures r.frameNumber == s.frameNumber && r.resizeRequested == s.resizeRequested
    ensures r.globalDescriptors == s.globalDescriptors && r.mainDeletionQueue == s.mainDeletionQueue
  {
    var f := s.frames[slot];
    s.(frames := s.frames[slot := f.(deletionQueue := Empty(), frameDescriptors := D.ClearPools(f.frameDescriptors))])
  }

  /**
   * Recording, submission and presentation, from an acquired image and a
   * reset fence. Submission moves the slot's fence to pending; an
   * out-of-date present only raises the resize flag; the frame counter
   * steps unless something threw.
   */
  function RecordSubmitPresent(s: State, slot: nat, env: DrawEnv): (o: DrawOutcome)
    requires slot < FrameOverlap && s.frames[slot].renderFence == Unsignaled
    ensures o.events <= [Recorded, Submitted(slot), Presented]
    ensures Submitted(slot) in o.events <==> o.state.frames[slot].renderFence == Pending
    ensures o.result.Ok? <==> Presented in o.events && env.present in {Success, ErrorOutOfDateKhr}
    ensures o.result.Ok? ==> o.state.frameNumber == (s.frameNumber + 1) % Two64 &&
                             o.state.resizeRequested == (s.resizeRequested || env.present == ErrorOutOfDateKhr)
    ensures o.result.Err? ==> o.state.frameNumber == s.frameNumber
    ensures forall j :: 0 <= j < FrameOverlap && j != slot ==> o.state.frames[j] == s.frames[j]
  {
    if env.resetCommandBuffer != Success then DrawOutcome(s, [], Err("Failed to reset command buffer"))
    else if env.beginCommandBuffer != Success then DrawOutcome(s, [], Err("Failed to begin command buffer"))
    else if env.endCommandBuffer != Success then DrawOutcome(s, [], Err("Failed to end command buffer"))
    else if env.submit != Success then DrawOutcome(s, [Recorded], Err("Failed to submit to queue"))
    else
      var submitted := SetFence(s, slot, SubmitWithFence(s.frames[slot].renderFence));
      var events := [Recorded, Submitted(slot), Presented];
      if env.present == ErrorOutOfDateKhr then
        DrawOutcome(submitted.(resizeRequested := true, frameNumber := (s.frameNumber + 1) % Two64), events, Ok(()))
      else if env.present != Success then DrawOutcome(submitted, events, Err("Failed to present swapchain image"))
      else DrawOutcome(submitted.(frameNumber := (s.frameNumber + 1) % Two64), events, Ok(()))
  }

  /**
   * `draw` as written: wait on the slot's fence, flush and clear the slot,
   * reset the fence, and only then acquire an image, returning early when
   * the swapchain is out of date.
   */
  function Draw(s: State, env: DrawEnv): (o: DrawOutcome)
    ensures o.events <= WrittenOrder(CurrentSlot(s))
  {
    var slot := CurrentSlot(s);
    var (fence, waited) := WaitForFence(s.frames[slot].renderFence, env.gpuCompletes);
    var s1 := SetFence(s, slot, fence);
    if waited != Success then DrawOutcome(s1, [Waited(slot)], Err("Failed to wait for fence"))
    else
      var s2 := BeginFrame(s1, slot);
      if env.reset != Success then DrawOutcome(s2, [Waited(slot), Flushed(slot), PoolsCleared(slot)], Err("Failed to reset fence"))
      else
        var s3 := SetFence(s2, slot, ResetFence(s2.frames[slot].renderFence));
        var prefix := [Waited(slot), Flushed(slot), PoolsCleared(slot), FenceReset(slot), Acquired];
        if env.acquire == ErrorOutOfDateKhr then DrawOutcome(s3.(resizeRequested := true), prefix, Ok(()))
        else if env.acquire != Success then DrawOutcome(s3, prefix, Err("Failed to acquire next image"))
        else After(prefix, RecordSubmitPresent(s3, slot, env))
  }

  /**
   * The corrected `draw`: identical, except that the fence is reset after a
   * successful acquisition, so an early return leaves it signaled.
   */
  function DrawFixed(s: State, env: DrawEnv): (o: DrawOutcome)
    ensures o.events <= FixedOrder(CurrentSlot(s))
  {
    var slot := CurrentSlot(s);
    var (fence, waited) := WaitForFence(s.frames[slot].renderFence, env.gpuCompletes);
    var s1 := SetFence(s, slot, fence);
    if waited != Success then DrawOutcome(s1, [Waited(slot)], Err("Failed to wait for fence"))
    else
      var s2 := BeginFrame(s1, slot);
      var prefix := [Waited(slot), Flushed(slot), PoolsCleared(slot), Acquired];
      if env.acquire == ErrorOutOfDateKhr then DrawOutcome(s2.(resizeRequested := true), prefix, Ok(()))
      else if env.acquire != Success then DrawOutcome(s2, prefix, Err("Failed to acquire next image"))
      else if env.reset != Success then DrawOutcome(s2, prefix, Err("Failed to reset fence"))
      else
        var s3 := SetFence(s2, slot, ResetFence(s2.frames[slot].renderFence));
        After(prefix + [FenceReset(slot)], RecordSubmitPresent(s3, slot, env))
  }

  /** `resizeSwapchain`: waits for the device to go idle and clears the flag; the fences are not recreated. */
  function ResizeSwapchain(s: State): (r: State)
    ensures forall j :: 0 <= j < FrameOverlap ==> r.frames[j].renderFence == DeviceWaitIdle(s.frames[j].renderFence)
    ensures !r.resizeRequested && r.frameNumber == s.frameNumber
  {
    var idle := SetFence(s, 0, DeviceWaitIdle(s.frames[0].renderFence));
    SetFence(idle, 1, DeviceWaitIdle(s.frames[1].renderFence)).(resizeRequested := false)
  }

  /**
   * The ordering `draw` keeps: nothing of the slot is flushed or cleared
   * unless the wait on its fence succeeded; the fence is reset after the
   * wait and before acquisition; the slot's fence is pending afterwards
   * only through this draw's submission or a wait that timed out; the other slot is never touched; a throw never advances the
   * frame counter.
   */
  lemma DrawProtocol(s: State, env: DrawEnv)
    ensures var o := Draw(s, env);
            var slot := CurrentSlot(s);
            && (Flushed(slot) in o.events ==> WaitForFence(s.frames[slot].renderFence, env.gpuCompletes).1 == Success)
            && (Acquired in o.events ==> FenceReset(slot) in o.events)
            && (Submitted(slot) in o.events ==> o.state.frames[slot].renderFence == Pending)
            && (o.state.frames[slot].renderFence == Pending ==>
                  Submitted(slot) in o.events || s.frames[slot].renderFence == Pending)
            && (forall j :: 0 <= j < FrameOverlap && j != slot ==> o.state.frames[j] == s.frames[j])
            && (o.result.Err? ==> o.state.frameNumber == s.frameNumber)
  {
  }

  /**
   * An out-of-date present still completes the frame: the resize flag is
   * raised and the frame counter advances by exactly one.
   */
  lemma PresentOutOfDate(s: State, env: DrawEnv)
    requires Presented in Draw(s, env).events && env.present == ErrorOutOfDateKhr
    ensures Draw(s, env).result.Ok? && Draw(s, env).state.resizeRequested
    ensures Draw(s, env).state.frameNumber == (s.frameNumber + 1) % Two64
  {
  }

  /**
   * An out-of-date acquisition in `draw` as written: it returns normally
   * with the resize flag raised, no submission, the same frame counter, and
   * the slot's fence unsignaled with nothing pending to signal it.
   */
  lemma AcquireOutOfDate(s: State, env: DrawEnv)
    requires WaitForFence(s.frames[CurrentSlot(s)].renderFence, env.gpuCompletes).1 == Success
    requires env.reset == Success && env.acquire == ErrorOutOfDateKhr
    ensures var o := Draw(s, env);
            && o.result.Ok? && o.state.resizeRequested
            && o.state.frameNumber == s.frameNumber
            && Submitted(CurrentSlot(s)) !in o.events
            && o.state.frames[CurrentSlot(s)].renderFence == Unsignaled
  {
  }

  /**
   * The consequence: the next `draw`, with or without a swapchain resize
   * in between, lands on the same slot, waits on a fence nothing will
   * signal, times out and throws, however quickly the GPU works.
   */
  lemma OutOfDateStallsNextDraw(s: State, env: DrawEnv, next: DrawEnv)
    requires WaitForFence(s.frames[CurrentSlot(s)].renderFence, env.gpuCompletes).1 == Success
    requires env.reset == Success && env.acquire == ErrorOutOfDateKhr
    ensures Draw(Draw(s, env).state, next).result == Err("Failed to wait for fence")
    ensures Draw(ResizeSwapchain(Draw(s, env).state), next).result == Err("Failed to wait for fence")
  {
    AcquireOutOfDate(s, env);
  }

  /** No slot's fence is unsignaled with nothing pending: every wait can succeed. */
  predicate NoIdleFence(s: State) {
    forall j :: 0 <= j < FrameOverlap ==> s.frames[j].renderFence != Unsignaled
  }

  /** A freshly constructed renderer has no idle fence. */
  lemma InitialNoIdleFence(s: State)
    requires Initial(s)
    ensures NoIdleFence(s)
  {
  }

  /** The corrected `draw` keeps every fence waitable whenever it returns normally, out-of-date or not. */
  lemma DrawFixedKeepsFences(s: State, env: DrawEnv)
    requires NoIdleFence(s)
    requires DrawFixed(s, env).result.Ok?
    ensures NoIdleFence(DrawFixed(s, env).state)
  {
    var slot := CurrentSlot(s);
    var o := DrawFixed(s, env);
    assert o.state.frames[slot].renderFence != Unsignaled;
  }

  /** A resize keeps every fence waitable. */
  lemma ResizeKeepsFences(s: State)
    requires NoIdleFence(s)
    ensures NoIdleFence(ResizeSwapchain(s))
  {
  }

  /** With every fence waitable, the corrected `draw` never throws at its wait when the GPU keeps up. */
  lemma DrawFixedWaitSucceeds(s: State, env: DrawEnv)
    requires NoIdleFence(s) && env.gpuCompletes
    ensures DrawFixed(s, env).result != Err("Failed to wait for fence")
  {
  }

  /** With the slot's fence signaled, no `draw` of either version can fail at its wait. */
  lemma SignaledWaitSucceeds(s: State, env: DrawEnv)
    requires s.frames[CurrentSlot(s)].renderFence == Signaled
    ensures DrawFixed(s, env).result != Err("Failed to wait for fence")
    ensures Draw(s, env).result != Err("Failed to wait for fence")
  {
  }

  /**
   * The corrected `draw` on an out-of-date acquisition returns normally
   * with the frame counter unchanged and the slot's fence still signaled.
   */
  lemma DrawFixedOutOfDate(s: State, env: DrawEnv)
    requires WaitForFence(s.frames[CurrentSlot(s)].renderFence, env.gpuCompletes).1 == Success
    requires env.acquire == ErrorOutOfDateKhr
    ensures var o := DrawFixed(s, env);
            && o.result.Ok? && o.state.resizeRequested
            && o.state.frameNumber == s.frameNumber
            && o.state.frames[CurrentSlot(s)].renderFence == Signaled
  {
  }

  /**
   * The corrected `draw` recovers from an out-of-date acquisition: the
   * next `draw` lands on the same slot and passes its wait, with or
   * without a resize in between, whatever the GPU does.
   */
  lemma DrawFixedOutOfDateRecovers(s: State, env: DrawEnv, next: DrawEnv)
    requires WaitForFence(s.frames[CurrentSlot(s)].renderFence, env.gpuCompletes).1 == Success
    requires env.acquire == ErrorOutOfDateKhr
    ensures DrawFixed(DrawFixed(s, env).state, next).result != Err("Failed to wait for fence")
    ensures DrawFixed(ResizeSwapchain(DrawFixed(s, env).state), next).result != Err("Failed to wait for fence")
  {
    DrawFixedOutOfDate(s, env);
    var s1 := DrawFixed(s, env).state;
    SignaledWaitSucceeds(s1, next);
    SignaledWaitSucceeds(ResizeSwapchain(s1), next);
  }

  /** A run of frames with the corrected `draw`, stopping at the first throw. */
  function RunFixed(s: State, envs: seq<DrawEnv>): (o: (State, Result<(), string>))
    decreases |envs|
  {
    if |envs| == 0 then (s, Ok(()))
    else
      var d := DrawFixed(s, envs[0]);
      if d.result.Err? then (d.state, d.result)
      else
        var s1 := if d.state.resizeRequested then ResizeSwapchain(d.state) else d.state;
        RunFixed(s1, envs[1..])
  }

  /**
   * From construction on, as long as the GPU finishes every frame in time,
   * no frame of the corrected renderer fails at its fence wait, whatever
   * the swapchain reports.
   */
  lemma {:induction false} RunFixedNeverStalls(s: State, envs: seq<DrawEnv>)
    requires NoIdleFence(s)
    requires forall i :: 0 <= i < |envs| ==> envs[i].gpuCompletes
    ensures RunFixed(s, envs).1 != Err("Failed to wait for fence")
    ensures RunFixed(s, envs).1.Ok? ==> NoIdleFence(RunFixed(s, envs).0)
    decreases |envs|
  {
    if |envs| > 0 {
      var d := DrawFixed(s, envs[0]);
      DrawFixedWaitSucceeds(s, envs[0]);
      if d.result.Ok? {
        DrawFixedKeepsFences(s, envs[0]);
        var s1 := if d.state.resizeRequested then ResizeSwapchain(d.state) else d.state;
        if d.state.resizeRequested {
          ResizeKeepsFences(d.state);
        }
        RunFixedNeverStalls(s1, envs[1..]);
      }
    }
  }

  // ---------------------------------------------------------------------
  // Destruction

  /**
   * The destructor: wait for the device to go idle, then flush the main
   * queue. Returns the state and the teardown closures in the order they ran.
   */
  method Destroy(s: State) returns (r: State, ran: seq<MainDeletor>)
    ensures forall j :: 0 <= j < FrameOverlap ==> r.frames[j].renderFence != Pending
    ensures ran == FlushOrder(s.mainDeletionQueue)
    ensures multiset(ran) == multiset(s.mainDeletionQueue.deletors)
    ensures r.mainDeletionQueue.deletors == []
  {
    var idle := ResizeSwapchain(s).(resizeRequested := s.resizeRequested);
    var emptied;
    emptied, ran := Flush(idle.mainDeletionQueue);
    r := idle.(mainDeletionQueue := emptied);
  }

  /**
   * Tearing down a constructed renderer runs ImGui's shutdown first and
   * destroys the draw images last; each slot's fence and semaphores go
   * before its command pool.
   */
  lemma TeardownOrder()
    ensures FlushOrder(Queue(MainRegistrations)) == [
              ShutdownImGui,
              DestroyImmediateObjects,
              DestroyFrameDescriptorPools(1), DestroyFrameDescriptorPools(0),
              DestroyGlobalDescriptorPools,
              DestroyRenderSemaphore(1), DestroySwapchainSemaphore(1), DestroyFence(1),
              DestroyRenderSemaphore(0), DestroySwapchainSemaphore(0), DestroyFence(0),
              DestroyCommandPool(1), DestroyCommandPool(0),
              DestroyDrawImages]
  {
  }
}

=== FILE: voxel_renderer.dfy ===
/**
 * The CPU side of the voxel renderer: the test world of 64 x 64 chunks keyed
 * by `ChunkPos`, the neighbour lookup, the rule that uploads one shared mesh
 * at most once, and the two parallel arrays the multi-draw-indirect call
 * consumes.
 */
module VoxelRenderer {
  import opened Wrappers
  import opened Ints
  import Chunks
  import Mesher
  import opened MeshPool

  // ---------------------------------------------------------------------
  // Chunk positions

  /** A chunk's position in chunk units, the key of the world map. */
  datatype ChunkPos = ChunkPos(x: int, y: int, z: int)

  /**
   * `ChunkPos::operator<`: compare x, then y, then z. It never relates a key
   * to itself, and it is the lexicographic order on (x, y, z).
   */
  function Less(a: ChunkPos, b: ChunkPos): (r: bool)
    ensures r ==> a != b
    ensures r <==> a.x < b.x || (a.x == b.x && (a.y < b.y || (a.y == b.y && a.z < b.z)))
  {
    if a.x != b.x then a.x < b.x
    else if a.y != b.y then a.y < b.y
    else a.z < b.z
  }

  /** The comparator is the lexicographic order on (x, y, z). */
  lemma LessIsLexicographic(a: ChunkPos, b: ChunkPos)
    ensures Less(a, b) <==> a.x < b.x || (a.x == b.x && a.y < b.y) || (a.x == b.x && a.y == b.y && a.z < b.z)
  {
  }

  /** The comparator is a strict total order, as `std::map` requires of its key. */
  lemma LessStrictTotalOrder(a: ChunkPos, b: ChunkPos, c: ChunkPos)
    ensures !Less(a, a)
    ensures Less(a, b) ==> !Less(b, a)
    ensures Less(a, b) && Less(b, c) ==> Less(a, c)
    ensures a == b || Less(a, b) || Less(b, a)
  {
  }

  // ---------------------------------------------------------------------
  // The test grid

  /** Half the side of the grid, in chunks. */
  const RenderDistance: int := 32
  /** Side of the grid, in chunks. */
  const GridSide: int := 64
  /** Number of chunks in the grid. */
  const GridCount: int := 4096
  /** Capacity of the indirect-command and chunk-data buffers, in chunks. */
  const MaxChunks: int := 10000

  /** The key of the i-th chunk the grid loops create: x outer, z inner, both from -32 to 31. */
  function GridKey(i: int): ChunkPos
    requires 0 <= i < GridCount
  {
    ChunkPos(i / GridSide - RenderDistance, 0, i % GridSide - RenderDistance)
  }

  function GridKeys(): (keys: seq<ChunkPos>)
    ensures |keys| == GridCount
  {
    seq(GridCount, i requires 0 <= i < GridCount => GridKey(i))
  }

  /** A key of the grid: y = 0 and x, z in [-32, 32). */
  predicate InGrid(p: ChunkPos) {
    -RenderDistance <= p.x < RenderDistance && p.y == 0 && -RenderDistance <= p.z < RenderDistance
  }

  /** Where the loops put the chunk at (x, 0, z). */
  function GridIndex(x: int, z: int): int {
    (x + RenderDistance) * GridSide + (z + RenderDistance)
  }

  lemma GridKeyAt(x: int, z: int)
    requires -RenderDistance <= x < RenderDistance && -RenderDistance <= z < RenderDistance
    ensures 0 <= GridIndex(x, z) < GridCount
    ensures GridKey(GridIndex(x, z)) == ChunkPos(x, 0, z)
  {
    var i := GridIndex(x, z);
    assert i / GridSide == x + RenderDistance && i % GridSide == z + RenderDistance;
  }

  /** The grid holds exactly the positions `InGrid` describes, 64 x 64 = 4096 of them, within `MaxChunks`. */
  lemma GridKeysExact(p: ChunkPos)
    ensures p in GridKeys() <==> InGrid(p)
    ensures |GridKeys()| == GridSide * GridSide <= MaxChunks
  {
    if InGrid(p) {
      GridKeyAt(p.x, p.z);
      assert GridKeys()[GridIndex(p.x, p.z)] == p;
    }
  }

  /**
   * The loops create the keys in strictly increasing `Less` order, so they
   * are distinct and are also the order in which the world map is iterated.
   */
  lemma GridKeysSorted(i: int, j: int)
    requires 0 <= i < j < GridCount
    ensures Less(GridKeys()[i], GridKeys()[j])
  {
    var a, b := GridKeys()[i], GridKeys()[j];
    assert i == (a.x + RenderDistance) * GridSide + (a.z + RenderDistance);
    assert j == (b.x + RenderDistance) * GridSide + (b.z + RenderDistance);
  }

  /** The world position of a chunk: its key scaled by `ChunkSize`, as the renderer stores it. */
  function WorldPos(p: ChunkPos): (int, int, int) {
    (p.x * Chunks.ChunkSize, 0, p.z * Chunks.ChunkSize)
  }

  /**
   * The grid loops of `initTestChunk`: the keys in creation order and, in the
   * same order, the chunk world positions pushed into the position list.
   */
  method BuildGrid() returns (keys: seq<ChunkPos>, positions: seq<(int, int, int)>)
    ensures keys == GridKeys()
    ensures |positions| == |keys|
    ensures forall i :: 0 <= i < |positions| ==> positions[i] == WorldPos(keys[i])
  {
    keys, positions := [], [];
    var x := -RenderDistance;
    while x < RenderDistance
      invariant -RenderDistance <= x <= RenderDistance
      invariant |keys| == |positions| == (x + RenderDistance) * GridSide
      invariant forall i :: 0 <= i < |keys| ==> keys[i] == GridKey(i)
      invariant forall i :: 0 <= i < |positions| ==> positions[i] == WorldPos(keys[i])
    {
      var z := -RenderDistance;
      while z < RenderDistance
        invariant -RenderDistance <= z <= RenderDistance
        invariant |keys| == |positions| == GridIndex(x, z)
        invariant forall i :: 0 <= i < |keys| ==> keys[i] == GridKey(i)
        invariant forall i :: 0 <= i < |positions| ==> positions[i] == WorldPos(keys[i])
      {
        GridKeyAt(x, z);
        var pos := ChunkPos(x, 0, z);
        keys := keys + [pos];
        positions := positions + [(x * Chunks.ChunkSize, 0, z * Chunks.ChunkSize)];
        z := z + 1;
      }
      x := x + 1;
    }
  }

  /** The world map the grid loops fill: every grid key holds a staircase chunk. */
  function GridWorld(): (world: map<ChunkPos, Chunks.Chunk>)
    ensures forall p :: p in world <==> InGrid(p)
    ensures forall p :: p in world ==> world[p] == Chunks.StaircaseChunk()
  {
    var world := map p | p in GridKeys() :: Chunks.StaircaseChunk();
    assert forall p :: p in world <==> InGrid(p) by {
      forall p
        ensures p in world <==> InGrid(p)
      {
        GridKeysExact(p);
      }
    }
    world
  }

  // ---------------------------------------------------------------------
  // Neighbours

  /** `findNeighbor`: the chunk at `pos` offset by (dx, dy, dz), when the map has one. */
  function FindNeighbor(world: map<ChunkPos, Chunks.Chunk>, pos: ChunkPos, dx: int, dy: int, dz: int): (r: Option<Chunks.Chunk>)
    ensures r.Some? <==> ChunkPos(pos.x + dx, pos.y + dy, pos.z + dz) in world
    ensures r.Some? ==> r.value == world[ChunkPos(pos.x + dx, pos.y + dy, pos.z + dz)]
  {
    var key := ChunkPos(pos.x + dx, pos.y + dy, pos.z + dz);
    if key in world then Some(world[key]) else None
  }

  /** The six neighbours the loop looks up, in the order it looks them up. */
  datatype Neighbours = Neighbours(
    north: Option<Chunks.Chunk>, south: Option<Chunks.Chunk>,
    east: Option<Chunks.Chunk>, west: Option<Chunks.Chunk>,
    top: Option<Chunks.Chunk>, bottom: Option<Chunks.Chunk>)

  /** `o` is the result of looking `key` up in `world`. */
  predicate LookedUp(o: Option<Chunks.Chunk>, world: map<ChunkPos, Chunks.Chunk>, key: ChunkPos) {
    (o.Some? <==> key in world) && (o.Some? ==> o.value == world[key])
  }

  /**
   * The six lookups of the meshing loop: each neighbour is present exactly
   * when the map holds the key one step away (North +z, South -z, East +x,
   * West -x, Top +y, Bottom -y), and is then that chunk.
   */
  function NeighboursOf(world: map<ChunkPos, Chunks.Chunk>, pos: ChunkPos): (n: Neighbours)
    ensures LookedUp(n.north, world, ChunkPos(pos.x, pos.y, pos.z + 1))
    ensures LookedUp(n.south, world, ChunkPos(pos.x, pos.y, pos.z - 1))
    ensures LookedUp(n.east, world, ChunkPos(pos.x + 1, pos.y, pos.z))
    ensures LookedUp(n.west, world, ChunkPos(pos.x - 1, pos.y, pos.z))
    ensures LookedUp(n.top, world, ChunkPos(pos.x, pos.y + 1, pos.z))
    ensures LookedUp(n.bottom, world, ChunkPos(pos.x, pos.y - 1, pos.z))
  {
    Neighbours(
      FindNeighbor(world, pos, 0, 0, 1), FindNeighbor(world, pos, 0, 0, -1),
      FindNeighbor(world, pos, 1, 0, 0), FindNeighbor(world, pos, -1, 0, 0),
      FindNeighbor(world, pos, 0, 1, 0), FindNeighbor(world, pos, 0, -1, 0))
  }

  /**
   * In the test grid a horizontal neighbour is present exactly when the
   * offset position is still in the grid, and the vertical neighbours are
   * always absent because every chunk sits at y = 0.
   */
  lemma GridNeighbours(pos: ChunkPos)
    requires InGrid(pos)
    ensures var n := NeighboursOf(GridWorld(), pos);
            && (n.north.Some? <==> pos.z + 1 < RenderDistance)
            && (n.south.Some? <==> -RenderDistance <= pos.z - 1)
            && (n.east.Some? <==> pos.x + 1 < RenderDistance)
            && (n.west.Some? <==> -RenderDistance <= pos.x - 1)
            && n.top.None? && n.bottom.None?
  {
  }

  // ---------------------------------------------------------------------
  // Uploading the shared mesh

  /** A mesh the loop skips: no vertices or no indices. */
  predicate IsEmptyMesh(m: Mesher.Mesh) {
    |m.vertices| == 0 || |m.indices| == 0
  }

  /** The loop's state: the pool, the shared allocation and the number of uploads made. */
  datatype Uploading = Uploading(pool: Pool, shared: Allocation, uploads: nat)

  /**
   * The loop over the world map's meshes: empty meshes are skipped and a
   * mesh is uploaded only while the shared allocation's index count is 0.
   */
  function UploadLoop(s: Uploading, meshes: seq<Mesher.Mesh>): (r: Result<Uploading, string>)
    ensures r.Ok? ==> s.uploads <= r.value.uploads <= s.uploads + 1
    ensures r.Ok? && r.value.uploads == s.uploads ==> r.value == s
    ensures r.Ok? && s.shared.indexCount != 0 ==> r.value.uploads == s.uploads
    ensures r.Err? ==> r.error == "MeshBufferPool is out of memory!"
    decreases |meshes|
  {
    if |meshes| == 0 then Ok(s)
    else if IsEmptyMesh(meshes[0]) || s.shared.indexCount != 0 then UploadLoop(s, meshes[1..])
    else
      match UploadMesh(s.pool, meshes[0].indices, meshes[0].vertices)
      case Err(e) => Err(e)
      case Ok(u) => UploadLoop(Uploading(u.pool, u.allocation, s.uploads + 1), meshes[1..])
  }

  /** Position of the first mesh the loop does not skip, if any. */
  function FirstNonEmpty(meshes: seq<Mesher.Mesh>): (r: Option<nat>)
    ensures r.Some? ==> r.value < |meshes| && !IsEmptyMesh(meshes[r.value]) &&
                        forall k :: 0 <= k < r.value ==> IsEmptyMesh(meshes[k])
    ensures r.None? ==> forall k :: 0 <= k < |meshes| ==> IsEmptyMesh(meshes[k])
  {
    if |meshes| == 0 then None
    else if !IsEmptyMesh(meshes[0]) then Some(0)
    else match FirstNonEmpty(meshes[1..])
      case None => None
      case Some(k) => Some(k + 1)
  }

  /** Once an allocation is held, the loop uploads nothing and changes nothing. */
  lemma {:induction false} UploadLoopHeld(s: Uploading, meshes: seq<Mesher.Mesh>)
    requires s.shared.indexCount != 0
    ensures UploadLoop(s, meshes) == Ok(s)
    decreases |meshes|
  {
    if |meshes| > 0 {
      UploadLoopHeld(s, meshes[1..]);
    }
  }

  /**
   * Starting with no allocation, the loop uploads the first non-empty mesh
   * and nothing else: it fails only when that mesh does not fit, otherwise
   * it makes exactly one upload (none if every mesh is empty) and the shared
   * allocation is that mesh's, with a non-zero index count.
   */
  lemma {:induction false} UploadLoopOnce(s: Uploading, meshes: seq<Mesher.Mesh>)
    requires s.shared.indexCount == 0
    ensures var r := UploadLoop(s, meshes);
            match FirstNonEmpty(meshes)
            case None => r == Ok(s)
            case Some(k) =>
              var m := meshes[k];
              && (r.Err? <==> !Fits(s.pool, |m.indices|, |m.vertices|))
              && (r.Ok? ==>
                    && r.value.uploads == s.uploads + 1
                    && r.value.shared == Allocation(|m.indices|, s.pool.indexOffset, s.pool.vertexOffset)
                    && r.value.shared.indexCount != 0
                    && r.value.pool == UploadMesh(s.pool, m.indices, m.vertices).value.pool)
    decreases |meshes|
  {
    if |meshes| > 0 {
      if IsEmptyMesh(meshes[0]) {
        UploadLoopOnce(s, meshes[1..]);
      } else {
        var u := UploadMesh(s.pool, meshes[0].indices, meshes[0].vertices);
        if u.Ok? {
          UploadLoopHeld(Uploading(u.value.pool, u.value.allocation, s.uploads + 1), meshes[1..]);
        }
      }
    }
  }

  /**
   * The meshes the loop sees, in the world map's iteration order: by
   * `GridKeysSorted` that is the order the grid loops created the keys in.
   */
  function GridMeshes(meshOf: (Chunks.Chunk, Neighbours) -> Mesher.Mesh): (meshes: seq<Mesher.Mesh>)
    ensures |meshes| == GridCount
  {
    var keys := GridKeys();
    var world := GridWorld();
    seq(GridCount, i requires 0 <= i < GridCount => meshOf(world[keys[i]], NeighboursOf(world, keys[i])))
  }

  /** The result of `initTestChunk`: the position list, the pool and the shared allocation. */
  datatype TestWorld = TestWorld(positions: seq<(int, int, int)>, pool: Pool, shared: Allocation)

  /**
   * `initTestChunk`. The neighbour-aware mesher it calls is not part of this
   * model, so `meshOf` stands for it. The pool is reset first; the meshes are
   * visited in key order; it throws when no allocation is held at the end.
   * An `Err` carries only the message: the model drops the positions
   * already built and the reset pool with it.
   */
  function InitTestChunk(pool: Pool, shared: Allocation, meshOf: (Chunks.Chunk, Neighbours) -> Mesher.Mesh): (r: Result<TestWorld, string>)
    ensures r.Ok? ==> |r.value.positions| == GridCount && r.value.shared.indexCount != 0
    ensures r.Ok? ==> forall i :: 0 <= i < GridCount ==> r.value.positions[i] == WorldPos(GridKeys()[i])
  {
    var keys := GridKeys();
    var positions := seq(GridCount, i requires 0 <= i < GridCount => WorldPos(keys[i]));
    match UploadLoop(Uploading(Reset(pool), shared, 0), GridMeshes(meshOf))
    case Err(e) => Err(e)
    case Ok(s) =>
      if s.shared.indexCount == 0 then Err("Failed to generate chunk mesh: no vertices or indices")
      else Ok(TestWorld(positions, s.pool, s.shared))
  }

  /**
   * A second call, with an allocation already held, uploads nothing: it
   * succeeds with the pool reset and the old allocation kept, even though
   * that allocation now lies in space the pool will hand out again.
   */
  lemma InitTestChunkAgain(pool: Pool, shared: Allocation, meshOf: (Chunks.Chunk, Neighbours) -> Mesher.Mesh)
    requires shared.indexCount != 0
    ensures var r := InitTestChunk(pool, shared, meshOf);
            r.Ok? && r.value.shared == shared && r.value.pool == Reset(pool) &&
            r.value.pool.indexOffset == 0
  {
    UploadLoopHeld(Uploading(Reset(pool), shared, 0), GridMeshes(meshOf));
  }

  /**
   * A first call throws exactly when every mesh is empty or the first
   * non-empty one does not fit the reset pool; otherwise the shared
   * allocation is that mesh's, at the start of both buffers.
   */
  lemma InitTestChunkFirst(pool: Pool, meshOf: (Chunks.Chunk, Neighbours) -> Mesher.Mesh)
    ensures var meshes := GridMeshes(meshOf);
            var r := InitTestChunk(pool, NotUploaded, meshOf);
            match FirstNonEmpty(meshes)
            case None => r == Err("Failed to generate chunk mesh: no vertices or indices")
            case Some(k) =>
              var m := meshes[k];
              && (r.Ok? <==> |m.vertices| * WordSize <= VertexBufferSize && |m.indices| * WordSize <= IndexBufferSize)
              && (r.Ok? ==> r.value.shared == Allocation(|m.indices|, 0, 0))
  {
    UploadLoopOnce(Uploading(Reset(pool), NotUploaded, 0), GridMeshes(meshOf));
  }

  // ---------------------------------------------------------------------
  // The draw lists

  /** `VkDrawIndexedIndirectCommand`: five 4-byte fields, 20 bytes. */
  datatype DrawCommand = DrawCommand(indexCount: U32, instanceCount: U32, firstIndex: U32, vertexOffset: I32, firstInstance: U32)
  const DrawCommandSize: int := 20

  /** `GPUChunkData`: a world position and a padding float, 16 bytes. */
  datatype ChunkData = ChunkData(worldPos: (int, int, int), padding: int)
  const ChunkDataSize: int := 16

  /** The command every chunk gets: the shared mesh, one instance, first instance 0. */
  function SharedCommand(shared: Allocation): DrawCommand {
    DrawCommand(shared.indexCount, 1, shared.firstIndex, shared.vertexOffset, 0)
  }

  /**
   * The list-building loop of `drawVoxels`: one command and one chunk-data
   * record per position, in position order.
   */
  method BuildDrawLists(positions: seq<(int, int, int)>, shared: Allocation) returns (commands: seq<DrawCommand>, data: seq<ChunkData>)
    ensures |commands| == |data| == |positions|
    ensures forall i :: 0 <= i < |commands| ==> commands[i] == SharedCommand(shared)
    ensures forall i :: 0 <= i < |data| ==> data[i] == ChunkData(positions[i], 0)
  {
    commands, data := [], [];
    var i := 0;
    while i < |positions|
      invariant 0 <= i <= |positions|
      invariant |commands| == |data| == i
      invariant forall k :: 0 <= k < i ==> commands[k] == SharedCommand(shared)
      invariant forall k :: 0 <= k < i ==> data[k] == ChunkData(positions[k], 0)
    {
      commands := commands + [DrawCommand(shared.indexCount, 1, shared.firstIndex, shared.vertexOffset, 0)];
      data := data + [ChunkData(positions[i], 0)];
      i := i + 1;
    }
  }

  /** What `drawVoxels` hands to the GPU: the two upload sizes in bytes and the draw count. */
  datatype DrawUpload = DrawUpload(commandBytes: nat, dataBytes: nat, drawCount: U32)

  /**
   * The upload step of `drawVoxels`: nothing when there are no commands,
   * otherwise each array's length times its element size and the command
   * count as the draw count. No comparison with `MaxChunks` is made.
   */
  function PlanUpload(commands: seq<DrawCommand>, data: seq<ChunkData>): (r: Option<DrawUpload>)
    ensures r.None? <==> |commands| == 0
    ensures r.Some? ==> r.value.commandBytes == |commands| * DrawCommandSize && r.value.dataBytes == |data| * ChunkDataSize
    ensures r.Some? && |commands| < Two32 ==> r.value.drawCount == |commands|
  {
    if |commands| == 0 then None
    else Some(DrawUpload(|commands| * DrawCommandSize, |data| * ChunkDataSize, ToU32(|commands|)))
  }

  /**
   * The uploads stay inside the two buffers sized for `MaxChunks` chunks
   * exactly when there are at most `MaxChunks` chunks; the grid's 4096
   * always do.
   */
  lemma UploadFitsBuffers(commands: seq<DrawCommand>, data: seq<ChunkData>)
    requires |commands| == |data| > 0
    ensures var u := PlanUpload(commands, data).value;
            (u.commandBytes <= DrawCommandSize * MaxChunks && u.dataBytes <= ChunkDataSize * MaxChunks) <==> |commands| <= MaxChunks
    ensures |commands| == GridCount ==> PlanUpload(commands, data).value.commandBytes <= DrawCommandSize * MaxChunks
  {
  }
}

=== FILE: vulkan.dfy ===
/**
 * The slice of the Vulkan API the renderer's protocol depends on: result
 * codes, `checkVkResult`, and fences as the three-state objects of section
 * 7.3 of the Khronos Vulkan 1.3 specification. Whether submitted GPU work
 * finishes within a wait's timeout is a parameter supplied by the caller.
 */
module Vulkan {
  import opened Wrappers

  /** The result codes the modelled calls can return. */
  datatype VkResult =
    | Success
    | NotReady
    | Timeout
    | SuboptimalKhr
    | ErrorOutOfHostMemory
    | ErrorOutOfDeviceMemory
    | ErrorDeviceLost
    | ErrorFragmentedPool
    | ErrorOutOfPoolMemory
    | ErrorOutOfDateKhr

  /** Timeout of every fence wait and image acquisition: one second, in nanoseconds. */
  const TimeoutNs: int := 1_000_000_000

  /**
   * `Renderer::checkVkResult`: returns normally on success and throws the
   * given message on any other result, including the non-error
   * `VK_SUBOPTIMAL_KHR` and `VK_TIMEOUT`.
   */
  function CheckVkResult(result: VkResult, message: string): (r: Result<(), string>)
    ensures r.Ok? <==> result == Success
    ensures r.Err? ==> r.error == message
  {
    if result != Success then Err(message) else Ok(())
  }

  /**
   * A fence's state: signaled; unsignaled with no queue operation that will
   * signal it; or unsignaled with a submission pending that signals it on
   * completion.
   */
  datatype FenceState = Signaled | Unsignaled | Pending

  /**
   * `vkWaitForFences` on one fence with a finite timeout. A signaled fence
   * returns success at once; a pending one completes, and is then signaled,
   * exactly when `gpuCompletes` says its work finishes within the timeout;
   * an unsignaled fence with nothing pending can only time out.
   */
  function WaitForFence(f: FenceState, gpuCompletes: bool): (r: (FenceState, VkResult))
    ensures r.1 == Success <==> r.0 == Signaled
    ensures r.1 == Success || r.1 == Timeout
    ensures f == Unsignaled ==> r == (Unsignaled, Timeout)
    ensures f == Signaled ==> r == (Signaled, Success)
  {
    match f
    case Signaled => (Signaled, Success)
    case Pending => if gpuCompletes then (Signaled, Success) else (Pending, Timeout)
    case Unsignaled => (Unsignaled, Timeout)
  }

  /**
   * `vkResetFences`: the fence becomes unsignaled. The specification forbids
   * resetting a fence whose queue operation has not completed.
   */
  function ResetFence(f: FenceState): (r: FenceState)
    requires f != Pending
    ensures r == Unsignaled
  {
    Unsignaled
  }

  /**
   * A queue submission carrying the fence: the fence must be unsignaled and
   * not in use by another submission, and becomes pending.
   */
  function SubmitWithFence(f: FenceState): (r: FenceState)
    requires f == Unsignaled
    ensures r == Pending
  {
    Pending
  }

  /** `vkDeviceWaitIdle`: every pending submission completes. */
  function DeviceWaitIdle(f: FenceState): (r: FenceState)
    ensures r != Pending
    ensures f != Pending ==> r == f
  {
    if f == Pending then Signaled else f
  }

  /**
   * One full fence cycle of a frame: wait, reset, submit, and the next wait
   * succeeds exactly when the GPU finishes the submitted work in time.
   */
  lemma FenceCycle(gpuCompletes: bool)
    ensures var waited := WaitForFence(Signaled, false).0;
            var submitted := SubmitWithFence(ResetFence(waited));
            (WaitForFence(submitted, gpuCompletes).1 == Success) == gpuCompletes
  {
  }
}

=== FILE: wrappers.dfy ===
/** Failure-carrying result types shared by the whole model. */
module Wrappers {

  /** An optional value: a present neighbour chunk, a found map entry. */
  datatype Option<+T> = None | Some(value: T)

  /** Either a value or the error a C++ `throw` would have raised. */
  datatype Result<+T, +E> = Ok(value: T) | Err(error: E) {
    predicate IsFailure() { Err? }
  }
}
